=== FILE: README.md ===
# anteater-events in Dafny

A model of the event map's core: the Django views that list, create and search campus events, and the React page that draws them as map markers. It covers:

- the `App` component's marker bookkeeping and its create flow;
- the search bar's query parsing and routing;
- the create form's submit handler;
- the GeoJSON demo markers;
- the `createMarker` popup builder.

Every operation is a pure function over immutable data. Asynchronous steps are taken to run to completion one after another. The code outside the model enters as function parameters:

- the Supabase client, the HTTP client and `fetch`;
- JavaScript's `Date` and Python's `datetime.fromisoformat`, `float` and `str`;
- the HTML escaper.

Modules, one per concern:

| module | file | models |
|---|---|---|
| `Values` | values.dfy | `Option`, numbers as JavaScript sees them (`Float` with NaN and infinities), positions, event records |
| `Text` | text.dfy | `trim`/`strip`, `split`, `join`, ASCII lower-casing, and the split-trim-filter idiom used on both sides |
| `Numerals` | numerals.dfy | decimal text and `padStart(2, '0')` |
| `Views` | views.dfy | backend/app/views.py |
| `DayTime` | day_time.dfy | the day and time normalisation inside `handleCreateSubmit` |
| `CreateMarker` | create_marker.dfy | `createMarker` |
| `GeojsonMarkers` | geojson_markers.dfy | `changeToTimeFormat` and `addGeoJSONMarkers` |
| `CreateDetails` | create_details.dfy | the form's `handleSubmit` |
| `SearchBar` | search_bar.dfy | `extractCategoriesFromQuery`, `sendDataFromSearchBar`, `handleSearchKey`, `onGeminiActivate` |
| `App` | app.dfy | `App` |
| `Wire` | wire.dfy | the front end's requests as the back end reads them |

In three places the written code does something other than what its documentation describes. The model follows the code:

- A comma does not end a hashtag: `#food, #music` yields the categories `food,` and `music` (`SearchBar.CommaStaysInHashtag`).
- An unreadable time in the demo data is shown as `12:NaN  AM`, not passed through (`GeojsonMarkers.ChangeToTimeFormat`).
- `loadEvents` draws a non-empty answer after the markers already on the map instead of replacing them (`App.LoadEventsAsWritten`). This last one is logged under Findings.

Every handler that reloads through `loadEvents` is therefore defined twice: `...AsWritten` with the appending loader, and the plain name with the corrected loader `App.LoadEvents`. Lemmas relate the two halves. The map's `load` handler (`App.Bootstrap`) is modelled only as written.

## Model

| member | source | states |
|---|---|---|
| Views.ParseIso8601 | backend/app/views.py:23-26 | text without a trailing `Z` is parsed as given; with one, every `Z` is replaced by `+00:00`, so the parsed text has no `Z` left and ends in `+00:00` |
| Views.ZuluSuffix | backend/app/views.py:23-26 | a trailing `Z` is parsed as the offset `+00:00`; text without `Z` is parsed as given |
| Views.ItemPiecesArePieces | backend/app/views.py:34-38 | the two branches of the list-element loop agree with "split on commas, strip, drop empties" |
| Views.ToList | backend/app/views.py:28-40 | `None` gives no categories; every category produced is non-empty, stripped and comma-free |
| Views.ToListSingle | backend/app/views.py:28-40 | a list holding one value that is neither `None` nor a list gives the same categories as that value alone |
| Views.ItemsToListAppend | backend/app/views.py:31-39 | the categories of a list are those of its elements, concatenated in order |
| Views.ToListIdempotent | backend/app/views.py:28-40 | normalising an already normalised category list changes nothing |
| Views.TagsToList | backend/app/views.py:31-39 | a list of clean tags is read back unchanged |
| Views.TagsRoundTrip | backend/app/views.py:28-40 | a JSON array of clean tags is read back as exactly those tags |
| Views.MissingOf | backend/app/views.py:43-44 | the missing keys are exactly the required keys absent from the payload, in the required order |
| Views.MissingIffIncomplete | backend/app/views.py:44-46 | some key is reported missing if and only if a required key is absent |
| Views.ValidateEvent | backend/app/views.py:42-64 | no error iff every check passes; missing keys come first and are all reported; each later error holds exactly when its own check fails and every earlier one passed: times parse, end after start, both numbers, latitude, longitude, categories |
| Views.CheckTimes | backend/app/views.py:47-53 | an unparsable time is reported before an end that is not after the start; with both times in order the coordinate checks decide, and the result is neither time error exactly then |
| Views.CheckPlace | backend/app/views.py:54-63 | each error iff its own check fails after every earlier one passed: numbers, then latitude in [-90, 90], then longitude in [-180, 180], then a non-empty category list; no error iff all pass |
| Views.ValidIsNormalizable | backend/app/views.py:70-84 | a payload that passes validation can be normalised without raising |
| Views.DocFields | backend/app/views.py:71-84 | the columns always written: title and description as sent, the day and the two times of the parsed instants, the coordinates as floats, the categories as `_to_list` reads them |
| Views.NormalizeEvent | backend/app/views.py:70-87 | the stored document has exactly those columns plus an `id`, and it has the `id` exactly when the payload's is truthy, holding the payload's value |
| Views.StoredDoc | backend/app/views.py:132-135 | the stored document always has an `id`: the payload's when truthy, otherwise the fresh identifier |
| Views.NormalizedId | backend/app/views.py:85-86 | the normalised document has a truthy `id` iff the payload had one |
| Views.Post | backend/app/views.py:122-149 | undecodable body gives 400; a validation error gives 422 with its message; a valid payload is answered exactly as storing its normalised document with the fresh identifier: 201 when the insert returns, 500 when it raises |
| Views.Store | backend/app/views.py:137-149 | an insert that raises gives 500 with its message; an insert echoing no rows answers with the stored document as the feature |
| Views.PostEchoesDocument | backend/app/views.py:137-149 | for a valid payload and an insert that echoes nothing, the reply is 201 with the stored document as a feature |
| Views.FeatureOfStoredDoc | backend/app/views.py:144-148 | the created feature is a point at `[longitude, latitude]` whose properties are every other column, the identifier included |
| Views.ListGet | backend/app/views.py:94-119 | 400 iff the day is missing or empty or the categories are missing or the first is empty, the day checked first; otherwise the selection runs once, by day alone for `all` and by overlap with all the values given, and its rows give 200 while a raised query, and only that, goes unhandled |
| Views.Columns | backend/app/views.py:71-84 | the document has exactly the written columns, each holding the value given for it |
| Views.SearchGet | backend/app/views.py:167-186 | 400 with the missing-search message iff the stripped search text is empty; otherwise 200 with the rows iff the day-and-text query returns rows, and 500 with the query's error message iff it raises |
| Text.TrimStart | my-react-app/src/components/search_bar.tsx:87 | a suffix of the text that starts with no whitespace, everything cut off being whitespace |
| Text.TrimEnd | my-react-app/src/components/search_bar.tsx:87 | a prefix of the text that ends with no whitespace, everything cut off being whitespace |
| Text.Trim | my-react-app/src/components/search_bar.tsx:87 | the result has no whitespace at either end |
| Text.TrimIsSlice | my-react-app/src/components/search_bar.tsx:87 | the trimmed text is a slice of the text, everything outside the slice being whitespace |
| Text.TrimUnique | my-react-app/src/components/search_bar.tsx:87 | any slice with only whitespace outside it and none at its own ends is the trimmed text |
| Text.TrimSkipsLeadingSpace | my-react-app/src/App.tsx:179 | one more whitespace character in front does not change the trimmed text |
| Text.TrimSkipsTrailingSpace | my-react-app/src/App.tsx:179 | one more whitespace character at the end does not change the trimmed text |
| Text.TrimOfTrimmed | my-react-app/src/App.tsx:179 | text without whitespace at either end is left as it is |
| Text.TrimIdempotent | my-react-app/src/components/search_bar.tsx:209 | trimming a trimmed query changes nothing |
| Text.Split | my-react-app/src/App.tsx:190 | at least one field, and no field holds the separator |
| Text.JoinSplit | my-react-app/src/components/create_details.tsx:37 | joining the pieces of a split with the separator gives back the text |
| Text.SplitJoin | my-react-app/src/App.tsx:67 | splitting a join of separator-free pieces gives back the pieces |
| Text.SplitFindsSep | my-react-app/src/App.tsx:190-191 | splitting yields two or more fields iff the separator occurs |
| Text.Pieces | my-react-app/src/components/create_details.tsx:37 | split on commas, trimmed, empties dropped: every piece is a clean tag |
| Text.PiecesAround | my-react-app/src/components/create_details.tsx:37 | the pieces of `a,b` are the pieces of `a` followed by those of `b` |
| Text.PiecesOfJoin | my-react-app/src/App.tsx:67 | clean tags joined with `,` split back into the same tags |
| Text.Lower | my-react-app/src/components/search_bar.tsx:141 | same length, each ASCII capital replaced by its small letter and every other character kept |
| Text.ReplaceAll | backend/app/views.py:25 | replacing a character by text free of it leaves none of it behind |
| Text.ReplaceAllAbsent | backend/app/views.py:25 | replacing a character that does not occur changes nothing |
| Text.PiecesOfDisplayJoin | my-react-app/src/utils/createMarker.tsx:45 | clean tags joined with `, ` split back into the same tags |
| Numerals.ValueOfPadStart2 | my-react-app/src/App.tsx:185 | zero-padding a digit run keeps its value |
| Numerals.PadStart2 | my-react-app/src/App.tsx:185 | text of two or more characters is kept; shorter text is filled on the left to two characters, ending with the text |
| Numerals.Two | my-react-app/src/components/marker.tsx:21 | a number below 100 padded to two digits is two digits denoting that number |
| DayTime.MatchDay | my-react-app/src/App.tsx:184 | a match yields three digit runs of lengths 4, 1-2 and 1-2 that rebuild the input with hyphens |
| DayTime.MatchRender | my-react-app/src/App.tsx:184 | every well-formed `YYYY-M-D` text matches, with exactly its three fields |
| DayTime.NormalizeDay | my-react-app/src/App.tsx:183-187 | a matching day becomes 10 characters `YYYY-MM-DD` denoting the same month and day; anything else is unchanged |
| DayTime.NormalizeDayIdempotent | my-react-app/src/App.tsx:209-213 | normalising a normalised day changes nothing |
| DayTime.NormalizeTime | my-react-app/src/App.tsx:189-195 | with a colon, the first two fields are padded and joined by one colon, the rest dropped; without one, unchanged |
| DayTime.NormalizeClock | my-react-app/src/App.tsx:189-195 | a typed `H:M` becomes both fields padded to two digits around one colon |
| DayTime.NormalizeTimeIdempotent | my-react-app/src/App.tsx:189-195 | normalising a normalised time changes nothing |
| DayTime.CandidateShape | my-react-app/src/App.tsx:197-199 | a `YYYY-M-D` day and `H:M` time give a 20-character `YYYY-MM-DDTHH:MM:00Z` whose fields denote the typed numbers |
| DayTime.DayUsed | my-react-app/src/App.tsx:179 | a form day that is not blank is used trimmed, and is then non-empty with no whitespace at either end; a blank one gives the page's day |
| DayTime.DayUsedIgnoresPadding | my-react-app/src/App.tsx:179 | whitespace around the form's day does not change the day used |
| DayTime.ToIso | my-react-app/src/App.tsx:173-206 | no time gives empty; a time with `T` passes through; otherwise the form's trimmed day (else the page's day) and the time are combined, and an unreadable instant gives empty |
| CreateMarker.OrEmpty | my-react-app/src/utils/createMarker.tsx:39-42 | `x \|\| ''`: the text when set and non-empty, otherwise empty |
| CreateMarker.TimeText | my-react-app/src/utils/createMarker.tsx:44 | ` - ` and the end appear only when both start and end are set |
| CreateMarker.Create | my-react-app/src/utils/createMarker.tsx:31-48 | the marker sits at the given position; it has a tooltip iff the title is set, equal to it; a popup iff title or description is set |
| CreateMarker.PopupHtml | my-react-app/src/utils/createMarker.tsx:38-46 | the popup begins with the template's head and the escaped title; the escaped description, the escaped day and the time slot (the escaped start, with ` - ` and the escaped end only when both are set) each sit right after their label; it ends with the escaped categories line and the template's tail; a missing field shows as empty |
| CreateMarker.LayoutSlots | my-react-app/src/utils/createMarker.tsx:38-46 | in the filled-in template, the description, the day and the time each sit at the offset the fixed text and the earlier slots give them |
| CreateMarker.MissingCategoriesReadEmpty | my-react-app/src/utils/createMarker.tsx:45 | a marker for data without categories is the marker for the empty category list |
| CreateMarker.LayoutCount | my-react-app/src/utils/createMarker.tsx:38-46 | the popup's `<` count is the template's plus what its five slots bring |
| CreateMarker.PopupTagsFixed | my-react-app/src/utils/createMarker.tsx:38-46 | when escaping never emits `<`, every popup carries exactly the template's tags whatever the event holds |
| CreateMarker.CategoryTextReadsBack | my-react-app/src/utils/createMarker.tsx:45 | the categories line reads back as the list it shows when escaping leaves the tags alone |
| GeojsonMarkers.Hour12 | my-react-app/src/components/marker.tsx:24 | the 12-hour value is in 1..12 and agrees with the hour modulo 12 |
| GeojsonMarkers.Format12 | my-react-app/src/components/marker.tsx:20-28 | the clock text is 9 characters: two digits, `:`, two digits, two spaces, meridiem |
| GeojsonMarkers.ChangeToTimeFormat | my-react-app/src/components/marker.tsx:18-29 | an invalid date prints `12:NaN  AM`; a valid one prints its UTC clock |
| GeojsonMarkers.ReadFormat12 | my-react-app/src/components/marker.tsx:18-29 | every printed clock reads back as the same hour and minute, and says `PM` exactly from noon on |
| GeojsonMarkers.InvalidIsNotAClock | my-react-app/src/components/marker.tsx:18-29 | the invalid-date text is not the text of any clock |
| GeojsonMarkers.TextProp | my-react-app/src/components/marker.tsx:52-56 | a string property of that name is returned as it is; anything else gives empty text |
| GeojsonMarkers.ListProp | my-react-app/src/components/marker.tsx:61 | an array property of that name is returned as it is; anything else gives the empty list |
| GeojsonMarkers.FeatureMarker | my-react-app/src/components/marker.tsx:41-81 | the marker sits at the feature's coordinates; tooltip iff the title is a non-empty string, equal to it; popup iff title or description is, holding the unescaped title, description, day and categories and both times in 12-hour form |
| GeojsonMarkers.DemoPopup | my-react-app/src/components/marker.tsx:67-79 | the demo popup begins with its head and the unescaped title; the unescaped description and day each sit right after their label; it ends with the categories joined by `, ` and its tail |
| GeojsonMarkers.DemoTextSlots | my-react-app/src/components/marker.tsx:67-79 | in the filled-in demo template, the description and the day each sit at the offset the fixed text and the earlier fields give them |
| GeojsonMarkers.DemoTimeLine | my-react-app/src/components/marker.tsx:67-77 | the demo popup's time line sits at a fixed offset after the title, description and day, holding the start, ` - ` and the end |
| GeojsonMarkers.DemoTimesReadBack | my-react-app/src/components/marker.tsx:56-77 | two clocks printed into the demo popup read back from it as the same clocks, around ` - ` |
| GeojsonMarkers.FeatureTimesReadBack | my-react-app/src/components/marker.tsx:41-81 | a feature whose two times are valid dates shows them in its popup, readable back as their UTC clocks |
| GeojsonMarkers.AddGeoJsonMarkers | my-react-app/src/components/marker.tsx:32-85 | a failed fetch creates nothing; otherwise one marker per feature, in order |
| GeojsonMarkers.AddAll | my-react-app/src/components/marker.tsx:83-84 | each marker gets a fresh handle and is shown under it; markers shown before are untouched |
| GeojsonMarkers.AddedHandles | my-react-app/src/components/marker.tsx:83-84 | the new handles were not in use before, and every marker shown afterwards was shown before or is one of the new ones |
| GeojsonMarkers.CleanupUndoesAdd | my-react-app/src/components/marker.tsx:87 | the returned cleanup restores exactly the markers shown before |
| CreateDetails.SplitCategories | my-react-app/src/components/create_details.tsx:37 | every category handed on is a non-empty, trimmed, comma-free tag |
| CreateDetails.HandleSubmit | my-react-app/src/components/create_details.tsx:29-40 | exactly one submit carrying the fields as typed and the split categories, then one close |
| CreateDetails.CategoriesRoundTrip | my-react-app/src/components/create_details.tsx:37 | typing back a category list, with `,` or `, `, yields the same list |
| CreateDetails.CategoriesKeepOrder | my-react-app/src/components/create_details.tsx:37 | text on either side of a comma contributes its own categories, in order |
| CreateDetails.SplitCategoriesIdempotent | my-react-app/src/components/create_details.tsx:37 | splitting the joined categories again yields the same categories |
| SearchBar.Word | my-react-app/src/components/search_bar.tsx:143 | the longest prefix free of whitespace and `#` |
| SearchBar.Hashtags | my-react-app/src/components/search_bar.tsx:143 | every capture is a non-empty run free of whitespace and `#` |
| SearchBar.HashtagsFound | my-react-app/src/components/search_bar.tsx:143-144 | some hashtag is found iff some `#` is followed by a word character |
| SearchBar.HashtagsAroundSpace | my-react-app/src/components/search_bar.tsx:143 | whitespace separates the hashtags before it from those after it |
| SearchBar.HashtagsOfRendered | my-react-app/src/components/search_bar.tsx:143 | tags typed as `#a #b` are found one for one, in order |
| SearchBar.CommaStaysInHashtag | my-react-app/src/components/search_bar.tsx:143 | `#food, #music` yields `food,` and `music` |
| SearchBar.CatAt | my-react-app/src/components/search_bar.tsx:139 | a capture at a position is a non-empty run free of whitespace and `#` |
| SearchBar.CatMatch | my-react-app/src/components/search_bar.tsx:139 | a match captures a non-empty run free of whitespace and `#` |
| SearchBar.CatMatchLeftmost | my-react-app/src/components/search_bar.tsx:139 | the category pattern's match is the leftmost one, and there is none iff it matches nowhere |
| SearchBar.CatAtNeedsColon | my-react-app/src/components/search_bar.tsx:139 | the category pattern only matches text with a colon |
| SearchBar.NoColonNoCat | my-react-app/src/components/search_bar.tsx:139 | without a colon the category pattern never matches |
| SearchBar.LowerAll | my-react-app/src/components/search_bar.tsx:141 | each entry lower-cased, the list's length kept |
| SearchBar.ExtractCategories | my-react-app/src/components/search_bar.tsx:137-146 | empty input gives nothing; the category pattern wins and its list may be empty; otherwise the lower-cased hashtags when there are any; nothing iff neither is present |
| SearchBar.ExtractRenderedHashtags | my-react-app/src/components/search_bar.tsx:143-144 | typed lower-case hashtags without a colon come back as typed |
| SearchBar.ExtractCatList | my-react-app/src/components/search_bar.tsx:139-142 | `cat:a,b` followed by whitespace comes back as `a`, `b`, hashtags elsewhere notwithstanding |
| SearchBar.FormatDate | my-react-app/src/components/search_bar.tsx:91 | the year's text, `-`, two digits denoting the month counted from 1, `-`, and two digits denoting the date |
| SearchBar.FormatDateIsDay | my-react-app/src/components/search_bar.tsx:91 | a four-digit year gives a 10-character `YYYY-MM-DD` that matches the day pattern, is already normal, and denotes the year, month and day |
| SearchBar.FormatDateRenders | my-react-app/src/components/search_bar.tsx:91 | the formatted date is the rendering of its year, month and day |
| SearchBar.CategoriesParam | my-react-app/src/components/search_bar.tsx:101 | `all` exactly when nothing or an empty list was extracted, or the tags join to `all`; a non-empty list is sent as its tags joined with `,` |
| SearchBar.Route | my-react-app/src/components/search_bar.tsx:86-129 | the trimmed query: `#` goes to the list endpoint with the extracted categories at 10 s; other text goes to the AI or plain search at 10 s; empty goes to the list endpoint with `all` at 8 s |
| SearchBar.Read | my-react-app/src/components/search_bar.tsx:105-128 | an `events` list is taken on every path; a bare array only on the search paths; a null body reads as no events |
| SearchBar.Send | my-react-app/src/components/search_bar.tsx:86-134 | a failed request gives `null`; otherwise the routed request's reply read as routed |
| SearchBar.HandleSearchKey | my-react-app/src/components/search_bar.tsx:148-173 | only Enter acts; found categories go to a listening parent with no request; otherwise a plain, non-AI search is sent and delivered iff the parent listens |
| SearchBar.GeminiActivate | my-react-app/src/components/search_bar.tsx:207-228 | nothing while searching or for a blank input; categories in the trimmed input go to a listening parent with no request; otherwise an AI search of the trimmed input, pending while it runs and clearing the flag after |
| SearchBar.GeminiIsEnterOnTrimmed | my-react-app/src/components/search_bar.tsx:148-228 | activating the AI search does what pressing Enter on the trimmed input does, except that its request goes to the AI endpoint |
| SearchBar.GeminiUsesAi | my-react-app/src/components/search_bar.tsx:207-228 | a text query without categories is sent to the AI endpoint |
| App.CategoriesParam | my-react-app/src/App.tsx:67 | `all` for every category; any tag list, commas inside tags included, is sent joined with `,`, so no tags give empty text; non-empty comma-free tags split back into themselves, and the text is `all` only for the single tag `all` |
| App.RecordData | my-react-app/src/App.tsx:137-140 | a record is drawn with its own title, description, day and times, and with its categories, the empty list standing in for none |
| App.DrawAll | my-react-app/src/App.tsx:136-142 | one marker per record, in order, each the marker `createMarker` builds for that record: at its position, with a tooltip iff its title is set, equal to it, and a popup built from its fields |
| App.FiniteOnly | my-react-app/src/App.tsx:97-100 | only records with finite coordinates are kept, none invented |
| App.FiniteOnlyAppend | my-react-app/src/App.tsx:97-111 | the filter works record by record and keeps their order |
| App.FiniteOnlyKeepsFinite | my-react-app/src/App.tsx:98-100 | a list of finite records passes whole |
| App.FiniteOnlyDropsInfinite | my-react-app/src/App.tsx:98-100 | records with a non-finite coordinate are all dropped |
| App.ClearDbMarkers | my-react-app/src/App.tsx:42-45 | the database markers go, everything else stays |
| App.ClearDbMarkersIdempotent | my-react-app/src/App.tsx:42-45 | clearing twice is clearing once |
| App.LoadEventsAsWritten | my-react-app/src/App.tsx:61-114 | only the markers change; no map or a failed fetch changes nothing; an empty answer clears or keeps; a non-empty one is drawn after the markers already shown |
| App.LoadEventsAppends | my-react-app/src/App.tsx:97-111 | as written, the old markers stay in front, followed by one marker per finite record |
| App.LoadEvents | my-react-app/src/App.tsx:61-114 | corrected: as written, except that a non-empty answer replaces the markers with its finite records |
| App.AsWrittenKeepsOldInFront | my-react-app/src/App.tsx:97-111 | the two loaders differ only in the old markers kept in front of a non-empty answer |
| App.LoadUpcoming | my-react-app/src/App.tsx:117-144 | no map: nothing changes; a `fetch` that throws rejects the promise; an empty list keeps the markers; a non-empty list replaces them with one marker per record, unfiltered; any other reply changes nothing |
| App.UpcomingIsUnfilteredLoad | my-react-app/src/App.tsx:117-144 | against `loadEvents` for every category keeping markers on empty: a rejection happens only when the fetch throws, where the loader changes nothing; otherwise the two agree whenever the answer is not a list or has no non-finite record |
| App.OnSearchResults | my-react-app/src/App.tsx:364-385 | the markers become exactly the finite search results; no results leaves none |
| App.OnCategoriesFoundAsWritten | my-react-app/src/App.tsx:357-363 | as written: the filter becomes the found categories, `all` for an empty list; only it and the markers change |
| App.CategoryChangeKeepsOldMarkers | my-react-app/src/App.tsx:357-363 | as written, a non-empty answer for the new filter is drawn after every marker shown before, which all stay in front |
| App.OnCategoriesFound | my-react-app/src/App.tsx:357-363 | corrected: an empty list means `all`; when the fetch succeeds the markers become the current day's finite events for the new filter, none if the answer lists nothing |
| App.CategoryHandlersDiffer | my-react-app/src/App.tsx:357-363 | the two category handlers agree, except that on a non-empty answer the one as written keeps the old markers in front of the corrected one's |
| App.OnDateChangeAsWritten | my-react-app/src/App.tsx:351-356 | as written: the new day becomes the page's day; only it and the markers change |
| App.DateChangeKeepsOldMarkers | my-react-app/src/App.tsx:351-356 | as written, a date change keeps the previous day's markers in front |
| App.OnDateChange | my-react-app/src/App.tsx:351-356 | corrected: the new day becomes the page's day; only it and the markers change |
| App.DateChangeShowsOnlyThatDay | my-react-app/src/App.tsx:354-355 | corrected, after a date change every marker comes from the new day's answer |
| App.HandleCreate | my-react-app/src/App.tsx:148-159 | the form opens; with a map the clicked point is selected, without one nothing is |
| App.WithDefault | my-react-app/src/App.tsx:244-245 | an empty list becomes `general`; a non-empty one is kept |
| App.Prepare | my-react-app/src/App.tsx:162-257 | a POST is sent iff a location is selected, the map exists, both times convert and the end is not before or at the start; the payload carries the form, the converted times, the selected point and at least one category |
| App.SentTimesInOrder | my-react-app/src/App.tsx:226-233 | a sent payload's times are both set and in order whenever both can be read |
| App.TypedTimeIsSentPadded | my-react-app/src/App.tsx:173-206 | a typed `H:M` on a `YYYY-M-D` day is sent as the instant read from the padded `YYYY-MM-DDTHH:MM:00Z` |
| App.RenderedDayIsTrimmed | my-react-app/src/App.tsx:179 | a well-formed day is unchanged by the trim applied to the form's day |
| App.CreateNeedsTheMap | my-react-app/src/App.tsx:148-169 | a form opened without a map stops at the missing location; one opened on a map passes both location guards, and a payload it sends carries the clicked point |
| App.Merged | my-react-app/src/App.tsx:270-277 | every field present: each property when set, else the submitted value, the times from the payload; the properties' category list whenever it is there, even empty |
| App.Submitted | my-react-app/src/App.tsx:281 | the form's fields as typed, with the categories the payload was sent with |
| App.SubmittedShowsDefault | my-react-app/src/App.tsx:240-245 | a form sent without categories is drawn with `general`, because the default is pushed into the form's own array |
| App.DrawnAt | my-react-app/src/App.tsx:266-283 | the returned coordinates when the saved feature has them, otherwise the selected point, also after a failure |
| App.AfterPost | my-react-app/src/App.tsx:266-299 | only the markers change: a save appends one tracked marker drawn from the reply, a failure one untracked marker at the selected point with the submitted data |
| App.ReloadDay | my-react-app/src/App.tsx:286-301 | the saved feature's day when set, else the form's day, else the page's; empty only when the last two are |
| App.HandleCreateSubmitAsWritten | my-react-app/src/App.tsx:162-305 | as written: the form always closes; an early return changes nothing else and keeps the selection; after a POST the selection is released and nothing but the markers changes besides; a failed POST adds one untracked marker at the selected point, a save does not |
| App.HandleCreateSubmit | my-react-app/src/App.tsx:162-305 | corrected: the form always closes; an early return changes nothing else and keeps the selection; after a POST the selection is released and nothing but the markers changes besides; a failed POST adds one untracked marker at the selected point |
| App.SavedMarkerIsKept | my-react-app/src/App.tsx:259-288 | as written, when the reload after a save fails, the markers are the old ones followed by one new marker, at the returned feature's point or else at the selected point |
| App.FiniteOnlyKeeps | my-react-app/src/App.tsx:97-100 | every record with finite coordinates is among the records drawn |
| App.ReloadDrawsAgain | my-react-app/src/App.tsx:97-111 | as written, a reload keeps the markers in front and draws each finite listed record among the new ones |
| App.SavedEventDrawnTwice | my-react-app/src/App.tsx:268-288 | as written, an event saved on a day whose reload lists it is drawn twice: right after the old markers, and again among the reloaded ones |
| App.FailedSaveKeepsOldMarkers | my-react-app/src/App.tsx:291-301 | as written, after a failed save a reload that lists events keeps every marker shown before, whatever its day, in front of the day's finite events |
| App.ReloadShowsThatDay | my-react-app/src/App.tsx:286-301 | corrected, when the reload after a POST lists events, the markers are exactly that day's finite events, whether or not the save succeeded |
| App.SubmitHandlersDiffer | my-react-app/src/App.tsx:286-301 | the two submit handlers agree, except that on a reload that lists events the one as written keeps the markers present before the reload in front |
| App.Bootstrap | my-react-app/src/App.tsx:323-332 | the map mounts; only the markers change besides; when the upcoming fetch throws the handler stops and no demo marker is added, otherwise the demo markers are the GeoJSON markers |
| App.BootstrapShowsUpcoming | my-react-app/src/App.tsx:325-327 | whatever the first load drew, an upcoming answer that lists events leaves one marker per listed record, finite or not |
| App.Teardown | my-react-app/src/App.tsx:337-345 | all markers go and the map unmounts |
| App.TeardownUndoesBootstrap | my-react-app/src/App.tsx:323-345 | mounting and then unmounting the map leaves no marker of any kind and changes nothing else, whatever the loads answered |
| Wire.ListQueryAnswer | backend/app/views.py:96-119 | a one-value list query with a day and categories is answered with `all` selecting by day and anything else by overlap with that one value |
| Wire.ListRequestSelects | my-react-app/src/App.tsx:65-67 | for clean tags or `all`, the page's query is never refused for a non-empty day, and the joined tag value splits back into the tags |
| Wire.EmptyDayRejected | backend/app/views.py:99-100 | an empty day is refused with 400 whatever the categories |
| Wire.TextSearchAccepted | my-react-app/src/components/search_bar.tsx:109-120 | a text search carries the trimmed query and the day and goes to the AI endpoint exactly when asked to; a plain one is never refused and succeeds exactly when the day-and-text query does |
| Wire.PlainSearchAnswered | backend/app/views.py:167-186 | a non-empty stripped search text with a day is never refused, and is answered 200 exactly when its query returns rows |
| Wire.PayloadJsonHasRequired | my-react-app/src/App.tsx:247-257 | the POST body has every key the back end requires |
| Wire.CompleteBodyChecks | backend/app/views.py:42-64 | a body with every key and some category can only be refused for its times or coordinates |
| Wire.PayloadJsonChecks | backend/app/views.py:42-64 | a POST body with clean, non-empty categories can only be refused for its times or coordinates |
| Wire.PayloadJsonFields | my-react-app/src/App.tsx:247-257 | the back end reads the body's categories back unchanged and its `id` as sent |
| Wire.PayloadJsonComplete | my-react-app/src/App.tsx:247-257 | a payload with an empty `id` and clean categories passes the key and category checks and gets a fresh identifier |
| Wire.SubmittedPayloadIsComplete | my-react-app/src/App.tsx:240-261 | a payload the create flow sends is never refused for a missing key or for lacking categories, and is stored under a fresh identifier |

## Left out

- Unicode whitespace and letter case are not modelled: `trim`, `strip`, `\s` and lower-casing act on ASCII only. Python's `strip()` also removes the separators `\x1c`-`\x1f`, and JavaScript's `trim()` also removes `\uFEFF`; neither is whitespace here.
- HTML escaping is not modelled. The escaper is a parameter, because my-react-app/src/utils/escapeHtml is not part of this model.
- Parsing and printing of dates and floats are parameters: JavaScript's `Date`, `dayjs`, and Python's `fromisoformat`, `float` and `str`.
- `fetch`, axios, Supabase, URL encoding and JSON decoding are not modelled. Each request is a function from the request to its outcome. URL parameters and JSON bodies are taken to arrive as sent.
- The PostgREST text of the `overlaps` filter is not modelled. The model shows only that the back end receives the one comma-joined value.
- Record fields of a non-string type are not modelled, and neither is an `events` member that is not an array. `res.json()` failing is not modelled either. Records are `EventRecord`s with optional strings and JavaScript numbers.
- In `loadUpcoming`, a `categories` that is a string makes `.join` throw. That case is not modelled: categories are an optional list.
- `fitMapToMarkers`, the icon rendering and mapbox's own handling of NaN coordinates are not modelled. `DrawAll` places a marker at whatever position it is given.
- Snackbar messages and logging are not modelled.
- Concurrency is not modelled: overlapping reloads and a date change while a search is pending do not happen here.
- The search bar skips `onDateChange` on first mount. That `useEffect` and the date picker are not modelled.
- The `catch` around the end-after-start comparison cannot fire, because `new Date` does not throw. It is not modelled.
- `EventDetailView` and the AI search view are not modelled. The AI view is not in views.py.
- Views.Post: a body that decodes to JSON other than an object is not modelled. For a list or a string, the key test is a membership or substring test and the answer is 422; for a number, a boolean or `null` the key test raises and the answer is 500.
- Views.Post: a row returned by the insert without `longitude` or `latitude` raises a `KeyError` in the view. The model gives `Unhandled` for it and states nothing more.
- App.LoadEvents: `fit` is not modelled, because it only moves the camera.
- Wire.ListRequestSelects: stated for clean tags only. A hashtag that kept its comma (`food,`) is sent inside the joined value and read back by the server as different tags.
- Wire.TextSearchAccepted: for an AI search only the request is stated, not the answer, because the AI search view is not part of this model.
- Text.Trim: its own contract states only that the result has no whitespace at either end. `TrimIsSlice` and `TrimUnique` state that it is the slice left after cutting the whitespace at both ends. That fact is kept out of the function's contract because every use of trimming would carry it.

## Findings

| source | as written | input that shows it | evidently intended | confidence | as-written member | corrected member |
|---|---|---|---|---|---|---|
| my-react-app/src/App.tsx:357-363 | on a category change, `loadEvents` draws the day's events for the new filter after the markers already shown, including those the new filter excludes | the map shows one `music` event; the search finds the category `food`, and the day has one `food` event; both markers are on the map | the comment at :361 says the reload is for the new categories, so only their events should be shown | medium (not executed) | App.CategoryChangeKeepsOldMarkers | App.OnCategoriesFound |
| my-react-app/src/App.tsx:268-288 | after a save, the returned feature's marker is pushed onto the markers, and the reload then appends the saved day's events again | the map shows day A; an event is saved on day B at point P; the reload lists it; P carries two markers | the reload is there to bring the map in line with the server, so the saved event should appear once | high (not executed) | App.SavedEventDrawnTwice | App.ReloadShowsThatDay |
| my-react-app/src/App.tsx:299-301 | after a failed save, the reload meant to keep the map consistent appends the day's events after the markers already shown | the map shows day A's one event; a save for day B fails; the reload lists B's one event; both markers are on the map | the comment at :300 asks for a map consistent with the server, so only the reloaded day's events should be shown | medium (not executed) | App.FailedSaveKeepsOldMarkers | App.ReloadShowsThatDay |
| my-react-app/src/App.tsx:354-355 | on a date change, `loadEvents` draws the new day's events after the markers already shown and never clears them | day A shows one event; the date changes to day B, which has one event; both markers are on the map | the comment says a date change should show only that day's events, so the old markers should be cleared before drawing | high (not executed) | App.DateChangeKeepsOldMarkers | App.DateChangeShowsOnlyThatDay |

=== FILE: app.dfy ===
/**
 The page component (my-react-app/src/App.tsx) as a state record and its
 transitions: the markers drawn from the event list, the reloads triggered by
 the search bar, and the create flow with its guards.

 Every asynchronous step runs to completion before the next one starts. The
 events endpoint, the POST, the HTML escaper and JavaScript's `Date` are
 parameters. Markers are the `CreateMarker.Marker` values `createMarker` builds;
 taking one off the map is dropping it from the state.

 `loadEvents` is defined twice: as written (`LoadEventsAsWritten`, which draws a
 non-empty answer after the markers already shown) and as its callers mean it
 (`LoadEvents`, which replaces them). Each handler that reloads is defined the same
 two ways: `...AsWritten` calls the first, the plain name the second. The map's
 `load` handler is defined only as written.
 */
module App {
  import opened Values
  import Text
  import DayTime
  import CreateMarker
  import CreateDetails
  import GeojsonMarkers
  import SearchBar

  /** The `categories` state: `'all'` or a list of tags. */
  datatype CatFilter = All | Tags(tags: seq<string>)

  /** `categories === 'all' ? 'all' : categories.join(',')`, whatever the tags hold. The server
      reads the parameter back by splitting on commas, so a list of comma-free tags arrives as it
      was chosen; a hashtag that kept its comma does not. */
  function CategoriesParam(f: CatFilter): (r: string)
    ensures f.All? ==> r == "all"
    ensures f.Tags? ==> r == Text.Join(f.tags, ",")
    ensures f.Tags? && f.tags == [] ==> r == ""
    ensures f.Tags? && f.tags != [] && (forall i :: 0 <= i < |f.tags| ==> ',' !in f.tags[i]) ==>
      Text.Split(r, ',') == f.tags && (r == "all" <==> f.tags == ["all"])
  {
    match f
    case All => "all"
    case Tags(ts) => TagsReadBack(ts); Text.Join(ts, ",")
  }

  /** Comma-free tags joined with commas split back into themselves, and only the single
      tag `all` joins to the text that means every category. */
  lemma TagsReadBack(ts: seq<string>)
    ensures ts != [] && (forall i :: 0 <= i < |ts| ==> ',' !in ts[i]) ==>
      Text.Split(Text.Join(ts, ","), ',') == ts && (Text.Join(ts, ",") == "all" <==> ts == ["all"])
  {
    if ts != [] && (forall i :: 0 <= i < |ts| ==> ',' !in ts[i]) {
      Text.SplitJoin(ts, ',');
      Text.SplitWithoutSep("all", ',');
    }
  }

  datatype State = State(
    mapMounted: bool,                     // `mapRef.current` is set
    db: seq<CreateMarker.Marker>,         // `dbMarkersRef.current`
    stray: seq<CreateMarker.Marker>,      // drawn after a failed save and tracked nowhere
    demo: seq<CreateMarker.Marker>,       // the markers `demoRemoveRef` can remove
    day: string,
    categories: CatFilter,
    createOpen: bool,
    selected: Option<LngLat>)

  /** The query `loadEvents` and `loadUpcoming` send to the events endpoint. */
  datatype ListRequest = ListRequest(day: string, categories: string)

  /** `json.events`: missing (or null), or a list of records. */
  datatype EventsField = Missing | Listed(records: seq<EventRecord>)

  /** How a `fetch` of the events endpoint ends. */
  datatype Fetched = FetchThrew | NotOk | Ok(events: EventsField)

  // ---------------------------------------------------------------------------
  // Drawing markers for records
  // ---------------------------------------------------------------------------

  /** The form data a record is drawn with: its own fields as they came, and its category
      list, or the empty list when it has none. */
  function RecordData(rec: EventRecord): (r: CreateMarker.MarkerData)
    ensures r.title == rec.title && r.description == rec.description && r.day == rec.day
    ensures r.startTime == rec.startTime && r.endTime == rec.endTime
    ensures rec.categories.Some? ==> r.categories == rec.categories
    ensures rec.categories.None? ==> r.categories == Some([])
  {
    CreateMarker.MarkerData(rec.title, rec.description, rec.day, rec.startTime, rec.endTime,
                            Some(rec.categories.GetOr([])))
  }

  /** One `createMarker` per record, in order, without any check of the coordinates: each
      marker sits at its record's position, takes its tooltip from the record's title and
      shows the record's fields in its popup. */
  function DrawAll(escape: string -> string, rs: seq<EventRecord>): (ms: seq<CreateMarker.Marker>)
    ensures |ms| == |rs|
    ensures forall i :: 0 <= i < |rs| ==> ms[i] == CreateMarker.Create(escape, rs[i].longitude, rs[i].latitude, RecordData(rs[i]))
    ensures forall i :: 0 <= i < |rs| ==> ms[i].at == rs[i].Position()
    ensures forall i :: 0 <= i < |rs| ==>
      (ms[i].tooltip.Some? <==> CreateMarker.Filled(rs[i].title)) && (ms[i].tooltip.Some? ==> ms[i].tooltip == rs[i].title)
    ensures forall i :: 0 <= i < |rs| ==>
      ms[i].popup.Some? ==> ms[i].popup.value == CreateMarker.PopupHtml(escape, RecordData(rs[i]))
  {
    seq(|rs|, i requires 0 <= i < |rs| => CreateMarker.Create(escape, rs[i].longitude, rs[i].latitude, RecordData(rs[i])))
  }

  /** The records whose longitude and latitude are both finite numbers, in order. */
  function FiniteOnly(rs: seq<EventRecord>): (r: seq<EventRecord>)
    ensures |r| <= |rs|
    ensures forall i :: 0 <= i < |r| ==> r[i].Position().IsFinite() && r[i] in rs
    decreases |rs|
  {
    if rs == [] then []
    else (if rs[0].Position().IsFinite() then [rs[0]] else []) + FiniteOnly(rs[1..])
  }

  /** The filter keeps every finite record and the order of the records. */
  lemma {:induction false} FiniteOnlyAppend(a: seq<EventRecord>, b: seq<EventRecord>)
    ensures FiniteOnly(a + b) == FiniteOnly(a) + FiniteOnly(b)
    decreases |a|
  {
    if a != [] {
      assert (a + b)[1..] == a[1..] + b;
      FiniteOnlyAppend(a[1..], b);
    } else {
      assert a + b == b;
    }
  }

  lemma {:induction false} FiniteOnlyKeepsFinite(rs: seq<EventRecord>)
    requires forall i :: 0 <= i < |rs| ==> rs[i].Position().IsFinite()
    ensures FiniteOnly(rs) == rs
    decreases |rs|
  {
    if rs != [] {
      FiniteOnlyKeepsFinite(rs[1..]);
      assert [rs[0]] + rs[1..] == rs;
    }
  }

  lemma {:induction false} FiniteOnlyDropsInfinite(rs: seq<EventRecord>)
    requires forall i :: 0 <= i < |rs| ==> !rs[i].Position().IsFinite()
    ensures FiniteOnly(rs) == []
    decreases |rs|
  {
    if rs != [] {
      FiniteOnlyDropsInfinite(rs[1..]);
    }
  }

  // ---------------------------------------------------------------------------
  // The marker set
  // ---------------------------------------------------------------------------

  /** `clearDbMarkers`. */
  function ClearDbMarkers(s: State): (r: State)
    ensures r.db == [] && r == s.(db := [])
  {
    s.(db := [])
  }

  /** Clearing twice is clearing once. */
  lemma ClearDbMarkersIdempotent(s: State)
    ensures ClearDbMarkers(ClearDbMarkers(s)) == ClearDbMarkers(s)
  {
  }

  /** `loadEvents(d, cats, { keepExistingOnEmpty })` as written; `server` answers the
      request it sends. A non-empty list is drawn after the markers already shown. */
  function LoadEventsAsWritten(s: State, escape: string -> string, server: ListRequest -> Fetched, d: string,
                               cats: CatFilter, keepExistingOnEmpty: bool): (r: State)
    // only the marker set changes
    ensures r == s.(db := r.db)
    ensures !s.mapMounted ==> r == s
    ensures s.mapMounted && !server(ListRequest(d, CategoriesParam(cats))).Ok? ==> r == s
    ensures s.mapMounted && server(ListRequest(d, CategoriesParam(cats))) in {Ok(Missing), Ok(Listed([]))} ==>
      r.db == (if keepExistingOnEmpty then s.db else [])
    ensures s.mapMounted && server(ListRequest(d, CategoriesParam(cats))).Ok? ==>
      var ev := server(ListRequest(d, CategoriesParam(cats))).events;
      ev.Listed? && ev.records != [] ==> r.db == s.db + DrawAll(escape, FiniteOnly(ev.records))
  {
    if !s.mapMounted then s
    else match server(ListRequest(d, CategoriesParam(cats)))
      case FetchThrew => s
      case NotOk => s
      case Ok(Missing) => if keepExistingOnEmpty then s else ClearDbMarkers(s)
      case Ok(Listed(rs)) =>
        if rs == [] then (if keepExistingOnEmpty then s else ClearDbMarkers(s))
        else s.(db := s.db + DrawAll(escape, FiniteOnly(rs)))
  }

  /** A non-empty list is added after the markers already shown: the old ones stay, in
      order, followed by one marker per finite record at that record's position. */
  lemma LoadEventsAppends(s: State, escape: string -> string, server: ListRequest -> Fetched, d: string,
                          cats: CatFilter, keep: bool, rs: seq<EventRecord>)
    requires s.mapMounted && server(ListRequest(d, CategoriesParam(cats))) == Ok(Listed(rs)) && rs != []
    ensures var r := LoadEventsAsWritten(s, escape, server, d, cats, keep);
      && |r.db| == |s.db| + |FiniteOnly(rs)|
      && r.db[..|s.db|] == s.db
      && forall i :: 0 <= i < |FiniteOnly(rs)| ==>
           r.db[|s.db| + i].at == FiniteOnly(rs)[i].Position() && r.db[|s.db| + i].at.IsFinite()
  {
    var r := LoadEventsAsWritten(s, escape, server, d, cats, keep);
    assert r.db == s.db + DrawAll(escape, FiniteOnly(rs));
  }

  /** `loadEvents` as its callers mean it: the marker set becomes the answer's finite records;
      an empty or missing list clears it unless the existing markers are to be kept, and a
      failed request leaves everything as it was. */
  function LoadEvents(s: State, escape: string -> string, server: ListRequest -> Fetched, d: string,
                      cats: CatFilter, keepExistingOnEmpty: bool): (r: State)
    ensures r == s.(db := r.db)
    ensures !s.mapMounted || !server(ListRequest(d, CategoriesParam(cats))).Ok? ==> r == s
    ensures s.mapMounted && server(ListRequest(d, CategoriesParam(cats))) in {Ok(Missing), Ok(Listed([]))} ==>
      r.db == (if keepExistingOnEmpty then s.db else [])
    ensures s.mapMounted && server(ListRequest(d, CategoriesParam(cats))).Ok? ==>
      var ev := server(ListRequest(d, CategoriesParam(cats))).events;
      ev.Listed? && ev.records != [] ==> r.db == DrawAll(escape, FiniteOnly(ev.records))
  {
    if !s.mapMounted then s
    else match server(ListRequest(d, CategoriesParam(cats)))
      case Ok(Listed(rs)) =>
        if rs == [] then (if keepExistingOnEmpty then s else ClearDbMarkers(s))
        else s.(db := DrawAll(escape, FiniteOnly(rs)))
      case Ok(Missing) => if keepExistingOnEmpty then s else ClearDbMarkers(s)
      case _ => s
  }

  /** The loader as written differs from the corrected one only in keeping the markers shown
      before in front of a non-empty answer. */
  lemma AsWrittenKeepsOldInFront(s: State, escape: string -> string, server: ListRequest -> Fetched, d: string,
                                 cats: CatFilter, keep: bool)
    ensures var corrected := LoadEvents(s, escape, server, d, cats, keep);
      var written := LoadEventsAsWritten(s, escape, server, d, cats, keep);
      var answer := server(ListRequest(d, CategoriesParam(cats)));
      if s.mapMounted && answer.Ok? && answer.events.Listed? && answer.events.records != []
      then written == corrected.(db := s.db + corrected.db)
      else written == corrected
  {
  }

  /** How an `async` step ends: its promise resolves with the state it leaves, or it
      rejects (before changing anything) and the caller's remaining steps do not run. */
  datatype Settled = Resolved(state: State) | Rejected

  /** `loadUpcoming`: today's events with every category; an empty answer keeps the markers,
      any other list replaces them, unfiltered. Its `fetch` is not guarded, so a request
      that throws rejects the promise. */
  function LoadUpcoming(s: State, escape: string -> string, server: ListRequest -> Fetched): (r: Settled)
    ensures r.Resolved? ==> r.state == s.(db := r.state.db)
    ensures !s.mapMounted ==> r == Resolved(s)
    ensures s.mapMounted ==>
      match server(ListRequest(s.day, "all"))
      case FetchThrew => r == Rejected
      case Ok(Listed(rs)) => r == Resolved(s.(db := if rs == [] then s.db else DrawAll(escape, rs)))
      case _ => r == Resolved(s)
  {
    if !s.mapMounted then Resolved(s)
    else match server(ListRequest(s.day, "all"))
      case FetchThrew => Rejected
      case Ok(Listed(rs)) => if rs == [] then Resolved(s) else Resolved(ClearDbMarkers(s).(db := DrawAll(escape, rs)))
      case _ => Resolved(s)
  }

  /** `loadUpcoming` is `loadEvents` for every category that keeps the markers on an empty
      answer, except that it skips no record and lets a throwing `fetch` through. */
  lemma UpcomingIsUnfilteredLoad(s: State, escape: string -> string, server: ListRequest -> Fetched)
    ensures var loaded := LoadEvents(s, escape, server, s.day, All, true);
      var answer := server(ListRequest(s.day, "all"));
      match LoadUpcoming(s, escape, server)
      case Rejected => s.mapMounted && answer == FetchThrew && loaded == s
      case Resolved(u) =>
        && (s.mapMounted && answer.Ok? && answer.events.Listed? ==>
              FiniteOnly(answer.events.records) == answer.events.records ==> u == loaded)
        && (!(s.mapMounted && answer.Ok? && answer.events.Listed?) ==> u == loaded)
  {
    var answer := server(ListRequest(s.day, "all"));
    if s.mapMounted && answer.Ok? && answer.events.Listed? && answer.events.records == [] {
      assert FiniteOnly(answer.events.records) == [];
    }
  }

  /** The `onSearchResults` handler: the set becomes exactly the finite results; `None`,
      an empty list and a reply that is not a list all leave it empty. */
  function OnSearchResults(s: State, escape: string -> string, results: Option<SearchBar.Results>): (r: State)
    ensures r == s.(db := r.db)
    ensures !s.mapMounted ==> r == s
    ensures s.mapMounted && results.Some? && results.value.Listed? ==>
      r.db == DrawAll(escape, FiniteOnly(results.value.records))
    ensures s.mapMounted && !(results.Some? && results.value.Listed?) ==> r.db == []
  {
    if !s.mapMounted then s
    else
      var cleared := ClearDbMarkers(s);
      match results
      case Some(Listed(rs)) => if rs == [] then cleared else cleared.(db := DrawAll(escape, FiniteOnly(rs)))
      case _ => cleared
  }

  /** The filter `onCategoriesFound` sets: an empty list means every category. */
  function FilterOf(cats: seq<string>): (f: CatFilter)
    ensures f.All? <==> cats == []
    ensures f.Tags? ==> f.tags == cats
  {
    if cats == [] then All else Tags(cats)
  }

  /** The `onCategoriesFound` handler as written: the new filter is stored and the day's
      events for it are loaded with the appending loader. */
  function OnCategoriesFoundAsWritten(s: State, escape: string -> string, server: ListRequest -> Fetched,
                                      cats: seq<string>): (r: State)
    ensures r.categories == FilterOf(cats)
    ensures r == s.(categories := r.categories, db := r.db)
  {
    LoadEventsAsWritten(s.(categories := FilterOf(cats)), escape, server, s.day, FilterOf(cats), false)
  }

  /** As written, narrowing the categories to ones with events keeps every marker shown
      before, matching or not, in front of the new ones. */
  lemma CategoryChangeKeepsOldMarkers(s: State, escape: string -> string, server: ListRequest -> Fetched,
                                      cats: seq<string>, rs: seq<EventRecord>)
    requires s.mapMounted && server(ListRequest(s.day, CategoriesParam(FilterOf(cats)))) == Ok(Listed(rs))
    requires rs != []
    ensures var r := OnCategoriesFoundAsWritten(s, escape, server, cats);
      r.db == s.db + DrawAll(escape, FiniteOnly(rs)) && r.db[..|s.db|] == s.db
  {
    LoadEventsAppends(s.(categories := FilterOf(cats)), escape, server, s.day, FilterOf(cats), false, rs);
  }

  /** The `onCategoriesFound` handler with the corrected loader: the markers become the
      day's events for the new filter, and none are left when the answer lists nothing. */
  function OnCategoriesFound(s: State, escape: string -> string, server: ListRequest -> Fetched,
                             cats: seq<string>): (r: State)
    ensures r.categories == FilterOf(cats)
    ensures r == s.(categories := r.categories, db := r.db)
    ensures s.mapMounted && server(ListRequest(s.day, CategoriesParam(r.categories))).Ok? ==>
      var ev := server(ListRequest(s.day, CategoriesParam(r.categories))).events;
      r.db == (if ev.Listed? then DrawAll(escape, FiniteOnly(ev.records)) else [])
  {
    var r := LoadEvents(s.(categories := FilterOf(cats)), escape, server, s.day, FilterOf(cats), false);
    if s.mapMounted && server(ListRequest(s.day, CategoriesParam(FilterOf(cats)))).Ok? then
      var ev := server(ListRequest(s.day, CategoriesParam(FilterOf(cats)))).events;
      assert ev.Listed? && ev.records == [] ==> FiniteOnly(ev.records) == [];
      r
    else r
  }

  /** The two category handlers agree except that, on a non-empty answer, the one as written
      keeps the markers shown before in front of the corrected one's. */
  lemma CategoryHandlersDiffer(s: State, escape: string -> string, server: ListRequest -> Fetched,
                               cats: seq<string>)
    ensures var written := OnCategoriesFoundAsWritten(s, escape, server, cats);
      var corrected := OnCategoriesFound(s, escape, server, cats);
      var answer := server(ListRequest(s.day, CategoriesParam(FilterOf(cats))));
      if s.mapMounted && answer.Ok? && answer.events.Listed? && answer.events.records != []
      then written == corrected.(db := s.db + corrected.db)
      else written == corrected
  {
    AsWrittenKeepsOldInFront(s.(categories := FilterOf(cats)), escape, server, s.day, FilterOf(cats), false);
  }

  /** The `onDateChange` handler as written: the new day becomes the state's day and its
      events are loaded with the appending loader. */
  function OnDateChangeAsWritten(s: State, escape: string -> string, server: ListRequest -> Fetched,
                                 isoDay: string): (r: State)
    ensures r.day == isoDay
    ensures r == s.(day := isoDay, db := r.db)
  {
    LoadEventsAsWritten(s.(day := isoDay), escape, server, isoDay, s.categories, false)
  }

  /** As written, changing the day to one with events keeps the markers of the day shown before. */
  lemma DateChangeKeepsOldMarkers(s: State, escape: string -> string, server: ListRequest -> Fetched,
                                  isoDay: string, rs: seq<EventRecord>)
    requires s.mapMounted && server(ListRequest(isoDay, CategoriesParam(s.categories))) == Ok(Listed(rs))
    requires rs != []
    ensures OnDateChangeAsWritten(s, escape, server, isoDay).db[..|s.db|] == s.db
  {
    LoadEventsAppends(s.(day := isoDay), escape, server, isoDay, s.categories, false, rs);
  }

  /** The `onDateChange` handler with the corrected loader. */
  function OnDateChange(s: State, escape: string -> string, server: ListRequest -> Fetched, isoDay: string): (r: State)
    ensures r.day == isoDay
    ensures r == s.(day := isoDay, db := r.db)
  {
    LoadEvents(s.(day := isoDay), escape, server, isoDay, s.categories, false)
  }

  /** A date change shows that day's events and nothing else: every marker comes from the
      new day's answer, one per finite record. */
  lemma DateChangeShowsOnlyThatDay(s: State, escape: string -> string, server: ListRequest -> Fetched,
                                   isoDay: string)
    requires s.mapMounted
    requires server(ListRequest(isoDay, CategoriesParam(s.categories))).Ok?
    ensures var r := OnDateChange(s, escape, server, isoDay);
      match server(ListRequest(isoDay, CategoriesParam(s.categories))).events
      case Missing => r.db == []
      case Listed(rs) => r.db == DrawAll(escape, FiniteOnly(rs))
  {
    match server(ListRequest(isoDay, CategoriesParam(s.categories))).events
    case Missing =>
    case Listed(rs) =>
      if rs == [] {
        assert FiniteOnly(rs) == [];
      }
  }

  // ---------------------------------------------------------------------------
  // Creating an event
  // ---------------------------------------------------------------------------

  /** `handleCreate`: without a map the form opens with no location; with one, it opens
      once the map is clicked, at the clicked point. */
  function HandleCreate(s: State, clicked: LngLat): (r: State)
    ensures r.createOpen
    ensures r.selected == (if s.mapMounted then Some(clicked) else None)
    ensures r == s.(createOpen := true, selected := r.selected)
  {
    s.(createOpen := true, selected := if s.mapMounted then Some(clicked) else None)
  }

  /** The body of the POST. */
  datatype Payload = Payload(
    id: string, title: string, description: string, day: string, startTime: string, endTime: string,
    latitude: Float, longitude: Float, categories: seq<string>)

  /** How `handleCreateSubmit` proceeds: one of its early returns, or the POST it sends. */
  datatype Submission =
    | NoLocation
    | NoMap
    | MissingTimes
    | EndNotAfterStart
    | Send(payload: Payload)

  /** `if (categoriesArray.length === 0) categoriesArray.push('general')`. */
  function WithDefault(cats: seq<string>): (r: seq<string>)
    ensures |r| > 0
    ensures cats != [] ==> r == cats
    ensures cats == [] ==> r == ["general"]
  {
    if cats == [] then ["general"] else cats
  }

  /** `eDt.getTime() <= sDt.getTime()`: false whenever either side is NaN. */
  predicate EndNotAfter(js: DayTime.JsDate, startIso: string, endIso: string) {
    js.parse(startIso).Some? && js.parse(endIso).Some? && js.parse(endIso).value <= js.parse(startIso).value
  }

  /** The guards of `handleCreateSubmit`, in order, and the payload they let through. */
  function Prepare(s: State, js: DayTime.JsDate, data: CreateDetails.FormData): (r: Submission)
    ensures r.Send? <==>
      && s.selected.Some? && s.mapMounted
      && DayTime.ToIso(js, s.day, data.day, data.startTime) != ""
      && DayTime.ToIso(js, s.day, data.day, data.endTime) != ""
      && !EndNotAfter(js, DayTime.ToIso(js, s.day, data.day, data.startTime),
                      DayTime.ToIso(js, s.day, data.day, data.endTime))
    ensures s.selected.None? ==> r == NoLocation
    ensures r == MissingTimes ==>
      DayTime.ToIso(js, s.day, data.day, data.startTime) == "" || DayTime.ToIso(js, s.day, data.day, data.endTime) == ""
    ensures r.Send? ==>
      var p := r.payload;
      && p.id == "" && p.title == data.title && p.description == data.description
      && p.startTime == DayTime.ToIso(js, s.day, data.day, data.startTime)
      && p.endTime == DayTime.ToIso(js, s.day, data.day, data.endTime)
      && p.latitude == s.selected.value.lat && p.longitude == s.selected.value.lng
      && p.categories == WithDefault(data.categories) && |p.categories| > 0
      && p.day == (if DayTime.NormalizeDay(data.day) != "" then DayTime.NormalizeDay(data.day) else s.day)
  {
    if s.selected.None? then NoLocation
    else if !s.mapMounted then NoMap
    else
      var startIso := DayTime.ToIso(js, s.day, data.day, data.startTime);
      var endIso := DayTime.ToIso(js, s.day, data.day, data.endTime);
      if startIso == "" || endIso == "" then MissingTimes
      else if EndNotAfter(js, startIso, endIso) then EndNotAfterStart
      else
        var formatted := DayTime.NormalizeDay(data.day);
        var loc := s.selected.value;
        Send(Payload("", data.title, data.description, if formatted != "" then formatted else s.day,
                     startIso, endIso, loc.lat, loc.lng, WithDefault(data.categories)))
  }

  /** A payload that is sent carries two times that are in order whenever both can be read. */
  lemma SentTimesInOrder(s: State, js: DayTime.JsDate, data: CreateDetails.FormData)
    requires Prepare(s, js, data).Send?
    ensures var p := Prepare(s, js, data).payload;
      p.startTime != "" && p.endTime != ""
      && (js.parse(p.startTime).Some? && js.parse(p.endTime).Some? ==>
            js.parse(p.startTime).value < js.parse(p.endTime).value)
  {
  }

  /** A time typed as `H:M` on a `YYYY-M-D` day is sent as the instant `js` reads from the
      zero-padded `YYYY-MM-DDTHH:MM:00Z`, when it can read it. */
  lemma TypedTimeIsSentPadded(js: DayTime.JsDate, stateDay: string, p: DayTime.DayParts,
                              hour: string, minute: string)
    requires DayTime.WellFormed(p) && DayTime.DigitRun(hour, 1, 2) && DayTime.DigitRun(minute, 1, 2)
    ensures var candidate := DayTime.IsoCandidate(DayTime.Render(p), hour + ":" + minute);
      && |candidate| == 20
      && DayTime.ToIso(js, stateDay, DayTime.Render(p), hour + ":" + minute)
         == (if js.parse(candidate).Some? then js.iso(js.parse(candidate).value) else "")
  {
    var d := DayTime.Render(p);
    var t := hour + ":" + minute;
    DayTime.CandidateShape(p, hour, minute);
    RenderedDayIsTrimmed(p);
    assert d != "" by { assert |d| >= 6; }
    assert DayTime.DayUsed(stateDay, d) == d;
    ClockHasNoT(hour, minute);
    assert t != "";
  }

  lemma ClockHasNoT(hour: string, minute: string)
    requires DayTime.DigitRun(hour, 1, 2) && DayTime.DigitRun(minute, 1, 2)
    ensures 'T' !in hour + ":" + minute
  {
    var t := hour + ":" + minute;
    forall k | 0 <= k < |t|
      ensures t[k] != 'T'
    {
      if k < |hour| { assert t[k] == hour[k]; }
      else if k > |hour| { assert t[k] == minute[k - |hour| - 1]; }
    }
  }

  lemma RenderedDayIsTrimmed(p: DayTime.DayParts)
    requires DayTime.WellFormed(p)
    ensures Text.Trim(DayTime.Render(p)) == DayTime.Render(p)
  {
    var r := DayTime.Render(p);
    assert r[0] == p.year[0];
    assert r[|r| - 1] == p.day[|p.day| - 1];
    Text.TrimOfTrimmed(r);
  }

  /** The create form opened without a map can never be sent: its submit stops at the first
      guard. Opened on a map, it passes both location guards and sends the clicked point. */
  lemma CreateNeedsTheMap(s: State, clicked: LngLat, js: DayTime.JsDate, data: CreateDetails.FormData)
    ensures var sub := Prepare(HandleCreate(s, clicked), js, data);
      && (!s.mapMounted ==> sub == NoLocation)
      && (s.mapMounted ==> sub != NoLocation && sub != NoMap)
      && (sub.Send? ==> sub.payload.latitude == clicked.lat && sub.payload.longitude == clicked.lng)
  {
  }

  /** The reply to the POST: a 2xx body with or without a `feature`, or an exception. */
  datatype PostOutcome = Saved(feature: Option<SavedFeature>) | PostFailed

  /** A returned `feature`: its `geometry.coordinates` when they form an array, read as
      `[lon, lat]`, and `properties || {}`. */
  datatype SavedFeature = SavedFeature(coordinates: Option<LngLat>, props: CreateMarker.MarkerData)

  /** `a || b` on optional strings. */
  function Or(a: Option<string>, b: string): Option<string> {
    if CreateMarker.Filled(a) then a else Some(b)
  }

  /** The data the saved feature is drawn with: each property if set, else what was submitted;
      every field ends up present. A category list in the properties wins even when empty. */
  function Merged(props: CreateMarker.MarkerData, data: CreateDetails.FormData, p: Payload): (r: CreateMarker.MarkerData)
    ensures r.title.Some? && r.description.Some? && r.day.Some? && r.startTime.Some? && r.endTime.Some?
    ensures r.categories.Some?
    ensures CreateMarker.Filled(props.title) ==> r.title == props.title
    ensures !CreateMarker.Filled(props.title) ==> r.title == Some(data.title)
    ensures CreateMarker.Filled(props.description) ==> r.description == props.description
    ensures !CreateMarker.Filled(props.description) ==> r.description == Some(data.description)
    ensures CreateMarker.Filled(props.day) ==> r.day == props.day
    ensures !CreateMarker.Filled(props.day) ==> r.day == Some(data.day)
    ensures CreateMarker.Filled(props.startTime) ==> r.startTime == props.startTime
    ensures !CreateMarker.Filled(props.startTime) ==> r.startTime == Some(p.startTime)
    ensures CreateMarker.Filled(props.endTime) ==> r.endTime == props.endTime
    ensures !CreateMarker.Filled(props.endTime) ==> r.endTime == Some(p.endTime)
    ensures props.categories.Some? ==> r.categories == props.categories
    ensures props.categories.None? ==> r.categories == Some(p.categories)
  {
    CreateMarker.MarkerData(Or(props.title, data.title), Or(props.description, data.description),
                            Or(props.day, data.day), Or(props.startTime, p.startTime), Or(props.endTime, p.endTime),
                            if props.categories.Some? then props.categories else Some(p.categories))
  }

  /** The form data as `createMarker(map, loc.lng, loc.lat, data)` sees it. The default
      category was pushed into the same array, so it shows here too. */
  function Submitted(data: CreateDetails.FormData, p: Payload): (r: CreateMarker.MarkerData)
    ensures r.title == Some(data.title) && r.description == Some(data.description) && r.day == Some(data.day)
    ensures r.startTime == Some(data.startTime) && r.endTime == Some(data.endTime)
    ensures r.categories == Some(p.categories)
  {
    CreateMarker.MarkerData(Some(data.title), Some(data.description), Some(data.day), Some(data.startTime),
                            Some(data.endTime), Some(p.categories))
  }

  /** A form sent with no categories is drawn with the default one: `categoriesArray` is the
      form's own array whenever the form holds one, so the pushed `'general'` shows there too. */
  lemma SubmittedShowsDefault(s: State, js: DayTime.JsDate, data: CreateDetails.FormData)
    requires Prepare(s, js, data).Send?
    ensures Submitted(data, Prepare(s, js, data).payload).categories ==
      Some(if data.categories == [] then ["general"] else data.categories)
  {
  }

  /** Whether the reply carries coordinates to draw the saved event at. */
  predicate HasCoordinates(outcome: PostOutcome) {
    outcome.Saved? && outcome.feature.Some? && outcome.feature.value.coordinates.Some?
  }

  /** Where the marker for the POST is drawn: the returned coordinates, else the selected point. */
  function DrawnAt(loc: LngLat, outcome: PostOutcome): (r: LngLat)
    ensures HasCoordinates(outcome) ==> r == outcome.feature.value.coordinates.value
    ensures outcome.PostFailed? || outcome == Saved(None) ==> r == loc
    ensures outcome.Saved? && outcome.feature.Some? && outcome.feature.value.coordinates.None? ==> r == loc
  {
    if HasCoordinates(outcome) then outcome.feature.value.coordinates.value else loc
  }

  /** The marker drawn once the POST has settled. */
  function PostMarker(escape: string -> string, loc: LngLat, data: CreateDetails.FormData, p: Payload,
                      outcome: PostOutcome): (m: CreateMarker.Marker)
    ensures m.at == DrawnAt(loc, outcome)
  {
    var at := DrawnAt(loc, outcome);
    CreateMarker.Create(escape, at.lng, at.lat,
                        if HasCoordinates(outcome) then Merged(outcome.feature.value.props, data, p) else Submitted(data, p))
  }

  /** The state before the reload: a saved event's marker joins the tracked markers, the one
      drawn after a failure is tracked nowhere. */
  function AfterPost(s: State, escape: string -> string, data: CreateDetails.FormData, p: Payload,
                     outcome: PostOutcome): (r: State)
    requires s.selected.Some?
    ensures r == s.(db := r.db, stray := r.stray)
    ensures outcome.Saved? ==>
      && r.stray == s.stray && |r.db| == |s.db| + 1 && r.db[..|s.db|] == s.db
      && r.db[|s.db|] == PostMarker(escape, s.selected.value, data, p, outcome)
    ensures outcome.PostFailed? ==>
      r.db == s.db && r.stray == s.stray + [CreateMarker.Create(escape, s.selected.value.lng, s.selected.value.lat, Submitted(data, p))]
  {
    var mk := PostMarker(escape, s.selected.value, data, p, outcome);
    if outcome.Saved? then s.(db := s.db + [mk]) else s.(stray := s.stray + [mk])
  }

  /** The day reloaded after the POST: the saved day, else the form's day, else the state's.
      The saved day is read from the feature's properties whether or not it has coordinates. */
  function ReloadDay(s: State, data: CreateDetails.FormData, outcome: PostOutcome): (r: string)
    ensures outcome.Saved? && outcome.feature.Some? && CreateMarker.Filled(outcome.feature.value.props.day) ==>
      r == outcome.feature.value.props.day.value
    ensures outcome.PostFailed? ==> r == (if data.day != "" then data.day else s.day)
    ensures r == "" ==> data.day == "" && s.day == ""
    ensures r == s.day || r == data.day || (outcome.Saved? && outcome.feature.Some? && outcome.feature.value.props.day == Some(r))
  {
    if outcome.Saved? && outcome.feature.Some? && CreateMarker.Filled(outcome.feature.value.props.day)
    then outcome.feature.value.props.day.value
    else if data.day != "" then data.day
    else s.day
  }

  /** The request the reload after the POST sends. */
  function ReloadRequest(s: State, js: DayTime.JsDate, data: CreateDetails.FormData,
                         post: Payload -> PostOutcome): ListRequest
    requires Prepare(s, js, data).Send?
  {
    ListRequest(ReloadDay(s, data, post(Prepare(s, js, data).payload)), CategoriesParam(s.categories))
  }

  /** `handleCreateSubmit` as written: after the POST, the day is reloaded with the appending loader. */
  function HandleCreateSubmitAsWritten(s: State, escape: string -> string, js: DayTime.JsDate,
                                       data: CreateDetails.FormData, post: Payload -> PostOutcome,
                                       server: ListRequest -> Fetched): (r: State)
    ensures !r.createOpen
    // an early return only closes the form: the location stays selected, nothing is drawn
    ensures !Prepare(s, js, data).Send? ==> r == s.(createOpen := false)
    // after a POST the location is released, whatever the outcome
    ensures Prepare(s, js, data).Send? ==> r.selected.None?
    // nothing but the markers, the form and the selection changes
    ensures Prepare(s, js, data).Send? ==> r == s.(createOpen := false, selected := None, db := r.db, stray := r.stray)
    ensures Prepare(s, js, data).Send? && post(Prepare(s, js, data).payload).PostFailed? ==>
      r.stray == s.stray + [CreateMarker.Create(escape, s.selected.value.lng, s.selected.value.lat,
                                                Submitted(data, Prepare(s, js, data).payload))]
    ensures Prepare(s, js, data).Send? && post(Prepare(s, js, data).payload).Saved? ==> r.stray == s.stray
  {
    match Prepare(s, js, data)
    case Send(p) =>
      var outcome := post(p);
      LoadEventsAsWritten(AfterPost(s.(createOpen := false), escape, data, p, outcome), escape, server,
                          ReloadDay(s, data, outcome), s.categories, false).(selected := None)
    case _ => s.(createOpen := false)
  }

  /** `handleCreateSubmit` with the corrected loader. */
  function HandleCreateSubmit(s: State, escape: string -> string, js: DayTime.JsDate, data: CreateDetails.FormData,
                              post: Payload -> PostOutcome, server: ListRequest -> Fetched): (r: State)
    ensures !r.createOpen
    ensures !Prepare(s, js, data).Send? ==> r == s.(createOpen := false)
    ensures Prepare(s, js, data).Send? ==> r.selected.None?
    // nothing but the markers, the form and the selection changes
    ensures Prepare(s, js, data).Send? ==> r == s.(createOpen := false, selected := None, db := r.db, stray := r.stray)
    ensures Prepare(s, js, data).Send? && post(Prepare(s, js, data).payload).PostFailed? ==>
      r.stray == s.stray + [CreateMarker.Create(escape, s.selected.value.lng, s.selected.value.lat,
                                                Submitted(data, Prepare(s, js, data).payload))]
    ensures Prepare(s, js, data).Send? && post(Prepare(s, js, data).payload).Saved? ==> r.stray == s.stray
  {
    match Prepare(s, js, data)
    case Send(p) =>
      var outcome := post(p);
      LoadEvents(AfterPost(s.(createOpen := false), escape, data, p, outcome), escape, server,
                 ReloadDay(s, data, outcome), s.categories, false).(selected := None)
    case _ => s.(createOpen := false)
  }

  /** As written, when the reload fails the saved event's marker follows the markers shown
      before, at the returned point (or the selected one when the reply has no coordinates). */
  lemma SavedMarkerIsKept(s: State, escape: string -> string, js: DayTime.JsDate, data: CreateDetails.FormData,
                          post: Payload -> PostOutcome, server: ListRequest -> Fetched)
    requires Prepare(s, js, data).Send?
    requires post(Prepare(s, js, data).payload).Saved?
    requires !server(ReloadRequest(s, js, data, post)).Ok?
    ensures var r := HandleCreateSubmitAsWritten(s, escape, js, data, post, server);
      && |r.db| == |s.db| + 1 && r.db[..|s.db|] == s.db
      && r.db[|s.db|].at == DrawnAt(s.selected.value, post(Prepare(s, js, data).payload))
  {
    var r := HandleCreateSubmitAsWritten(s, escape, js, data, post, server);
    assert r.db[..|s.db|] == s.db;
  }

  /** A finite record of a list is among the records drawn for it. */
  lemma {:induction false} FiniteOnlyKeeps(rs: seq<EventRecord>, k: nat)
    requires k < |rs| && rs[k].Position().IsFinite()
    ensures exists i :: 0 <= i < |FiniteOnly(rs)| && FiniteOnly(rs)[i] == rs[k]
    decreases k
  {
    if k == 0 {
      assert FiniteOnly(rs)[0] == rs[0];
    } else {
      FiniteOnlyKeeps(rs[1..], k - 1);
      var i :| 0 <= i < |FiniteOnly(rs[1..])| && FiniteOnly(rs[1..])[i] == rs[1..][k - 1];
      var head := if rs[0].Position().IsFinite() then [rs[0]] else [];
      assert FiniteOnly(rs)[|head| + i] == rs[k];
    }
  }

  /** As written, a reload keeps every marker shown before it and draws each finite listed
      record once more, even where a marker already stands. */
  lemma ReloadDrawsAgain(before: State, escape: string -> string, server: ListRequest -> Fetched, d: string,
                         cats: CatFilter, rs: seq<EventRecord>, k: nat)
    requires before.mapMounted && server(ListRequest(d, CategoriesParam(cats))) == Ok(Listed(rs))
    requires k < |rs| && rs[k].Position().IsFinite()
    ensures var r := LoadEventsAsWritten(before, escape, server, d, cats, false);
      && r.db[..|before.db|] == before.db
      && exists j :: |before.db| <= j < |r.db| && r.db[j].at == rs[k].Position()
  {
    LoadEventsAppends(before, escape, server, d, cats, false, rs);
    FiniteOnlyKeeps(rs, k);
  }

  /** As written, saving an event on a day whose reload lists it draws it twice: once for the
      reply, right after the markers shown before, and once more among the reloaded events. */
  lemma SavedEventDrawnTwice(s: State, escape: string -> string, js: DayTime.JsDate, data: CreateDetails.FormData,
                             post: Payload -> PostOutcome, server: ListRequest -> Fetched,
                             rs: seq<EventRecord>, k: nat)
    requires Prepare(s, js, data).Send?
    requires post(Prepare(s, js, data).payload).Saved?
    requires server(ReloadRequest(s, js, data, post)) == Ok(Listed(rs))
    requires k < |rs| && rs[k].Position() == DrawnAt(s.selected.value, post(Prepare(s, js, data).payload))
    requires rs[k].Position().IsFinite()
    ensures var r := HandleCreateSubmitAsWritten(s, escape, js, data, post, server);
      var at := DrawnAt(s.selected.value, post(Prepare(s, js, data).payload));
      && r.db[..|s.db|] == s.db
      && |s.db| < |r.db| && r.db[|s.db|].at == at
      && exists j :: |s.db| < j < |r.db| && r.db[j].at == at
  {
    var p := Prepare(s, js, data).payload;
    SavedThenReloaded(s, escape, data, p, post(p), server, ReloadDay(s, data, post(p)), rs, k);
  }

  /** The reload step of `SavedEventDrawnTwice`, for any payload, outcome and reloaded day. */
  lemma SavedThenReloaded(s: State, escape: string -> string, data: CreateDetails.FormData, p: Payload,
                          outcome: PostOutcome, server: ListRequest -> Fetched, d: string,
                          rs: seq<EventRecord>, k: nat)
    requires s.selected.Some? && s.mapMounted && outcome.Saved?
    requires server(ListRequest(d, CategoriesParam(s.categories))) == Ok(Listed(rs))
    requires k < |rs| && rs[k].Position() == DrawnAt(s.selected.value, outcome) && rs[k].Position().IsFinite()
    ensures var r := LoadEventsAsWritten(AfterPost(s.(createOpen := false), escape, data, p, outcome),
                                         escape, server, d, s.categories, false);
      var at := DrawnAt(s.selected.value, outcome);
      && r.db[..|s.db|] == s.db
      && |s.db| < |r.db| && r.db[|s.db|].at == at
      && exists j :: |s.db| < j < |r.db| && r.db[j].at == at
  {
    var before := AfterPost(s.(createOpen := false), escape, data, p, outcome);
    var db := before.db;
    assert db == s.db + [PostMarker(escape, s.selected.value, data, p, outcome)];
    ReloadDrawsAgain(before, escape, server, d, s.categories, rs, k);
    var r := LoadEventsAsWritten(before, escape, server, d, s.categories, false);
    assert r.db[..|db|] == db;
    assert r.db[..|s.db|] == db[..|s.db|];
    assert r.db[|s.db|] == db[|s.db|];
  }

  /** As written, a failed save followed by a reload that lists events keeps every marker shown
      before, whatever its day, in front of the reloaded ones. */
  lemma FailedSaveKeepsOldMarkers(s: State, escape: string -> string, js: DayTime.JsDate, data: CreateDetails.FormData,
                                  post: Payload -> PostOutcome, server: ListRequest -> Fetched, rs: seq<EventRecord>)
    requires Prepare(s, js, data).Send?
    requires post(Prepare(s, js, data).payload).PostFailed?
    requires server(ReloadRequest(s, js, data, post)) == Ok(Listed(rs)) && rs != []
    ensures HandleCreateSubmitAsWritten(s, escape, js, data, post, server).db == s.db + DrawAll(escape, FiniteOnly(rs))
  {
  }

  /** With the corrected loader, when the reload after a POST lists events, the markers shown
      are exactly that day's finite events, whether or not the save succeeded. */
  lemma ReloadShowsThatDay(s: State, escape: string -> string, js: DayTime.JsDate, data: CreateDetails.FormData,
                           post: Payload -> PostOutcome, server: ListRequest -> Fetched)
    requires Prepare(s, js, data).Send?
    requires var answer := server(ReloadRequest(s, js, data, post));
      answer.Ok? && answer.events.Listed? && answer.events.records != []
    ensures HandleCreateSubmit(s, escape, js, data, post, server).db
            == DrawAll(escape, FiniteOnly(server(ReloadRequest(s, js, data, post)).events.records))
  {
  }

  /** The two submit handlers agree except that, on a reload that lists events, the one as
      written keeps the markers present before the reload in front of the corrected one's. */
  lemma SubmitHandlersDiffer(s: State, escape: string -> string, js: DayTime.JsDate, data: CreateDetails.FormData,
                             post: Payload -> PostOutcome, server: ListRequest -> Fetched)
    requires Prepare(s, js, data).Send?
    ensures var p := Prepare(s, js, data).payload;
      var before := AfterPost(s.(createOpen := false), escape, data, p, post(p));
      var written := HandleCreateSubmitAsWritten(s, escape, js, data, post, server);
      var corrected := HandleCreateSubmit(s, escape, js, data, post, server);
      var answer := server(ReloadRequest(s, js, data, post));
      if answer.Ok? && answer.events.Listed? && answer.events.records != []
      then written == corrected.(db := before.db + corrected.db)
      else written == corrected
  {
    var p := Prepare(s, js, data).payload;
    var before := AfterPost(s.(createOpen := false), escape, data, p, post(p));
    AsWrittenKeepsOldInFront(before, escape, server, ReloadDay(s, data, post(p)), s.categories, false);
  }

  // ---------------------------------------------------------------------------
  // Mounting and unmounting the map
  // ---------------------------------------------------------------------------

  /** The map's `load` handler after the map is created: today's events (keeping what is
      shown when there are none), then the upcoming events, then the demo markers. When
      `loadUpcoming` rejects, the handler stops there and no demo marker is added. */
  function Bootstrap(s: State, escape: string -> string, server: ListRequest -> Fetched,
                     utc: string -> Option<GeojsonMarkers.Clock>, geo: GeojsonMarkers.GeoFetch): (r: State)
    ensures r.mapMounted
    ensures r == s.(mapMounted := true, db := r.db, demo := r.demo)
    ensures server(ListRequest(s.day, "all")) == FetchThrew ==> r.demo == s.demo
    ensures server(ListRequest(s.day, "all")) != FetchThrew ==> r.demo == GeojsonMarkers.AddGeoJsonMarkers(utc, geo)
  {
    var loaded := LoadEventsAsWritten(s.(mapMounted := true), escape, server, s.day, s.categories, true);
    match LoadUpcoming(loaded, escape, server)
    case Rejected => loaded
    case Resolved(u) => u.(demo := GeojsonMarkers.AddGeoJsonMarkers(utc, geo))
  }

  /** Whatever the first load drew, an upcoming answer that lists events decides the markers
      left after mounting: one per listed record, finite or not. */
  lemma BootstrapShowsUpcoming(s: State, escape: string -> string, server: ListRequest -> Fetched,
                               utc: string -> Option<GeojsonMarkers.Clock>, geo: GeojsonMarkers.GeoFetch,
                               rs: seq<EventRecord>)
    requires server(ListRequest(s.day, "all")) == Ok(Listed(rs)) && rs != []
    ensures Bootstrap(s, escape, server, utc, geo).db == DrawAll(escape, rs)
  {
    var loaded := LoadEventsAsWritten(s.(mapMounted := true), escape, server, s.day, s.categories, true);
    assert loaded.mapMounted && loaded.day == s.day;
  }

  /** The effect's cleanup: database and demo markers are taken off, then the map itself. */
  function Teardown(s: State): (r: State)
    ensures !r.mapMounted && r.db == [] && r.demo == [] && r.stray == []
    ensures r == s.(mapMounted := false, db := [], demo := [], stray := [])
  {
    ClearDbMarkers(s).(demo := [], stray := [], mapMounted := false)
  }

  /** Mounting and then unmounting the map leaves no marker of any kind and changes nothing
      else, whatever the loads answered. */
  lemma TeardownUndoesBootstrap(s: State, escape: string -> string, server: ListRequest -> Fetched,
                                utc: string -> Option<GeojsonMarkers.Clock>, geo: GeojsonMarkers.GeoFetch)
    ensures Teardown(Bootstrap(s, escape, server, utc, geo)) == s.(mapMounted := false, db := [], demo := [], stray := [])
  {
  }
}

=== FILE: create_details.dfy ===
/**
 The create-event form's submit handler (my-react-app/src/components/create_details.tsx):
 the payload it hands to `onSubmit`, and the order of its two callbacks.
 */
module CreateDetails {
  import Text

  /** The six controlled inputs, as typed. */
  datatype Fields = Fields(title: string, description: string, day: string, startTime: string,
                           endTime: string, categories: string)

  /** `CreateFormData`: the payload `onSubmit` receives. */
  datatype FormData = FormData(title: string, description: string, day: string, startTime: string,
                               endTime: string, categories: seq<string>)

  /** The parent callbacks, in the order `handleSubmit` invokes them. */
  datatype Call = Submit(data: FormData) | Close

  /** `categories.split(',').map(s => s.trim()).filter(Boolean)`. */
  function SplitCategories(text: string): (r: seq<string>)
    ensures forall i :: 0 <= i < |r| ==> Text.IsTag(r[i])
  {
    Text.Pieces(text)
  }

  /** `handleSubmit`: one submit carrying the form's fields, then one close. */
  function HandleSubmit(f: Fields): (calls: seq<Call>)
    ensures |calls| == 2 && calls[0].Submit? && calls[1] == Close
    ensures var d := calls[0].data;
      && d.title == f.title && d.description == f.description && d.day == f.day
      && d.startTime == f.startTime && d.endTime == f.endTime
      && d.categories == SplitCategories(f.categories)
  {
    [Submit(FormData(f.title, f.description, f.day, f.startTime, f.endTime, SplitCategories(f.categories))),
     Close]
  }

  /** Typing back the categories a payload carries, comma-separated, yields the same list. */
  lemma CategoriesRoundTrip(tags: seq<string>)
    requires forall i :: 0 <= i < |tags| ==> Text.IsTag(tags[i])
    ensures SplitCategories(Text.Join(tags, ",")) == tags
    ensures SplitCategories(Text.Join(tags, ", ")) == tags
  {
    Text.PiecesOfJoin(tags);
    Text.PiecesOfDisplayJoin(tags);
  }

  /** Text on either side of a comma contributes its own categories, in order. */
  lemma CategoriesKeepOrder(a: string, b: string)
    ensures SplitCategories(a + "," + b) == SplitCategories(a) + SplitCategories(b)
  {
    Text.PiecesAround(a, b);
  }

  /** Splitting is stable: the categories of already split text are the same. */
  lemma SplitCategoriesIdempotent(text: string)
    ensures SplitCategories(Text.Join(SplitCategories(text), ",")) == SplitCategories(text)
  {
    CategoriesRoundTrip(SplitCategories(text));
  }
}

=== FILE: create_marker.dfy ===
/**
 `createMarker` (my-react-app/src/utils/createMarker.tsx): the marker drawn for
 one event, its hover tooltip and its HTML popup. The HTML escaper the popup
 relies on is a parameter; the icon rendering and the mapbox calls are not
 modelled beyond the marker's position.
 */
module CreateMarker {
  import opened Values
  import Text

  /** `CreateFormData` as `createMarker` receives it: every field may be missing. */
  datatype MarkerData = MarkerData(
    title: Option<string>,
    description: Option<string>,
    day: Option<string>,
    startTime: Option<string>,
    endTime: Option<string>,
    categories: Option<seq<string>>)

  /** A drawn marker: where it sits, the element's `title`, and the popup's HTML. */
  datatype Marker = Marker(at: LngLat, tooltip: Option<string>, popup: Option<string>)

  /** JavaScript truthiness of an optional string. */
  predicate Filled(o: Option<string>) {
    o.Some? && o.value != ""
  }

  /** `String(x || '')`. */
  function OrEmpty(o: Option<string>): (r: string)
    ensures Filled(o) ==> r == o.value
    ensures !Filled(o) ==> r == ""
  {
    match o
    case Some(s) => s
    case None => ""
  }

  // The fixed text between the popup's fields, line breaks and indentation included.
  const Head := "\n      <strong>"
  const AfterTitle := "</strong>\n      <div>"
  const AfterDescription := "</div>\n      <strong>Day:</strong>\n      <div>"
  const AfterDay := "</div>\n      <strong>Time:</strong>\n      <div>"
  const AfterTime := "</div>\n      <div>Categories: "
  const Tail := "</div>\n    "

  /** The popup template with its five slots filled in. */
  function Layout(title: string, description: string, day: string, time: string, cats: string): string {
    Head + title + AfterTitle + description + AfterDescription + day + AfterDay + time + AfterTime + cats + Tail
  }

  /** The time slot: the escaped start, and ` - ` and the escaped end only when both are given. */
  function TimeText(escape: string -> string, start: Option<string>, end: Option<string>): (r: string)
    ensures Filled(start) && Filled(end) ==> r == escape(start.value) + " - " + escape(end.value)
    ensures !(Filled(start) && Filled(end)) ==> r == escape(OrEmpty(start))
  {
    escape(OrEmpty(start)) + (if Filled(start) && Filled(end) then " - " + escape(end.value) else "")
  }

  /** The categories slot: the list joined with `, `, escaped as a whole; no list reads as `[]`. */
  function CategoryText(escape: string -> string, cats: Option<seq<string>>): string {
    escape(Text.Join(cats.GetOr([]), ", "))
  }

  /** Where the description, the day and the time slot start, given the slots before them. */
  function DescriptionAt(title: string): nat {
    |Head| + |title| + |AfterTitle|
  }

  function DayAt(title: string, description: string): nat {
    DescriptionAt(title) + |description| + |AfterDescription|
  }

  function TimeAt(title: string, description: string, day: string): nat {
    DayAt(title, description) + |day| + |AfterDay|
  }

  /** The popup opens with the escaped title; the escaped description, the escaped day and the
      time slot follow, each after its label; it closes with the escaped category list. */
  function PopupHtml(escape: string -> string, d: MarkerData): (r: string)
    ensures |r| >= |Head| + |escape(OrEmpty(d.title))| + |CategoryText(escape, d.categories)| + |Tail|
    ensures r[..|Head| + |escape(OrEmpty(d.title))|] == Head + escape(OrEmpty(d.title))
    ensures var title := escape(OrEmpty(d.title));
      var description := escape(OrEmpty(d.description));
      var day := escape(OrEmpty(d.day));
      && Text.At(r, DescriptionAt(title), description)
      && Text.At(r, DayAt(title, description), day)
      && Text.At(r, TimeAt(title, description, day), TimeText(escape, d.startTime, d.endTime))
    ensures r[|r| - |CategoryText(escape, d.categories)| - |Tail|..] == CategoryText(escape, d.categories) + Tail
  {
    PopupLayout(escape, d);
    Layout(escape(OrEmpty(d.title)), escape(OrEmpty(d.description)), escape(OrEmpty(d.day)),
           TimeText(escape, d.startTime, d.endTime), CategoryText(escape, d.categories))
  }

  /** `PopupHtml`'s contract, for the template filled in with the event's escaped fields. */
  lemma PopupLayout(escape: string -> string, d: MarkerData)
    ensures var title := escape(OrEmpty(d.title));
      var description := escape(OrEmpty(d.description));
      var day := escape(OrEmpty(d.day));
      var time := TimeText(escape, d.startTime, d.endTime);
      var cats := CategoryText(escape, d.categories);
      var r := Layout(title, description, day, time, cats);
      && |r| >= |Head| + |title| + |cats| + |Tail|
      && r[..|Head| + |title|] == Head + title
      && Text.At(r, DescriptionAt(title), description)
      && Text.At(r, DayAt(title, description), day)
      && Text.At(r, TimeAt(title, description, day), time)
      && r[|r| - |cats| - |Tail|..] == cats + Tail
  {
    var title := escape(OrEmpty(d.title));
    var description := escape(OrEmpty(d.description));
    var day := escape(OrEmpty(d.day));
    var time := TimeText(escape, d.startTime, d.endTime);
    var cats := CategoryText(escape, d.categories);
    LayoutFramed(title, description, day, time, cats);
    LayoutSlots(title, description, day, time, cats);
  }

  /** The description, the day and the time of a filled-in template, each at its offset. */
  lemma LayoutSlots(title: string, description: string, day: string, time: string, cats: string)
    ensures var r := Layout(title, description, day, time, cats);
      && Text.At(r, DescriptionAt(title), description)
      && Text.At(r, DayAt(title, description), day)
      && Text.At(r, TimeAt(title, description, day), time)
  {
    Text.Slots(Head, title, AfterTitle, description, AfterDescription, day, AfterDay, time, AfterTime, cats, Tail);
  }

  lemma LayoutFramed(title: string, description: string, day: string, time: string, cats: string)
    ensures var r := Layout(title, description, day, time, cats);
      && |r| >= |Head| + |title| + |cats| + |Tail|
      && r[..|Head| + |title|] == Head + title
      && r[|r| - |cats| - |Tail|..] == cats + Tail
  {
    Text.FramedChain7(Head, title, AfterTitle, description, AfterDescription, day, AfterDay, time, AfterTime,
                      cats, Tail);
  }

  /** `createMarker(map, lng, lat, data)`. */
  function Create(escape: string -> string, lng: Float, lat: Float, d: MarkerData): (m: Marker)
    ensures m.at == LngLat(lng, lat)
    ensures m.tooltip.Some? <==> Filled(d.title)
    ensures m.tooltip.Some? ==> m.tooltip.value == d.title.value
    ensures m.popup.Some? <==> Filled(d.title) || Filled(d.description)
    ensures m.popup.Some? ==> m.popup.value == PopupHtml(escape, d)
  {
    Marker(LngLat(lng, lat),
           if Filled(d.title) then Some(d.title.value) else None,
           if Filled(d.title) || Filled(d.description) then Some(PopupHtml(escape, d)) else None)
  }

  /** `(data.categories || [])`: a marker drawn without a category list is the one drawn with
      the empty list. */
  lemma MissingCategoriesReadEmpty(escape: string -> string, lng: Float, lat: Float, d: MarkerData)
    requires d.categories.None?
    ensures Create(escape, lng, lat, d) == Create(escape, lng, lat, d.(categories := Some([])))
  {
  }

  /** The template's own `<` count plus whatever the slots bring. */
  lemma LayoutCount(title: string, description: string, day: string, time: string, cats: string)
    ensures Text.Count(Layout(title, description, day, time, cats), '<')
         == Text.Count(Layout("", "", "", "", ""), '<')
          + Text.Count(title, '<') + Text.Count(description, '<') + Text.Count(day, '<')
          + Text.Count(time, '<') + Text.Count(cats, '<')
  {
    CountChain(Head, title, AfterTitle, description, AfterDescription, day, AfterDay, time, AfterTime, cats, Tail);
    EmptySlots(Head, AfterTitle, AfterDescription, AfterDay, AfterTime, Tail);
  }

  /** The `<` of a template with empty slots are those of its fixed parts. */
  lemma EmptySlots(s0: string, s1: string, s2: string, s3: string, s4: string, s5: string)
    ensures Text.Count(s0 + "" + s1 + "" + s2 + "" + s3 + "" + s4 + "" + s5, '<')
         == Text.Count(s0, '<') + Text.Count(s1, '<') + Text.Count(s2, '<') + Text.Count(s3, '<')
          + Text.Count(s4, '<') + Text.Count(s5, '<')
  {
    CountChain(s0, "", s1, "", s2, "", s3, "", s4, "", s5);
  }

  /** Counting distributes over the eleven pieces of a filled-in template. */
  lemma CountChain(s0: string, x1: string, s1: string, x2: string, s2: string, x3: string, s3: string,
                   x4: string, s4: string, x5: string, s5: string)
    ensures Text.Count(s0 + x1 + s1 + x2 + s2 + x3 + s3 + x4 + s4 + x5 + s5, '<')
         == Text.Count(s0, '<') + Text.Count(s1, '<') + Text.Count(s2, '<') + Text.Count(s3, '<')
          + Text.Count(s4, '<') + Text.Count(s5, '<')
          + Text.Count(x1, '<') + Text.Count(x2, '<') + Text.Count(x3, '<') + Text.Count(x4, '<')
          + Text.Count(x5, '<')
  {
    var p1 := s0 + x1 + s1;
    CountSlot(s0, x1, s1);
    var p2 := p1 + x2 + s2;
    CountSlot(p1, x2, s2);
    var p3 := p2 + x3 + s3;
    CountSlot(p2, x3, s3);
    var p4 := p3 + x4 + s4;
    CountSlot(p3, x4, s4);
    CountSlot(p4, x5, s5);
  }

  lemma CountSlot(a: string, x: string, b: string)
    ensures Text.Count(a + x + b, '<') == Text.Count(a, '<') + Text.Count(x, '<') + Text.Count(b, '<')
  {
    Text.CountAppend(a, x, '<');
    Text.CountAppend(a + x, b, '<');
  }

  /** No markup injection: when the escaper never emits `<`, every popup carries exactly
      the template's tags, whatever the event's fields hold. */
  lemma PopupTagsFixed(escape: string -> string, d: MarkerData)
    requires forall s :: '<' !in escape(s)
    ensures Text.Count(PopupHtml(escape, d), '<') == Text.Count(Layout("", "", "", "", ""), '<')
  {
    var t := TimeText(escape, d.startTime, d.endTime);
    assert '<' !in t by {
      if Filled(d.startTime) && Filled(d.endTime) {
        assert t == escape(d.startTime.value) + " - " + escape(d.endTime.value);
        assert '<' !in " - ";
      }
    }
    Text.CountAbsent(escape(OrEmpty(d.title)), '<');
    Text.CountAbsent(escape(OrEmpty(d.description)), '<');
    Text.CountAbsent(escape(OrEmpty(d.day)), '<');
    Text.CountAbsent(t, '<');
    Text.CountAbsent(CategoryText(escape, d.categories), '<');
    LayoutCount(escape(OrEmpty(d.title)), escape(OrEmpty(d.description)), escape(OrEmpty(d.day)),
                t, CategoryText(escape, d.categories));
  }

  /** The categories slot reads back as the list it was built from, when escaping leaves
      the tags alone and each is a trimmed, comma-free, non-empty tag. */
  lemma CategoryTextReadsBack(escape: string -> string, tags: seq<string>)
    requires forall i :: 0 <= i < |tags| ==> Text.IsTag(tags[i])
    requires escape(Text.Join(tags, ", ")) == Text.Join(tags, ", ")
    ensures Text.Pieces(CategoryText(escape, Some(tags))) == tags
  {
    Text.PiecesOfDisplayJoin(tags);
  }
}

=== FILE: day_time.dfy ===
/**
 The string normalisation the create form applies before posting an event
 (my-react-app/src/App.tsx): zero-padding a `YYYY-M-D` day, zero-padding an
 `H:M` time, and combining the two into a UTC instant string.

 `normalizeDay` and `Format_day` are the same rule written twice in the source;
 here it is `NormalizeDay`, defined once.
 */
module DayTime {
  import opened Values
  import Text
  import opened Numerals

  /** The three captures of `/^(\d{4})-(\d{1,2})-(\d{1,2})$/`. */
  datatype DayParts = DayParts(year: string, month: string, day: string)

  predicate DigitRun(s: string, lo: nat, hi: nat) {
    lo <= |s| <= hi && AllDigits(s)
  }

  predicate WellFormed(p: DayParts) {
    DigitRun(p.year, 4, 4) && DigitRun(p.month, 1, 2) && DigitRun(p.day, 1, 2)
  }

  function Render(p: DayParts): string {
    p.year + "-" + p.month + "-" + p.day
  }

  /** The anchored pattern: digits only, exactly two hyphens, runs of 4, 1-2 and 1-2 digits.
      A digit run holds no hyphen, so splitting on `-` finds the three captures. */
  function MatchDay(s: string): (r: Option<DayParts>)
    ensures r.Some? ==> WellFormed(r.value) && Render(r.value) == s
  {
    var parts := Text.Split(s, '-');
    if |parts| == 3 && WellFormed(DayParts(parts[0], parts[1], parts[2])) then
      Text.JoinSplit(s, '-');
      Text.JoinCons(parts[1], [parts[2]], "-");
      Text.JoinCons(parts[0], [parts[1], parts[2]], "-");
      assert parts == [parts[0]] + [parts[1], parts[2]];
      assert [parts[1], parts[2]] == [parts[1]] + [parts[2]];
      Some(DayParts(parts[0], parts[1], parts[2]))
    else None
  }

  lemma DigitsHaveNoHyphen(s: string)
    requires AllDigits(s)
    ensures '-' !in s
  {
  }

  /** Conversely, every well-formed day matches, with these captures. */
  lemma MatchRender(p: DayParts)
    requires WellFormed(p)
    ensures MatchDay(Render(p)) == Some(p)
  {
    var parts := [p.year, p.month, p.day];
    DigitsHaveNoHyphen(p.year);
    DigitsHaveNoHyphen(p.month);
    DigitsHaveNoHyphen(p.day);
    assert Text.Join(parts, "-") == Render(p) by {
      Text.JoinCons(p.month, [p.day], "-");
      Text.JoinCons(p.year, [p.month, p.day], "-");
      assert [p.year] + [p.month, p.day] == parts;
      assert [p.month] + [p.day] == [p.month, p.day];
    }
    Text.SplitJoin(parts, '-');
  }

  function Padded(p: DayParts): DayParts {
    DayParts(p.year, PadStart2(p.month), PadStart2(p.day))
  }

  /** `normalizeDay` (and `Format_day`): zero-pad month and day of a `YYYY-M-D` string,
      leave anything else as it is. */
  function NormalizeDay(s: string): (r: string)
    ensures MatchDay(s).None? ==> r == s
    ensures MatchDay(s).Some? ==>
      var p := MatchDay(s).value;
      && |r| == 10 && r[4] == '-' && r[7] == '-'
      && MatchDay(r) == Some(Padded(p))
      && Value(Padded(p).month) == Value(p.month) && Value(Padded(p).day) == Value(p.day)
  {
    match MatchDay(s)
    case None => s
    case Some(p) =>
      ValueOfPadStart2(p.month);
      ValueOfPadStart2(p.day);
      MatchRender(Padded(p));
      Render(Padded(p))
  }

  lemma NormalizeDayIdempotent(s: string)
    ensures NormalizeDay(NormalizeDay(s)) == NormalizeDay(s)
  {
    match MatchDay(s)
    case None =>
    case Some(p) =>
      var q := Padded(p);
      assert MatchDay(NormalizeDay(s)) == Some(q);
      assert Padded(q) == q;
      assert NormalizeDay(NormalizeDay(s)) == Render(q);
  }

  /** `normalizeTime`: with a `:`, the first two fields zero-padded and joined by `:`
      (any further fields dropped); without one, unchanged. */
  function NormalizeTime(t: string): (r: string)
    ensures ':' in t <==> |Text.Split(t, ':')| >= 2
    ensures ':' !in t ==> r == t
    ensures ':' in t ==>
      var parts := Text.Split(t, ':');
      Text.Split(r, ':') == [PadStart2(parts[0]), PadStart2(parts[1])]
  {
    Text.SplitFindsSep(t, ':');
    var parts := Text.Split(t, ':');
    if |parts| >= 2 then
      var r := PadStart2(parts[0]) + ":" + PadStart2(parts[1]);
      assert r == Text.Join([PadStart2(parts[0]), PadStart2(parts[1])], ":") by {
        Text.JoinCons(PadStart2(parts[0]), [PadStart2(parts[1])], ":");
      }
      PadKeepsNoColon(parts[0]);
      PadKeepsNoColon(parts[1]);
      Text.SplitJoin([PadStart2(parts[0]), PadStart2(parts[1])], ':');
      r
    else t
  }

  lemma PadKeepsNoColon(s: string)
    requires ':' !in s
    ensures ':' !in PadStart2(s)
  {
    if |s| == 1 {
      assert PadStart2(s) == ['0', s[0]];
    }
  }

  lemma NormalizeTimeIdempotent(t: string)
    ensures NormalizeTime(NormalizeTime(t)) == NormalizeTime(t)
  {
    if ':' in t {
      var parts := Text.Split(t, ':');
      var r := NormalizeTime(t);
      var q := Text.Split(r, ':');
      assert q == [PadStart2(parts[0]), PadStart2(parts[1])];
      assert ':' in r by {
        Text.JoinSplit(r, ':');
        Text.JoinCons(q[0], [q[1]], ":");
        assert r == q[0] + ":" + q[1];
        assert r[|q[0]|] == ':';
      }
      assert PadStart2(q[0]) == q[0] && PadStart2(q[1]) == q[1];
      assert NormalizeTime(r) == q[0] + ":" + q[1];
      Text.JoinSplit(r, ':');
      Text.JoinCons(q[0], [q[1]], ":");
    }
  }

  /** The string `toIso` hands to `new Date(...)`. */
  function IsoCandidate(day: string, time: string): string {
    NormalizeDay(day) + "T" + NormalizeTime(time) + ":00Z"
  }

  /** A `YYYY-M-D` day and an `H:M` time give a full `YYYY-MM-DDTHH:MM:00Z` instant
      whose fields denote the numbers that were typed. */
  lemma CandidateShape(p: DayParts, hour: string, minute: string)
    requires WellFormed(p) && DigitRun(hour, 1, 2) && DigitRun(minute, 1, 2)
    ensures var c := IsoCandidate(Render(p), hour + ":" + minute);
      && c == p.year + "-" + PadStart2(p.month) + "-" + PadStart2(p.day)
              + "T" + PadStart2(hour) + ":" + PadStart2(minute) + ":00Z"
      && |c| == 20
      && Value(PadStart2(p.month)) == Value(p.month) && Value(PadStart2(p.day)) == Value(p.day)
      && Value(PadStart2(hour)) == Value(hour) && Value(PadStart2(minute)) == Value(minute)
  {
    NormalizeRendered(p);
    NormalizeClock(hour, minute);
    AppendClock(Render(Padded(p)) + "T", PadStart2(hour), PadStart2(minute));
    ValueOfPadStart2(p.month);
    ValueOfPadStart2(p.day);
    ValueOfPadStart2(hour);
    ValueOfPadStart2(minute);
  }

  lemma AppendClock(x: string, h: string, m: string)
    ensures x + (h + ":" + m) + ":00Z" == x + h + ":" + m + ":00Z"
  {
    assert x + (h + ":" + m) == x + h + ":" + m;
  }

  lemma NormalizeRendered(p: DayParts)
    requires WellFormed(p)
    ensures NormalizeDay(Render(p)) == Render(Padded(p))
  {
    MatchRender(p);
  }

  lemma NormalizeClock(hour: string, minute: string)
    requires DigitRun(hour, 1, 2) && DigitRun(minute, 1, 2)
    ensures NormalizeTime(hour + ":" + minute) == PadStart2(hour) + ":" + PadStart2(minute)
  {
    var t := hour + ":" + minute;
    assert Text.Split(t, ':') == [hour, minute] by {
      DigitsHaveNoColon(hour);
      DigitsHaveNoColon(minute);
      Text.JoinCons(hour, [minute], ":");
      Text.SplitJoin([hour, minute], ':');
    }
    assert t[|hour|] == ':';
  }

  lemma DigitsHaveNoColon(s: string)
    requires AllDigits(s)
    ensures ':' !in s
  {
  }

  /** The JavaScript `Date` behaviour `toIso` relies on: parsing (None for an
      invalid date) to milliseconds, and `toISOString`. */
  datatype JsDate = JsDate(parse: string -> Option<int>, iso: int -> string)

  /** `(dayStr && String(dayStr).trim()) || day`: the form's day unless it is blank. */
  function DayUsed(stateDay: string, dayStr: string): (r: string)
    ensures Text.Trim(dayStr) != "" ==> r == Text.Trim(dayStr) && r != "" && Text.Trimmed(r)
    ensures Text.Trim(dayStr) == "" ==> r == stateDay
  {
    if Text.Trim(dayStr) != "" then Text.Trim(dayStr) else stateDay
  }

  /** Whitespace typed around the form's day changes nothing. */
  lemma DayUsedIgnoresPadding(stateDay: string, dayStr: string, c: char)
    requires Text.IsSpace(c)
    ensures DayUsed(stateDay, [c] + dayStr + [c]) == DayUsed(stateDay, dayStr)
  {
    Text.TrimSkipsTrailingSpace([c] + dayStr, c);
    Text.TrimSkipsLeadingSpace(c, dayStr);
  }

  /** `toIso(dayStr, time)` inside `handleCreateSubmit`. */
  function ToIso(js: JsDate, stateDay: string, dayStr: string, time: string): (r: string)
    ensures time == "" ==> r == ""
    ensures time != "" && 'T' in time ==> r == time
    ensures time != "" && 'T' !in time ==>
      var day := DayUsed(stateDay, dayStr);
      if day == "" then r == ""
      else match js.parse(IsoCandidate(day, time))
        case None => r == ""
        case Some(ms) => r == js.iso(ms)
  {
    if time == "" then ""
    else if 'T' in time then time
    else
      var day := DayUsed(stateDay, dayStr);
      if day == "" then ""
      else match js.parse(IsoCandidate(day, time))
        case None => ""
        case Some(ms) => js.iso(ms)
  }
}

=== FILE: geojson_markers.dfy ===
/**
 The demo markers read from `/location.geojson` (my-react-app/src/components/marker.tsx):
 the 12-hour clock text, the per-feature property defaults, the popup, and the
 cleanup that takes the created markers off the map again.

 `new Date(s)` followed by `getUTCHours`/`getUTCMinutes` is a parameter that
 yields the UTC hour and minute, or nothing for an invalid date.
 */
module GeojsonMarkers {
  import opened Values
  import opened Numerals
  import Text
  import CreateMarker

  type Hour = h: nat | h < 24
  type Minute = m: nat | m < 60

  /** The UTC hour and minute of a valid date. */
  datatype Clock = Clock(hour: Hour, minute: Minute)

  /** `hours % 12 || 12`. */
  function Hour12(h: Hour): (r: nat)
    ensures 1 <= r <= 12
    ensures r % 12 == h % 12
  {
    if h % 12 == 0 then 12 else h % 12
  }

  function Meridiem(h: Hour): string {
    if h >= 12 then "PM" else "AM"
  }

  /** The clock text of a valid date: two-digit hour, `:`, two-digit minute, two spaces, meridiem. */
  function Format12(c: Clock): (r: string)
    ensures |r| == 9 && r[2] == ':' && r[5] == ' ' && r[6] == ' '
  {
    Two(Hour12(c.hour)) + ":" + Two(c.minute) + "  " + Meridiem(c.hour)
  }

  /** An invalid date: NaN hours are not `>= 12` and `NaN % 12 || 12` is 12, while the
      minutes print as `NaN`. */
  const InvalidTime := "12:NaN  AM"

  /** `changeToTimeFormat`: the text depends on the parsed UTC hour and minute only;
      no input is passed through unchanged. */
  function ChangeToTimeFormat(utc: string -> Option<Clock>, s: string): (r: string)
    ensures utc(s).None? ==> r == InvalidTime
    ensures utc(s).Some? ==> r == Format12(utc(s).value)
  {
    match utc(s)
    case None => InvalidTime
    case Some(c) => Format12(c)
  }

  /** Reads a `HH:MM  AM` clock text back into a 24-hour clock, the inverse of `Format12`. */
  function Read12(s: string): Option<Clock> {
    if |s| == 9 && s[2] == ':' && s[5..7] == "  " && (s[7..] == "AM" || s[7..] == "PM")
       && AllDigits(s[..2]) && AllDigits(s[3..5])
    then
      var h12 := Value(s[..2]);
      var m := Value(s[3..5]);
      var h := h12 % 12 + (if s[7..] == "PM" then 12 else 0);
      if 1 <= h12 <= 12 && m < 60 then Some(Clock(h, m)) else None
    else None
  }

  /** Every valid clock text reads back as the clock it came from: the hour field is in
      1..12, the meridiem is `PM` exactly from noon on, and the minutes are kept. */
  lemma ReadFormat12(c: Clock)
    ensures Read12(Format12(c)) == Some(c)
    ensures Format12(c)[7..] == "PM" <==> c.hour >= 12
  {
    var s := Format12(c);
    assert s[..2] == Two(Hour12(c.hour));
    assert s[3..5] == Two(c.minute);
    assert s[5..7] == "  ";
    assert s[7..] == Meridiem(c.hour);
  }

  /** The invalid-date text is not a clock text. */
  lemma InvalidIsNotAClock()
    ensures Read12(InvalidTime) == None
  {
    assert !IsDigit(InvalidTime[4]);
    assert !AllDigits(InvalidTime[3..5]);
  }

  /** A GeoJSON property value, by the test the code applies to it. */
  datatype Prop = Text(s: string) | List(items: seq<string>) | Other

  datatype Feature = Feature(lng: Float, lat: Float, properties: Option<map<string, Prop>>)

  /** `props && typeof props[key] === 'string' ? props[key] : ''`. */
  function TextProp(props: Option<map<string, Prop>>, key: string): (r: string)
    ensures r != "" ==> props.Some? && key in props.value && props.value[key] == Text(r)
    ensures props.Some? && key in props.value && props.value[key].Text? ==> r == props.value[key].s
  {
    if props.Some? && key in props.value && props.value[key].Text? then props.value[key].s else ""
  }

  /** `props && Array.isArray(props[key]) ? props[key] : []`. */
  function ListProp(props: Option<map<string, Prop>>, key: string): (r: seq<string>)
    ensures r != [] ==> props.Some? && key in props.value && props.value[key] == List(r)
    ensures props.Some? && key in props.value && props.value[key].List? ==> r == props.value[key].items
  {
    if props.Some? && key in props.value && props.value[key].List? then props.value[key].items else []
  }

  const DemoHead := "\n                <strong>"
  const DemoAfterTitle := "</strong>\n                <div>"
  const DemoAfterDescription :=
    "</div>\n                <strong>\n                Day: \n                </strong>\n                <div>"
  const DemoAfterDay :=
    "</div>\n                <strong>\n                Time: \n                </strong>\n                <div>"
  const DemoAfterStart := " - "
  const DemoAfterEnd := "</div>\n                <div>Categories: "
  const DemoTail := "</div>\n            "

  /** Where the demo popup's description and day start, given the fields before them. */
  function DemoDescriptionAt(title: string): nat {
    |DemoHead| + |title| + |DemoAfterTitle|
  }

  function DemoDayAt(title: string, description: string): nat {
    DemoDescriptionAt(title) + |description| + |DemoAfterDescription|
  }

  /** The demo popup: the fields go in unescaped, the time line always holds ` - `. It opens
      with the title; the description and the day follow, each after its label; it closes
      with the categories joined by `, `. */
  function DemoPopup(title: string, description: string, day: string, start: string, end: string,
                     cats: seq<string>): (r: string)
    ensures |r| >= |DemoHead| + |title| + |Text.Join(cats, ", ")| + |DemoTail|
    ensures r[..|DemoHead| + |title|] == DemoHead + title
    ensures Text.At(r, DemoDescriptionAt(title), description)
    ensures Text.At(r, DemoDayAt(title, description), day)
    ensures r[|r| - |Text.Join(cats, ", ")| - |DemoTail|..] == Text.Join(cats, ", ") + DemoTail
  {
    DemoTextFramed(title, description, day, start, end, cats);
    DemoTextSlots(title, description, day, start, end, cats);
    DemoText(title, description, day, start, end, cats)
  }

  /** The demo template opens with its head and the title and closes with the categories and
      its tail. */
  lemma DemoTextFramed(title: string, description: string, day: string, start: string, end: string,
                       cats: seq<string>)
    ensures var pop := DemoText(title, description, day, start, end, cats);
      && |pop| >= |DemoHead| + |title| + |Text.Join(cats, ", ")| + |DemoTail|
      && pop[..|DemoHead| + |title|] == DemoHead + title
      && pop[|pop| - |Text.Join(cats, ", ")| - |DemoTail|..] == Text.Join(cats, ", ") + DemoTail
  {
    Text.FramedChain9(DemoHead, title, DemoAfterTitle, description, DemoAfterDescription, day, DemoAfterDay,
                      start, DemoAfterStart, end, DemoAfterEnd, Text.Join(cats, ", "), DemoTail);
  }

  /** The description and the day of the demo template, each at its offset. */
  lemma DemoTextSlots(title: string, description: string, day: string, start: string, end: string,
                      cats: seq<string>)
    ensures var pop := DemoText(title, description, day, start, end, cats);
      Text.At(pop, DemoDescriptionAt(title), description) && Text.At(pop, DemoDayAt(title, description), day)
  {
    var w := DemoHead + title + DemoAfterTitle + description + DemoAfterDescription + day + DemoAfterDay
      + start + DemoAfterStart + end + DemoAfterEnd;
    var j := Text.Join(cats, ", ");
    Text.SecondSlot(DemoHead, title, DemoAfterTitle, description, DemoAfterDescription, day, DemoAfterDay,
                    start, DemoAfterStart, end, DemoAfterEnd);
    Text.ThirdSlot(DemoHead, title, DemoAfterTitle, description, DemoAfterDescription, day, DemoAfterDay,
                   start, DemoAfterStart, end, DemoAfterEnd);
    Text.SlotExtends(w, DemoDescriptionAt(title), description, j);
    Text.SlotExtends(w + j, DemoDescriptionAt(title), description, DemoTail);
    Text.SlotExtends(w, DemoDayAt(title, description), day, j);
    Text.SlotExtends(w + j, DemoDayAt(title, description), day, DemoTail);
  }

  /** The demo template filled in, piece by piece. */
  function DemoText(title: string, description: string, day: string, start: string, end: string,
                    cats: seq<string>): string {
    DemoHead + title + DemoAfterTitle + description + DemoAfterDescription + day + DemoAfterDay
      + start + DemoAfterStart + end + DemoAfterEnd + Text.Join(cats, ", ") + DemoTail
  }

  /** One iteration of the loop in `addGeoJSONMarkers`. */
  function FeatureMarker(utc: string -> Option<Clock>, f: Feature): (m: CreateMarker.Marker)
    ensures m.at == LngLat(f.lng, f.lat)
    ensures m.tooltip.Some? <==> TextProp(f.properties, "title") != ""
    ensures m.tooltip.Some? ==> f.properties.Some? && f.properties.value["title"] == Text(m.tooltip.value)
    ensures m.popup.Some? <==> TextProp(f.properties, "title") != "" || TextProp(f.properties, "description") != ""
    // the popup shows the text properties unescaped and the two times on the 12-hour clock
    ensures m.popup.Some? ==>
      var p := f.properties;
      m.popup.value == DemoPopup(TextProp(p, "title"), TextProp(p, "description"), TextProp(p, "day"),
                                 ChangeToTimeFormat(utc, TextProp(p, "start_time")),
                                 ChangeToTimeFormat(utc, TextProp(p, "end_time")), ListProp(p, "categories"))
  {
    var p := f.properties;
    var title := TextProp(p, "title");
    var description := TextProp(p, "description");
    var start := ChangeToTimeFormat(utc, TextProp(p, "start_time"));
    var end := ChangeToTimeFormat(utc, TextProp(p, "end_time"));
    CreateMarker.Marker(
      LngLat(f.lng, f.lat),
      if title != "" then Some(title) else None,
      if title != "" || description != "" then
        Some(DemoPopup(title, description, TextProp(p, "day"), start, end, ListProp(p, "categories")))
      else None)
  }

  /** The time line of a demo popup starts where the day's block ends. */
  function TimeLineAt(title: string, description: string, day: string): nat {
    |DemoHead + title + DemoAfterTitle + description + DemoAfterDescription + day + DemoAfterDay|
  }

  /** The time line of a demo popup: the start text, ` - `, then the end text. */
  lemma DemoTimeLine(title: string, description: string, day: string, cats: seq<string>, start: string, end: string)
    ensures var pop := DemoPopup(title, description, day, start, end, cats);
      var k := TimeLineAt(title, description, day);
      && k + |start| + 3 + |end| <= |pop|
      && pop[k..k + |start|] == start && pop[k + |start|..k + |start| + 3] == " - "
      && pop[k + |start| + 3..k + |start| + 3 + |end|] == end
  {
    DemoTextTimeLine(title, description, day, cats, start, end);
  }

  /** `DemoTimeLine` for the template text itself. */
  lemma DemoTextTimeLine(title: string, description: string, day: string, cats: seq<string>, start: string, end: string)
    ensures var pop := DemoText(title, description, day, start, end, cats);
      var k := TimeLineAt(title, description, day);
      && k + |start| + 3 + |end| <= |pop|
      && pop[k..k + |start|] == start && pop[k + |start|..k + |start| + 3] == " - "
      && pop[k + |start| + 3..k + |start| + 3 + |end|] == end
  {
    var pre := DemoHead + title + DemoAfterTitle + description + DemoAfterDescription + day + DemoAfterDay;
    Window(pre, start, DemoAfterStart, end, DemoAfterEnd, Text.Join(cats, ", "), DemoTail);
  }

  /** The time line of a demo popup with two valid times reads back as those two clocks,
      separated by ` - `. */
  lemma DemoTimesReadBack(title: string, description: string, day: string, cats: seq<string>, c1: Clock, c2: Clock)
    ensures var pop := DemoPopup(title, description, day, Format12(c1), Format12(c2), cats);
      var k := TimeLineAt(title, description, day);
      && k + 21 <= |pop|
      && Read12(pop[k..k + 9]) == Some(c1) && pop[k + 9..k + 12] == " - " && Read12(pop[k + 12..k + 21]) == Some(c2)
  {
    DemoTimeLine(title, description, day, cats, Format12(c1), Format12(c2));
    ReadFormat12(c1);
    ReadFormat12(c2);
  }

  /** A demo marker's popup shows the UTC clock of each valid time, in order, readable back. */
  lemma FeatureTimesReadBack(utc: string -> Option<Clock>, f: Feature)
    requires FeatureMarker(utc, f).popup.Some?
    requires utc(TextProp(f.properties, "start_time")).Some? && utc(TextProp(f.properties, "end_time")).Some?
    ensures var pop := FeatureMarker(utc, f).popup.value;
      var p := f.properties;
      var k := TimeLineAt(TextProp(p, "title"), TextProp(p, "description"), TextProp(p, "day"));
      && k + 21 <= |pop|
      && Read12(pop[k..k + 9]) == utc(TextProp(p, "start_time"))
      && Read12(pop[k + 12..k + 21]) == utc(TextProp(p, "end_time"))
  {
    var p := f.properties;
    DemoTimesReadBack(TextProp(p, "title"), TextProp(p, "description"), TextProp(p, "day"), ListProp(p, "categories"),
                      utc(TextProp(p, "start_time")).value, utc(TextProp(p, "end_time")).value);
  }

  /** Where three middle pieces sit in a concatenation. */
  lemma Window(pre: string, a: string, sep: string, b: string, r1: string, r2: string, r3: string)
    ensures var w := pre + a + sep + b + r1 + r2 + r3;
      var k := |pre|;
      && k + |a| + |sep| + |b| <= |w|
      && w[k..k + |a|] == a && w[k + |a|..k + |a| + |sep|] == sep && w[k + |a| + |sep|..k + |a| + |sep| + |b|] == b
  {
    var z := a + sep + b;
    var w := pre + a + sep + b + r1 + r2 + r3;
    assert w == pre + z + (r1 + r2 + r3);
    assert w[|pre|..|pre| + |z|] == z;
  }

  /** The response to `fetch('/location.geojson')`. */
  datatype GeoFetch = NotOk | Ok(features: seq<Feature>)

  /** The markers `addGeoJSONMarkers` creates, in feature order. */
  function AddGeoJsonMarkers(utc: string -> Option<Clock>, res: GeoFetch): (created: seq<CreateMarker.Marker>)
    ensures res.NotOk? ==> created == []
    ensures res.Ok? ==> |created| == |res.features|
    ensures res.Ok? ==> forall i :: 0 <= i < |created| ==>
      created[i] == FeatureMarker(utc, res.features[i])
  {
    match res
    case NotOk => []
    case Ok(fs) => seq(|fs|, i requires 0 <= i < |fs| => FeatureMarker(utc, fs[i]))
  }

  /** The markers on the map, each under the handle that `remove()` acts on. */
  datatype Layer = Layer(next: nat, shown: map<nat, CreateMarker.Marker>) {
    predicate Good() {
      forall k :: k in shown ==> k < next
    }
  }

  /** `marker.addTo(map)` for each created marker, in order; the handles are returned. */
  function AddAll(layer: Layer, ms: seq<CreateMarker.Marker>): (r: (Layer, seq<nat>))
    requires layer.Good()
    ensures r.0.Good() && |r.1| == |ms| && r.0.next == layer.next + |ms|
    ensures forall i :: 0 <= i < |ms| ==> r.1[i] == layer.next + i
    ensures forall i :: 0 <= i < |ms| ==> r.1[i] in r.0.shown && r.0.shown[r.1[i]] == ms[i]
    ensures forall k :: k in layer.shown ==> k in r.0.shown && r.0.shown[k] == layer.shown[k]
    ensures forall k :: k in r.0.shown ==> k in layer.shown || layer.next <= k < r.0.next
    decreases |ms|
  {
    if ms == [] then (layer, [])
    else
      var first := Layer(layer.next + 1, layer.shown[layer.next := ms[0]]);
      var rest := AddAll(first, ms[1..]);
      (rest.0, [layer.next] + rest.1)
  }

  /** The cleanup `() => created.forEach(m => m.remove())`. */
  function Cleanup(layer: Layer, handles: seq<nat>): Layer {
    Layer(layer.next, map k | k in layer.shown && k !in handles :: layer.shown[k])
  }

  /** The cleanup takes off exactly the markers it created: whatever was shown before is back
      as it was, and none of the created markers is left. */
  lemma CleanupUndoesAdd(layer: Layer, ms: seq<CreateMarker.Marker>)
    requires layer.Good()
    ensures var (added, handles) := AddAll(layer, ms);
      Cleanup(added, handles).shown == layer.shown
  {
    var (added, handles) := AddAll(layer, ms);
    AddedHandles(layer, ms);
    assert Cleanup(added, handles).shown.Keys == layer.shown.Keys;
  }

  /** The handles `AddAll` returns are new to the layer, and every marker shown afterwards was
      shown before or is one of them. */
  lemma AddedHandles(layer: Layer, ms: seq<CreateMarker.Marker>)
    requires layer.Good()
    ensures var (added, handles) := AddAll(layer, ms);
      && (forall k :: k in handles ==> k !in layer.shown)
      && (forall k :: k in added.shown ==> k in layer.shown || k in handles)
  {
    var (added, handles) := AddAll(layer, ms);
    forall k | k in handles
      ensures k !in layer.shown
    {
      var i :| 0 <= i < |handles| && handles[i] == k;
    }
    forall k | layer.next <= k < added.next
      ensures k in handles
    {
      assert handles[k - layer.next] == k;
    }
  }
}

=== FILE: numerals.dfy ===
/**
 Decimal digit strings: `Number.prototype.toString()` on non-negative integers,
 `padStart(2, '0')`, and the numeric value a digit string denotes (the inverse
 the round-trip lemmas use).
 */
module Numerals {

  predicate IsDigit(c: char) {
    '0' <= c <= '9'
  }

  predicate AllDigits(s: string) {
    forall i :: 0 <= i < |s| ==> IsDigit(s[i])
  }

  function DigitChar(d: nat): (c: char)
    requires d < 10
    ensures IsDigit(c)
  {
    (48 + d) as char
  }

  function DigitValue(c: char): (d: nat)
    requires IsDigit(c)
    ensures d < 10 && DigitChar(d) == c
  {
    c as int - 48
  }

  /** The value of a digit string, most significant digit first; `""` denotes 0. */
  function Value(s: string): nat
    requires AllDigits(s)
    decreases |s|
  {
    if |s| == 0 then 0 else 10 * Value(s[..|s| - 1]) + DigitValue(s[|s| - 1])
  }

  /** `n.toString()` for a non-negative integer. */
  function Dec(n: nat): (r: string)
    ensures 1 <= |r| && AllDigits(r)
    ensures n < 10 <==> |r| == 1
    ensures 10 <= n < 100 ==> |r| == 2
    decreases n
  {
    if n < 10 then [DigitChar(n)] else Dec(n / 10) + [DigitChar(n % 10)]
  }

  /** Rendering and reading back are inverse. */
  lemma {:induction false} ValueOfDec(n: nat)
    ensures Value(Dec(n)) == n
    decreases n
  {
    if n >= 10 {
      ValueOfDec(n / 10);
      var r := Dec(n);
      assert r[..|r| - 1] == Dec(n / 10);
    }
  }

  /** `s.padStart(2, '0')`. */
  function PadStart2(s: string): (r: string)
    ensures |s| >= 2 ==> r == s
    ensures |s| < 2 ==> |r| == 2 && r[2 - |s|..] == s
    ensures AllDigits(s) ==> AllDigits(r)
  {
    if |s| >= 2 then s else if |s| == 1 then "0" + s else "00"
  }

  lemma {:induction false} ValueOfPadStart2(s: string)
    requires AllDigits(s)
    ensures AllDigits(PadStart2(s))
    ensures Value(PadStart2(s)) == Value(s)
  {
    var r := PadStart2(s);
    if |s| == 1 {
      assert r[..1] == "0";
      assert Value("0") == 10 * Value("") + 0;
    } else if |s| == 0 {
      assert r[..1] == "0";
      assert Value("0") == 0;
    }
  }

  /** A number below 100 as two digits, the way the clock and date code renders it. */
  function Two(n: nat): (r: string)
    requires n < 100
    ensures |r| == 2 && AllDigits(r)
    ensures Value(r) == n
  {
    ValueOfDec(n);
    ValueOfPadStart2(Dec(n));
    PadStart2(Dec(n))
  }

  /** Two-digit numbers are told apart by their rendering. */
  lemma TwoInjective(a: nat, b: nat)
    requires a < 100 && b < 100
    ensures Two(a) == Two(b) ==> a == b
  {
  }
}

=== FILE: search_bar.dfy ===
/**
 The search bar (my-react-app/src/components/search_bar.tsx): reading category
 filters out of the typed query, choosing which endpoint a search goes to, how
 the reply is read, and the two ways of starting a search (the Enter key and the
 AI button).

 The HTTP client is a parameter from a request to its reply; a reply with a
 non-2xx status, a timeout or a network failure is `Failed`, as axios throws for
 all three.
 */
module SearchBar {
  import opened Values
  import Text
  import opened Numerals
  import DayTime

  // ---------------------------------------------------------------------------
  // Category extraction
  // ---------------------------------------------------------------------------

  /** The class `[^\s#]`. */
  predicate WordChar(c: char) {
    !Text.IsSpace(c) && c != '#'
  }

  /** A non-empty run of `[^\s#]`. */
  predicate IsWord(w: string) {
    w != "" && forall j :: 0 <= j < |w| ==> WordChar(w[j])
  }

  /** The longest prefix of `[^\s#]` characters, as a greedy `[^\s#]+` takes it. */
  function Word(s: string): (w: string)
    ensures |w| <= |s| && w == s[..|w|]
    ensures forall j :: 0 <= j < |w| ==> WordChar(w[j])
    ensures |w| == |s| || !WordChar(s[|w|])
    decreases |s|
  {
    if |s| > 0 && WordChar(s[0]) then [s[0]] + Word(s[1..]) else ""
  }

  /** The captures of `/#([^\s#]+)/g`, left to right; each search resumes after the previous match. */
  function Hashtags(s: string): (tags: seq<string>)
    ensures forall i :: 0 <= i < |tags| ==> IsWord(tags[i])
    decreases |s|
  {
    if |s| == 0 then []
    else if s[0] == '#' && |s| > 1 && WordChar(s[1]) then
      var w := Word(s[1..]);
      [w] + Hashtags(s[1 + |w|..])
    else Hashtags(s[1..])
  }

  /** Somewhere a `#` is followed by a word character. */
  predicate HasTagStart(s: string) {
    exists i :: 0 <= i < |s| - 1 && s[i] == '#' && WordChar(s[i + 1])
  }

  /** The hashtag scan finds something exactly when some `#` starts a word. */
  lemma {:induction false} HashtagsFound(s: string)
    ensures Hashtags(s) != [] <==> HasTagStart(s)
    decreases |s|
  {
    if |s| > 0 && !(s[0] == '#' && |s| > 1 && WordChar(s[1])) {
      HashtagsFound(s[1..]);
      if HasTagStart(s) {
        var i :| 0 <= i < |s| - 1 && s[i] == '#' && WordChar(s[i + 1]);
        assert s[1..][i - 1] == s[i] && s[1..][i] == s[i + 1];
      }
      if HasTagStart(s[1..]) {
        var i :| 0 <= i < |s[1..]| - 1 && s[1..][i] == '#' && WordChar(s[1..][i + 1]);
        assert s[i + 1] == '#' && WordChar(s[i + 2]);
      }
    }
  }

  /** A word ends at whitespace. */
  lemma {:induction false} WordBeforeSpace(x: string, c: char, y: string)
    requires Text.IsSpace(c)
    ensures Word(x + [c] + y) == Word(x)
    decreases |x|
  {
    if |x| == 0 {
      assert (x + [c] + y)[0] == c;
    } else {
      assert (x + [c] + y)[1..] == x[1..] + [c] + y;
      if WordChar(x[0]) {
        WordBeforeSpace(x[1..], c, y);
      }
    }
  }

  /** Whitespace separates the hashtags of the text before it from those after it. */
  lemma {:induction false} HashtagsAroundSpace(a: string, c: char, b: string)
    requires Text.IsSpace(c)
    ensures Hashtags(a + [c] + b) == Hashtags(a) + Hashtags(b)
    decreases |a|
  {
    if |a| == 0 {
      SpaceFirst(c, b);
    } else if a[0] == '#' && |a| > 1 && WordChar(a[1]) {
      HashtagsAroundSpace(a[1 + |Word(a[1..])|..], c, b);
      TagAroundSpace(a, c, b);
    } else {
      HashtagsAroundSpace(a[1..], c, b);
      SkipBeforeSpace(a, c, b);
    }
  }

  /** The step of the separation for a text that opens with a tag, given the separation after that tag. */
  lemma TagAroundSpace(a: string, c: char, b: string)
    requires Text.IsSpace(c)
    requires |a| > 1 && a[0] == '#' && WordChar(a[1])
    requires 1 + |Word(a[1..])| <= |a|
    requires var rest := a[1 + |Word(a[1..])|..];
      Hashtags(rest + [c] + b) == Hashtags(rest) + Hashtags(b)
    ensures Hashtags(a + [c] + b) == Hashtags(a) + Hashtags(b)
  {
    TagBeforeSpace(a, c, b);
    var w := Word(a[1..]);
    ConsRegroup(w, Hashtags(a[1 + |w|..]), Hashtags(b));
  }

  /** Putting one element in front commutes with appending. */
  lemma ConsRegroup<T>(w: T, x: seq<T>, y: seq<T>)
    ensures [w] + (x + y) == ([w] + x) + y
  {
  }

  /** A leading whitespace character is passed over. */
  lemma SpaceFirst(c: char, b: string)
    requires Text.IsSpace(c)
    ensures Hashtags([] + [c] + b) == Hashtags(b)
  {
    var s := [] + [c] + b;
    assert s[0] == c;
    assert s[1..] == b;
  }

  /** The tag at the front of `a` is not lengthened by what follows the whitespace. */
  lemma TagBeforeSpace(a: string, c: char, b: string)
    requires Text.IsSpace(c)
    requires |a| > 1 && a[0] == '#' && WordChar(a[1])
    ensures var w := Word(a[1..]);
      && 1 + |w| <= |a|
      && Hashtags(a + [c] + b) == [w] + Hashtags(a[1 + |w|..] + [c] + b)
      && Hashtags(a) == [w] + Hashtags(a[1 + |w|..])
  {
    DropAroundSpace(a, c, b, 1);
    WordBeforeSpace(a[1..], c, b);
    DropAroundSpace(a, c, b, 1 + |Word(a[1..])|);
  }

  /** Dropping a prefix of `a` from the joined text drops it from `a`. */
  lemma DropAroundSpace(a: string, c: char, b: string, k: nat)
    requires k <= |a|
    ensures (a + [c] + b)[k..] == a[k..] + [c] + b
  {
    var s, t := a + [c] + b, a[k..] + [c] + b;
    assert |s[k..]| == |t|;
    forall i | 0 <= i < |t|
      ensures s[k..][i] == t[i]
    {
      if i < |a| - k {
        assert t[i] == a[k + i];
      } else if i == |a| - k {
        assert t[i] == c;
      } else {
        assert t[i] == b[i - (|a| - k) - 1];
      }
    }
  }

  /** A character that does not start a tag is passed over. */
  lemma SkipBeforeSpace(a: string, c: char, b: string)
    requires Text.IsSpace(c)
    requires |a| > 0 && !(a[0] == '#' && |a| > 1 && WordChar(a[1]))
    ensures Hashtags(a + [c] + b) == Hashtags(a[1..] + [c] + b)
    ensures Hashtags(a) == Hashtags(a[1..])
  {
    var s := a + [c] + b;
    assert s[1..] == a[1..] + [c] + b;
    assert s[0] == a[0];
    if |a| == 1 {
      assert s[1] == c;
    } else {
      assert s[1] == a[1];
    }
  }

  /** A single word behind a `#` is one hashtag. */
  lemma SingleHashtag(t: string)
    requires IsWord(t)
    ensures Hashtags("#" + t) == [t]
  {
    var s := "#" + t;
    assert s[1..] == t;
    WordWhole(t);
    assert s[1 + |t|..] == "";
  }

  lemma {:induction false} WordWhole(t: string)
    requires forall j :: 0 <= j < |t| ==> WordChar(t[j])
    ensures Word(t) == t
    decreases |t|
  {
    if |t| > 0 {
      WordWhole(t[1..]);
      assert [t[0]] + t[1..] == t;
    }
  }

  /** Tags typed as `#a #b #c`. */
  function RenderHashtags(tags: seq<string>): string
    decreases |tags|
  {
    if |tags| == 0 then ""
    else if |tags| == 1 then "#" + tags[0]
    else "#" + tags[0] + " " + RenderHashtags(tags[1..])
  }

  /** Typed hashtags are read back one for one, in order. */
  lemma {:induction false} HashtagsOfRendered(tags: seq<string>)
    requires forall i :: 0 <= i < |tags| ==> IsWord(tags[i])
    ensures Hashtags(RenderHashtags(tags)) == tags
    decreases |tags|
  {
    if |tags| == 1 {
      SingleHashtag(tags[0]);
    } else if |tags| > 1 {
      SingleHashtag(tags[0]);
      HashtagsOfRendered(tags[1..]);
      HashtagsAroundSpace("#" + tags[0], ' ', RenderHashtags(tags[1..]));
      assert "#" + tags[0] + " " + RenderHashtags(tags[1..])
          == ("#" + tags[0]) + [' '] + RenderHashtags(tags[1..]);
      assert [tags[0]] + tags[1..] == tags;
    }
  }

  /** A comma does not end a hashtag: `#food, #music` yields `food,` and `music`. */
  lemma CommaStaysInHashtag()
    ensures Hashtags("#food, #music") == ["food,", "music"]
  {
    CommaTagsAreWords();
    HashtagsOfRendered(["food,", "music"]);
    RenderedCommaQuery();
  }

  lemma CommaTagsAreWords()
    ensures IsWord("food,") && IsWord("music")
  {
    assert forall j :: 0 <= j < |"food,"| ==> "food,"[j] in "food,";
    assert forall j :: 0 <= j < |"music"| ==> "music"[j] in "music";
  }

  lemma RenderedCommaQuery()
    ensures RenderHashtags(["food,", "music"]) == "#food, #music"
  {
    assert ["food,", "music"][1..] == ["music"];
  }

  /** `s` begins with the lower-case `p`, ignoring the case of ASCII letters (the `i` flag). */
  predicate StartsCI(s: string, p: string) {
    |p| <= |s| && Text.Lower(s[..|p|]) == p
  }

  /** `/(?:cat|category):\s*([^\s#]+)/i` tried at the start of `s`: the capture, if it matches. */
  function CatAt(s: string): (r: Option<string>)
    ensures r.Some? ==> IsWord(r.value)
  {
    var k := if StartsCI(s, "cat:") then 4 else if StartsCI(s, "category:") then 9 else 0;
    if k == 0 then None
    else
      var w := Word(Text.TrimStart(s[k..]));
      if w == "" then None else Some(w)
  }

  /** The leftmost match of the category pattern anywhere in `s`. */
  function CatMatch(s: string): (r: Option<string>)
    ensures r.Some? ==> IsWord(r.value)
    decreases |s|
  {
    if |s| == 0 then None
    else if CatAt(s).Some? then CatAt(s)
    else CatMatch(s[1..])
  }

  /** `CatMatch` is the leftmost match: none before it, and none at all when it finds none. */
  lemma CatMatchLeftmost(s: string)
    ensures CatMatch(s).None? <==> forall i :: 0 <= i < |s| ==> CatAt(s[i..]).None?
    ensures CatMatch(s).Some? ==>
      exists i :: 0 <= i < |s| && CatAt(s[i..]) == CatMatch(s)
                && forall j :: 0 <= j < i ==> CatAt(s[j..]).None?
  {
    NoCatMatchAnywhere(s);
    CatMatchFirst(s);
  }

  lemma {:induction false} NoCatMatchAnywhere(s: string)
    ensures CatMatch(s).None? <==> forall i :: 0 <= i < |s| ==> CatAt(s[i..]).None?
    decreases |s|
  {
    if |s| > 0 {
      assert s[0..] == s;
      if CatAt(s).None? {
        NoCatMatchAnywhere(s[1..]);
        NoMatchShifted(s, |s| - 1);
      }
    }
  }

  lemma {:induction false} CatMatchFirst(s: string)
    ensures CatMatch(s).Some? ==>
      exists i :: 0 <= i < |s| && CatAt(s[i..]) == CatMatch(s)
                && forall j :: 0 <= j < i ==> CatAt(s[j..]).None?
    decreases |s|
  {
    if |s| > 0 {
      assert s[0..] == s;
      if CatAt(s).None? && CatMatch(s).Some? {
        CatMatchFirst(s[1..]);
        var i :| 0 <= i < |s[1..]| && CatAt(s[1..][i..]) == CatMatch(s[1..])
                 && forall j :: 0 <= j < i ==> CatAt(s[1..][j..]).None?;
        NoMatchShifted(s, i);
        assert s[1..][i..] == s[i + 1..];
      }
    }
  }

  /** With no match at the start, "no match in the first `n + 1` positions" of `s` is "no
      match in the first `n` positions" of the rest. */
  lemma NoMatchShifted(s: string, n: nat)
    requires n < |s| && CatAt(s).None?
    ensures (forall j :: 0 <= j < n + 1 ==> CatAt(s[j..]).None?)
        <==> (forall j :: 0 <= j < n ==> CatAt(s[1..][j..]).None?)
  {
    if forall j :: 0 <= j < n ==> CatAt(s[1..][j..]).None? {
      forall j | 0 <= j < n + 1 ensures CatAt(s[j..]).None? {
        if j == 0 {
          assert s[j..] == s;
        } else {
          assert s[j..] == s[1..][j - 1..];
        }
      }
    }
    if forall j :: 0 <= j < n + 1 ==> CatAt(s[j..]).None? {
      forall j | 0 <= j < n ensures CatAt(s[1..][j..]).None? {
        assert s[1..][j..] == s[j + 1..];
      }
    }
  }

  /** Lower-cases each entry. */
  function LowerAll(xs: seq<string>): (r: seq<string>)
    ensures |r| == |xs|
    ensures forall i :: 0 <= i < |r| ==> r[i] == Text.Lower(xs[i])
  {
    seq(|xs|, i requires 0 <= i < |xs| => Text.Lower(xs[i]))
  }

  /** `extractCategoriesFromQuery`. A category pattern wins over hashtags; its list may
      come out empty. Nothing is found only when neither is present. */
  function ExtractCategories(q: string): (r: Option<seq<string>>)
    ensures q == "" ==> r.None?
    ensures r.None? <==> CatMatch(q).None? && Hashtags(q) == []
    ensures CatMatch(q).Some? ==> r == Some(LowerAll(Text.Pieces(CatMatch(q).value)))
    ensures CatMatch(q).None? && r.Some? ==> r.value == LowerAll(Hashtags(q)) && |r.value| > 0
  {
    if q == "" then None
    else match CatMatch(q)
      case Some(v) => Some(LowerAll(Text.Pieces(v)))
      case None =>
        var tags := LowerAll(Hashtags(q));
        if |tags| > 0 then Some(tags) else None
  }

  lemma LowerOfLower(xs: seq<string>)
    requires forall i :: 0 <= i < |xs| ==> Text.IsLower(xs[i])
    ensures LowerAll(xs) == xs
  {
  }

  /** The category pattern needs a colon. */
  lemma CatAtNeedsColon(t: string)
    ensures CatAt(t).Some? ==> ':' in t
  {
    if StartsCI(t, "cat:") {
      assert Text.Lower(t[..4])[3] == Text.LowerChar(t[3]);
      assert t[3] == ':';
    } else if StartsCI(t, "category:") {
      assert Text.Lower(t[..9])[8] == Text.LowerChar(t[8]);
      assert t[8] == ':';
    }
  }

  /** Without a colon there is no category pattern. */
  lemma NoColonNoCat(s: string)
    requires ':' !in s
    ensures CatMatch(s).None?
  {
    CatMatchLeftmost(s);
    forall i | 0 <= i < |s| ensures CatAt(s[i..]).None? {
      CatAtNeedsColon(s[i..]);
      assert ':' !in s[i..] by {
        assert forall k :: 0 <= k < |s[i..]| ==> s[i..][k] == s[i + k];
      }
    }
  }

  /** Typed lower-case hashtags without a colon come back as typed. */
  lemma ExtractRenderedHashtags(tags: seq<string>)
    requires |tags| > 0
    requires forall i :: 0 <= i < |tags| ==> IsWord(tags[i]) && Text.IsLower(tags[i]) && ':' !in tags[i]
    ensures ExtractCategories(RenderHashtags(tags)) == Some(tags)
  {
    RenderedHasNoColon(tags);
    NoColonNoCat(RenderHashtags(tags));
    HashtagsOfRendered(tags);
    LowerOfLower(tags);
  }

  lemma {:induction false} RenderedHasNoColon(tags: seq<string>)
    requires forall i :: 0 <= i < |tags| ==> ':' !in tags[i]
    ensures ':' !in RenderHashtags(tags)
    decreases |tags|
  {
    if |tags| > 1 {
      RenderedHasNoColon(tags[1..]);
    }
  }

  /** `cat:` followed by comma-separated lower-case tags comes back as those tags, hashtags
      elsewhere in the query notwithstanding. */
  lemma ExtractCatList(tags: seq<string>, rest: string)
    requires forall i :: 0 <= i < |tags| ==> Text.IsTag(tags[i]) && IsWord(tags[i]) && Text.IsLower(tags[i])
    requires |tags| > 0
    ensures ExtractCategories("cat:" + Text.Join(tags, ",") + " " + rest) == Some(tags)
  {
    var v := Text.Join(tags, ",");
    JoinOfWords(tags);
    CatPrefix(v, rest);
    Text.PiecesOfJoin(tags);
    LowerOfLower(tags);
  }

  /** `cat:` directly followed by a word matches at once, capturing the word. */
  lemma CatPrefix(v: string, rest: string)
    requires IsWord(v)
    ensures CatMatch("cat:" + v + " " + rest) == Some(v)
  {
    var q := "cat:" + v + " " + rest;
    assert q[..4] == "cat:";
    assert Text.Lower("cat:") == "cat:";
    assert q[4..] == v + [' '] + rest;
    assert Text.TrimStart(q[4..]) == q[4..];
    WordBeforeSpace(v, ' ', rest);
    WordWhole(v);
    assert CatAt(q) == Some(v);
  }

  lemma {:induction false} JoinOfWords(tags: seq<string>)
    requires |tags| > 0
    requires forall i :: 0 <= i < |tags| ==> IsWord(tags[i])
    ensures IsWord(Text.Join(tags, ","))
    decreases |tags|
  {
    if |tags| > 1 {
      JoinOfWords(tags[1..]);
      Text.JoinCons(tags[0], tags[1..], ",");
      assert [tags[0]] + tags[1..] == tags;
      var j := Text.Join(tags, ",");
      assert j == tags[0] + "," + Text.Join(tags[1..], ",");
      forall k | 0 <= k < |j| ensures WordChar(j[k]) {
        if k < |tags[0]| {
          assert j[k] == tags[0][k];
        } else if k > |tags[0]| {
          assert j[k] == Text.Join(tags[1..], ",")[k - |tags[0]| - 1];
        }
      }
    }
  }

  // ---------------------------------------------------------------------------
  // The request a query turns into
  // ---------------------------------------------------------------------------

  /** `d.year()` as `toString` prints it. */
  function YearText(y: int): string {
    if y < 0 then "-" + Dec(-y) else Dec(y)
  }

  /** `formatted_date`: the year, the 1-based month and the day of the month, the last two
      zero-padded. `month0` is dayjs's 0-based month. */
  function FormatDate(year: int, month0: nat, date: nat): (r: string)
    requires month0 < 12 && 1 <= date <= 31
    ensures var y := YearText(year);
      && |r| == |y| + 6 && r[..|y|] == y && r[|y|] == '-' && r[|y| + 3] == '-'
      && AllDigits(r[|y| + 1..|y| + 3]) && Value(r[|y| + 1..|y| + 3]) == month0 + 1
      && AllDigits(r[|y| + 4..]) && Value(r[|y| + 4..]) == date
  {
    var y := YearText(year);
    var m := PadStart2(Dec(month0 + 1));
    var d := PadStart2(Dec(date));
    assert m == Two(month0 + 1) && d == Two(date);
    var r := y + "-" + m + "-" + d;
    assert r[|y| + 1..|y| + 3] == m && r[|y| + 4..] == d;
    r
  }

  lemma DecFourDigits(n: nat)
    requires 1000 <= n < 10000
    ensures |Dec(n)| == 4
  {
    assert Dec(n) == Dec(n / 10) + [DigitChar(n % 10)];
    assert Dec(n / 10) == Dec(n / 100) + [DigitChar(n / 10 % 10)];
  }

  /** The formatted date is the rendering of its three fields, which are already padded. */
  lemma FormatDateRenders(year: nat, month0: nat, date: nat)
    requires 1000 <= year < 10000 && month0 < 12 && 1 <= date <= 31
    ensures var p := DayTime.DayParts(Dec(year), Two(month0 + 1), Two(date));
      && DayTime.WellFormed(p) && DayTime.Padded(p) == p && |p.year| == 4
      && FormatDate(year, month0, date) == DayTime.Render(p)
  {
    DecFourDigits(year);
  }

  /** The fields of a rendered day with a four-digit year and two-digit month and day sit at
      fixed positions. */
  lemma RenderPositions(p: DayTime.DayParts)
    requires |p.year| == 4 && |p.month| == 2 && |p.day| == 2
    ensures var r := DayTime.Render(p);
      |r| == 10 && r[..4] == p.year && r[5..7] == p.month && r[8..] == p.day
  {
  }

  /** A four-digit year gives a `YYYY-MM-DD` day that the create form's day pattern accepts
      as already normal, and whose fields denote the calendar month and day. */
  lemma FormatDateIsDay(year: nat, month0: nat, date: nat)
    requires 1000 <= year < 10000 && month0 < 12 && 1 <= date <= 31
    ensures var r := FormatDate(year, month0, date);
      && |r| == 10
      && DayTime.MatchDay(r) == Some(DayTime.DayParts(Dec(year), Two(month0 + 1), Two(date)))
      && DayTime.NormalizeDay(r) == r
      && Value(r[..4]) == year && Value(r[5..7]) == month0 + 1 && Value(r[8..]) == date
  {
    var p := DayTime.DayParts(Dec(year), Two(month0 + 1), Two(date));
    FormatDateRenders(year, month0, date);
    ValueOfDec(year);
    DayTime.MatchRender(p);
    DayTime.NormalizeRendered(p);
    RenderPositions(p);
  }

  datatype Endpoint = AiSearch | PlainSearch

  /** An HTTP request the search bar sends. */
  datatype Request =
    | ListEvents(day: string, categories: string, timeoutMs: nat)
    | TextSearch(endpoint: Endpoint, day: string, search: string, timeoutMs: nat)

  /** How the reply's body is turned into a result list. */
  datatype Reading =
    | EventsOrData   // `resp.data?.events ?? resp.data ?? []`
    | EventsOnly     // `resp.data?.events || []`

  /** The `categories` parameter for a hashtag query: the extracted list joined by commas,
      or `all` when nothing (or an empty list) was extracted. */
  function CategoriesParam(cats: Option<seq<string>>): (r: string)
    ensures r == "all" <==> cats.None? || cats.value == [] || Text.Join(cats.value, ",") == "all"
    ensures cats.Some? && cats.value != [] ==> r == Text.Join(cats.value, ",")
  {
    if cats.Some? && |cats.value| > 0 then Text.Join(cats.value, ",") else "all"
  }

  /** The routing in `sendDataFromSearchBar`; `day` is the formatted date. */
  function Route(query: string, day: string, useAi: bool): (r: (Request, Reading))
    ensures var q := Text.Trim(query);
      && (q != "" && q[0] == '#' ==>
            r == (ListEvents(day, CategoriesParam(ExtractCategories(q)), 10000), EventsOrData))
      && (q != "" && q[0] != '#' ==>
            r == (TextSearch(if useAi then AiSearch else PlainSearch, day, q, 10000), EventsOrData))
      && (q == "" ==> r == (ListEvents(day, "all", 8000), EventsOnly))
  {
    var q := Text.Trim(query);
    if q != "" then
      if q[0] == '#' then (ListEvents(day, CategoriesParam(ExtractCategories(q)), 10000), EventsOrData)
      else (TextSearch(if useAi then AiSearch else PlainSearch, day, q, 10000), EventsOrData)
    else (ListEvents(day, "all", 8000), EventsOnly)
  }

  /** The `events` member of a reply object. */
  datatype EventsField = NoEvents | EventList(items: seq<EventRecord>) | OtherEvents(truthy: bool)

  /** A decoded reply body. */
  datatype Data =
    | NullData
    | ArrayData(items: seq<EventRecord>)
    | ObjectData(events: EventsField)
    | OtherData

  datatype Reply = Failed | Answered(data: Data)

  /** What reaches `onSearchResults` when the request succeeded. */
  datatype Results = Listed(records: seq<EventRecord>) | NotAList

  function Read(reading: Reading, d: Data): (r: Results)
    // a list of events in an `events` member is taken either way
    ensures d.ObjectData? && d.events.EventList? ==> r == Listed(d.events.items)
    // a bare array is taken only by the search paths
    ensures d.ArrayData? ==> r == (if reading == EventsOrData then Listed(d.items) else Listed([]))
    // an empty body reads as no events
    ensures d.NullData? ==> r == Listed([])
  {
    match reading
    case EventsOrData =>
      (match d
       case NullData => Listed([])
       case ArrayData(items) => Listed(items)
       case ObjectData(EventList(items)) => Listed(items)
       case ObjectData(_) => NotAList
       case OtherData => NotAList)
    case EventsOnly =>
      (match d
       case ObjectData(EventList(items)) => Listed(items)
       case ObjectData(OtherEvents(true)) => NotAList
       case _ => Listed([]))
  }

  /** `sendDataFromSearchBar`: `None` is the `null` returned after any request error. */
  function Send(query: string, day: string, useAi: bool, http: Request -> Reply): (r: Option<Results>)
    ensures var (req, reading) := Route(query, day, useAi);
      && (http(req).Failed? <==> r.None?)
      && (http(req).Answered? ==> r == Some(Read(reading, http(req).data)))
  {
    var (req, reading) := Route(query, day, useAi);
    match http(req)
    case Failed => None
    case Answered(d) => Some(Read(reading, d))
  }

  // ---------------------------------------------------------------------------
  // Starting a search
  // ---------------------------------------------------------------------------

  /** What a search action does towards the parent. `delivered` says whether the
      parent's `onSearchResults` received `results`. */
  datatype Effect =
    | Ignored
    | CategoriesFound(cats: seq<string>)
    | Searched(request: Request, results: Option<Results>, delivered: bool)

  /** `handleSearchKey`: only Enter acts; a category match goes to the parent without any
      request when the parent listens for categories; otherwise a plain search runs. */
  function HandleSearchKey(key: string, value: string, day: string, hasCategoriesFound: bool,
                           hasSearchResults: bool, http: Request -> Reply): (e: Effect)
    ensures key != "Enter" ==> e == Ignored
    ensures key == "Enter" && ExtractCategories(value).Some? && hasCategoriesFound ==>
      e == CategoriesFound(ExtractCategories(value).value)
    ensures key == "Enter" && !(ExtractCategories(value).Some? && hasCategoriesFound) ==>
      && e.Searched?
      && e.request == Route(value, day, false).0
      && e.results == Send(value, day, false, http)
      && e.delivered == hasSearchResults
      && (e.request.TextSearch? ==> e.request.endpoint == PlainSearch)
  {
    if key != "Enter" then Ignored
    else
      var token := ExtractCategories(value);
      if token.Some? && hasCategoriesFound then CategoriesFound(token.value)
      else Searched(Route(value, day, false).0, Send(value, day, false, http), hasSearchResults)
  }

  /** `onGeminiActivate`, with the `searching` flag it finds and leaves behind. While the
      AI request is pending the flag is set; afterwards it is clear. */
  datatype Activation = Activation(effect: Effect, pending: bool, searchingAfter: bool)

  function GeminiActivate(searching: bool, input: string, day: string, hasCategoriesFound: bool,
                          hasSearchResults: bool, http: Request -> Reply): (a: Activation)
    ensures searching || Text.Trim(input) == "" ==> a == Activation(Ignored, false, searching)
    ensures a.effect.Searched? <==> a.pending
    ensures a.effect.Searched? ==>
      && !searching && !a.searchingAfter
      && a.effect.request == Route(Text.Trim(input), day, true).0
      && a.effect.results == Send(Text.Trim(input), day, true, http)
      && a.effect.delivered == hasSearchResults
    ensures a.effect.CategoriesFound? ==>
      hasCategoriesFound && Some(a.effect.cats) == ExtractCategories(Text.Trim(input))
    // a non-empty query while idle always acts: categories when the parent listens, else a search
    ensures !searching && Text.Trim(input) != "" && ExtractCategories(Text.Trim(input)).Some? && hasCategoriesFound ==>
      a == Activation(CategoriesFound(ExtractCategories(Text.Trim(input)).value), false, false)
    ensures !searching && Text.Trim(input) != "" && !(ExtractCategories(Text.Trim(input)).Some? && hasCategoriesFound) ==>
      a.effect.Searched?
  {
    var q := Text.Trim(input);
    if searching || q == "" then Activation(Ignored, false, searching)
    else
      var cats := ExtractCategories(q);
      if cats.Some? && hasCategoriesFound then Activation(CategoriesFound(cats.value), false, searching)
      else Activation(Searched(Route(q, day, true).0, Send(q, day, true, http), hasSearchResults), true, false)
  }

  /** Activating the AI search on an idle bar does what Enter does on the trimmed query,
      except that a text search goes to the AI endpoint instead of the plain one. */
  lemma GeminiIsEnterOnTrimmed(input: string, day: string, hasCategoriesFound: bool, hasSearchResults: bool,
                               http: Request -> Reply)
    requires Text.Trim(input) != ""
    ensures var a := GeminiActivate(false, input, day, hasCategoriesFound, hasSearchResults, http).effect;
      var e := HandleSearchKey("Enter", Text.Trim(input), day, hasCategoriesFound, hasSearchResults, http);
      && (a.CategoriesFound? <==> e.CategoriesFound?)
      && (e.CategoriesFound? ==> a == e)
      && (e.Searched? ==>
            && a.Searched? && a.delivered == e.delivered
            && a.request == (if e.request.TextSearch? then e.request.(endpoint := AiSearch) else e.request))
  {
    Text.TrimIdempotent(input);
  }

  /** A query that is neither a hashtag query nor a category match goes to the AI endpoint. */
  lemma GeminiUsesAi(input: string, day: string, hasCategoriesFound: bool, hasSearchResults: bool,
                     http: Request -> Reply)
    requires Text.Trim(input) != "" && Text.Trim(input)[0] != '#'
    requires ExtractCategories(Text.Trim(input)).None?
    ensures GeminiActivate(false, input, day, hasCategoriesFound, hasSearchResults, http).effect.request
         == TextSearch(AiSearch, day, Text.Trim(input), 10000)
  {
    Text.TrimIdempotent(input);
  }
}

=== FILE: text.dfy ===
/**
 String operations both halves of the system lean on: trimming, splitting on a
 separator, joining, ASCII lower-casing, and the "split on commas, trim, drop
 empties" idiom that turns free text into a category list.

 JavaScript's `split`/`trim` and Python's `split`/`strip` agree on everything
 modelled here: splitting on a one-character separator yields one more piece
 than there are separators (so `"".split(",")` is `[""]`), and trimming removes
 whitespace from both ends only.
 */
module Text {

  /** ASCII whitespace: what `trim()`, `strip()` and the regular-expression class `\s` have in common. */
  predicate IsSpace(c: char) {
    c == ' ' || c == '\t' || c == '\n' || c == '\r' || c == '\U{B}' || c == '\U{C}'
  }

  predicate NoSpace(s: string) {
    forall i :: 0 <= i < |s| ==> !IsSpace(s[i])
  }

  /** No whitespace at either end. */
  predicate Trimmed(s: string) {
    |s| == 0 || (!IsSpace(s[0]) && !IsSpace(s[|s| - 1]))
  }

  function TrimStart(s: string): (r: string)
    ensures |r| <= |s| && r == s[|s| - |r|..]
    ensures |r| == 0 || !IsSpace(r[0])
    ensures forall i :: 0 <= i < |s| - |r| ==> IsSpace(s[i])
  {
    if |s| > 0 && IsSpace(s[0]) then TrimStart(s[1..]) else s
  }

  function TrimEnd(s: string): (r: string)
    ensures |r| <= |s| && r == s[..|r|]
    ensures |r| == 0 || !IsSpace(r[|r| - 1])
    ensures forall i :: |r| <= i < |s| ==> IsSpace(s[i])
  {
    if |s| > 0 && IsSpace(s[|s| - 1]) then TrimEnd(s[..|s| - 1]) else s
  }

  /** `s.trim()` in JavaScript, `s.strip()` in Python. That the result is the slice left once
      the whitespace at both ends is cut off is `TrimIsSlice`; `TrimUnique` shows that this and
      `Trimmed` determine it. */
  function Trim(s: string): (r: string)
    ensures Trimmed(r)
  {
    TrimEnd(TrimStart(s))
  }

  /** Trimming only removes characters. */
  lemma TrimKeepsAbsent(s: string, c: char)
    requires c !in s
    ensures c !in Trim(s)
  {
    var a := TrimStart(s);
    assert c !in a;
  }

  lemma TrimOfTrimmed(s: string)
    requires Trimmed(s)
    ensures Trim(s) == s
  {
  }

  lemma TrimIdempotent(s: string)
    ensures Trim(Trim(s)) == Trim(s)
  {
    TrimOfTrimmed(Trim(s));
  }

  /** Leading whitespace does not survive trimming. */
  lemma TrimSkipsLeadingSpace(c: char, s: string)
    requires IsSpace(c)
    ensures Trim([c] + s) == Trim(s)
  {
    assert ([c] + s)[1..] == s;
  }

  /** A text built from a head, a first slot, a middle, a last slot and a tail opens with its
      head and first slot and closes with its last slot and tail. */
  lemma Framed(head: string, first: string, middle: string, last: string, tail: string)
    ensures var r := head + first + middle + last + tail;
      && |r| == |head| + |first| + |middle| + |last| + |tail|
      && r[..|head| + |first|] == head + first
      && r[|r| - |last| - |tail|..] == last + tail
  {
    var r := head + first + middle + last + tail;
    assert r == (head + first) + (middle + (last + tail));
  }

  /** `x` occurs in `w` starting at offset `k`. */
  predicate At(w: string, k: nat, x: string) {
    k + |x| <= |w| && w[k..k + |x|] == x
  }

  /** A piece placed between a prefix and a suffix sits right after the prefix. */
  lemma Slot(pre: string, x: string, post: string)
    ensures At(pre + x + post, |pre|, x)
  {
    var w := pre + x + post;
    assert w[|pre|..|pre| + |x|] == (pre + x)[|pre|..];
  }

  /** A slot stays where it is when more text is appended. */
  lemma SlotExtends(w: string, k: nat, x: string, more: string)
    requires At(w, k, x)
    ensures At(w + more, k, x)
  {
    assert (w + more)[k..k + |x|] == w[k..k + |x|];
  }

  /** The second, third and fourth slots of a template with five slots, each at its offset. */
  lemma Slots(s0: string, x1: string, s1: string, x2: string, s2: string, x3: string, s3: string,
              x4: string, s4: string, x5: string, s5: string)
    ensures var w := s0 + x1 + s1 + x2 + s2 + x3 + s3 + x4 + s4 + x5 + s5;
      && At(w, |s0| + |x1| + |s1|, x2)
      && At(w, |s0| + |x1| + |s1| + |x2| + |s2|, x3)
      && At(w, |s0| + |x1| + |s1| + |x2| + |s2| + |x3| + |s3|, x4)
  {
    SecondSlot(s0, x1, s1, x2, s2, x3, s3, x4, s4, x5, s5);
    ThirdSlot(s0, x1, s1, x2, s2, x3, s3, x4, s4, x5, s5);
    FourthSlot(s0, x1, s1, x2, s2, x3, s3, x4, s4, x5, s5);
  }

  lemma SecondSlot(s0: string, x1: string, s1: string, x2: string, s2: string, x3: string, s3: string,
                   x4: string, s4: string, x5: string, s5: string)
    ensures At(s0 + x1 + s1 + x2 + s2 + x3 + s3 + x4 + s4 + x5 + s5, |s0| + |x1| + |s1|, x2)
  {
    var p := s0 + x1 + s1;
    assert s0 + x1 + s1 + x2 + s2 + x3 + s3 + x4 + s4 + x5 + s5 == p + x2 + (s2 + x3 + s3 + x4 + s4 + x5 + s5);
    Slot(p, x2, s2 + x3 + s3 + x4 + s4 + x5 + s5);
  }

  lemma ThirdSlot(s0: string, x1: string, s1: string, x2: string, s2: string, x3: string, s3: string,
                  x4: string, s4: string, x5: string, s5: string)
    ensures At(s0 + x1 + s1 + x2 + s2 + x3 + s3 + x4 + s4 + x5 + s5, |s0| + |x1| + |s1| + |x2| + |s2|, x3)
  {
    var p := s0 + x1 + s1 + x2 + s2;
    assert s0 + x1 + s1 + x2 + s2 + x3 + s3 + x4 + s4 + x5 + s5 == p + x3 + (s3 + x4 + s4 + x5 + s5);
    Slot(p, x3, s3 + x4 + s4 + x5 + s5);
  }

  lemma FourthSlot(s0: string, x1: string, s1: string, x2: string, s2: string, x3: string, s3: string,
                   x4: string, s4: string, x5: string, s5: string)
    ensures At(s0 + x1 + s1 + x2 + s2 + x3 + s3 + x4 + s4 + x5 + s5,
               |s0| + |x1| + |s1| + |x2| + |s2| + |x3| + |s3|, x4)
  {
    var p := s0 + x1 + s1 + x2 + s2 + x3 + s3;
    assert s0 + x1 + s1 + x2 + s2 + x3 + s3 + x4 + s4 + x5 + s5 == p + x4 + (s4 + x5 + s5);
    Slot(p, x4, s4 + x5 + s5);
  }

  /** `Framed` for a middle of seven pieces. */
  lemma FramedChain7(head: string, first: string, m1: string, m2: string, m3: string, m4: string, m5: string,
                     m6: string, m7: string, last: string, tail: string)
    ensures var r := head + first + m1 + m2 + m3 + m4 + m5 + m6 + m7 + last + tail;
      && |r| >= |head| + |first| + |last| + |tail|
      && r[..|head| + |first|] == head + first
      && r[|r| - |last| - |tail|..] == last + tail
  {
    var middle := m1 + m2 + m3 + m4 + m5 + m6 + m7;
    assert head + first + m1 + m2 + m3 + m4 + m5 + m6 + m7 + last + tail
        == head + first + middle + last + tail;
    Framed(head, first, middle, last, tail);
  }

  /** `Framed` for a middle of nine pieces. */
  lemma FramedChain9(head: string, first: string, m1: string, m2: string, m3: string, m4: string, m5: string,
                    m6: string, m7: string, m8: string, m9: string, last: string, tail: string)
    ensures var r := head + first + m1 + m2 + m3 + m4 + m5 + m6 + m7 + m8 + m9 + last + tail;
      && |r| >= |head| + |first| + |last| + |tail|
      && r[..|head| + |first|] == head + first
      && r[|r| - |last| - |tail|..] == last + tail
  {
    var middle := m1 + m2 + m3 + m4 + m5 + m6 + m7 + m8 + m9;
    assert head + first + m1 + m2 + m3 + m4 + m5 + m6 + m7 + m8 + m9 + last + tail
        == head + first + middle + last + tail;
    Framed(head, first, middle, last, tail);
  }

  /** Everything of `s` before `lo` and from `hi` on is whitespace. */
  predicate SpaceOutside(s: string, lo: nat, hi: nat) {
    lo <= hi <= |s|
    && (forall i :: 0 <= i < lo ==> IsSpace(s[i]))
    && (forall i :: hi <= i < |s| ==> IsSpace(s[i]))
  }

  /** Trimming is determined by its two promises: any slice of `s` that has only whitespace
      around it and none at its ends is the trimmed text. */
  lemma TrimUnique(s: string, lo: nat, hi: nat)
    requires SpaceOutside(s, lo, hi) && Trimmed(s[lo..hi])
    ensures Trim(s) == s[lo..hi]
  {
    if lo == hi {
      TrimStartAllSpace(s);
    } else {
      var t := s[lo..hi];
      assert |t| == hi - lo && t[0] == s[lo] && t[|t| - 1] == s[hi - 1];
      TrimEndUniqueAt(s, lo, hi);
      TrimStartUnique(s, lo);
    }
  }

  /** `TrimEndUnique` for the suffix of `s` that starts at `lo`. */
  lemma TrimEndUniqueAt(s: string, lo: nat, hi: nat)
    requires lo < hi <= |s| && !IsSpace(s[hi - 1])
    requires forall i :: hi <= i < |s| ==> IsSpace(s[i])
    ensures TrimEnd(s[lo..]) == s[lo..hi]
  {
    var a := s[lo..];
    assert a[hi - lo - 1] == s[hi - 1];
    forall i | hi - lo <= i < |a|
      ensures IsSpace(a[i])
    {
      assert a[i] == s[lo + i];
    }
    TrimEndUnique(a, hi - lo);
    assert a[..hi - lo] == s[lo..hi];
  }

  /** Text made only of whitespace trims to nothing. */
  lemma TrimStartAllSpace(s: string)
    requires forall i :: 0 <= i < |s| ==> IsSpace(s[i])
    ensures TrimStart(s) == ""
  {
  }

  /** The start-trimming half of `TrimUnique`: the first non-whitespace character starts
      the result. */
  lemma TrimStartUnique(s: string, lo: nat)
    requires lo < |s| && !IsSpace(s[lo])
    requires forall i :: 0 <= i < lo ==> IsSpace(s[i])
    ensures TrimStart(s) == s[lo..]
  {
    var r := TrimStart(s);
    var cut := |s| - |r|;
    assert cut <= lo;
    assert r[0] == s[cut];
  }

  /** The end-trimming half of `TrimUnique`. */
  lemma TrimEndUnique(a: string, n: nat)
    requires 0 < n <= |a| && !IsSpace(a[n - 1])
    requires forall i :: n <= i < |a| ==> IsSpace(a[i])
    ensures TrimEnd(a) == a[..n]
  {
    var b := TrimEnd(a);
    assert |b| == n;
  }

  /** A whitespace-only edge stays outside the slice when one more space is appended. */
  lemma SpaceOutsideAppend(s: string, c: char, lo: nat, hi: nat)
    requires IsSpace(c) && SpaceOutside(s, lo, hi)
    ensures SpaceOutside(s + [c], lo, hi) && (s + [c])[lo..hi] == s[lo..hi]
  {
  }

  /** The trimmed text is a slice of the text with only whitespace around it. */
  lemma TrimIsSlice(s: string) returns (lo: nat, hi: nat)
    ensures SpaceOutside(s, lo, hi) && s[lo..hi] == Trim(s)
  {
    var a := TrimStart(s);
    var e := TrimEnd(a);
    lo := |s| - |a|;
    hi := lo + |e|;
    PrefixOfSuffix(s, lo, e);
  }

  /** A prefix `e` of the suffix `s[lo..]`, followed there by whitespace only, is the slice
      `s[lo..lo + |e|]`, followed in `s` by whitespace only. */
  lemma PrefixOfSuffix(s: string, lo: nat, e: string)
    requires lo + |e| <= |s| && e == s[lo..][..|e|]
    requires forall i :: |e| <= i < |s| - lo ==> IsSpace(s[lo..][i])
    ensures s[lo..lo + |e|] == e
    ensures forall i :: lo + |e| <= i < |s| ==> IsSpace(s[i])
  {
    forall i | lo + |e| <= i < |s|
      ensures IsSpace(s[i])
    {
      assert s[i] == s[lo..][i - lo];
    }
  }

  /** Trailing whitespace does not survive trimming. */
  lemma TrimSkipsTrailingSpace(s: string, c: char)
    requires IsSpace(c)
    ensures Trim(s + [c]) == Trim(s)
  {
    var lo, hi := TrimIsSlice(s);
    SpaceOutsideAppend(s, c, lo, hi);
    TrimUnique(s + [c], lo, hi);
  }

  /** `s.split(sep)`: the maximal separator-free pieces, left to right. */
  function Split(s: string, sep: char): (r: seq<string>)
    ensures |r| >= 1
    ensures forall i :: 0 <= i < |r| ==> sep !in r[i]
    decreases |s|
  {
    if |s| == 0 then [""]
    else
      var rest := Split(s[1..], sep);
      if s[0] == sep then [""] + rest
      else [[s[0]] + rest[0]] + rest[1..]
  }

  /** `parts.join(sep)` in JavaScript, `sep.join(parts)` in Python. */
  function Join(parts: seq<string>, sep: string): string
    decreases |parts|
  {
    if |parts| == 0 then ""
    else if |parts| == 1 then parts[0]
    else parts[0] + sep + Join(parts[1..], sep)
  }

  lemma JoinCons(p: string, rest: seq<string>, sep: string)
    requires |rest| >= 1
    ensures Join([p] + rest, sep) == p + sep + Join(rest, sep)
  {
    assert ([p] + rest)[1..] == rest;
  }

  /** Joining the pieces with the separator gives back the string. */
  lemma {:induction false} JoinSplit(s: string, sep: char)
    ensures Join(Split(s, sep), [sep]) == s
    decreases |s|
  {
    if |s| > 0 {
      var rest := Split(s[1..], sep);
      JoinSplit(s[1..], sep);
      if s[0] == sep {
        JoinCons("", rest, [sep]);
      } else if |rest| == 1 {
      } else {
        JoinCons(rest[0], rest[1..], [sep]);
        assert [rest[0]] + rest[1..] == rest;
        JoinCons([s[0]] + rest[0], rest[1..], [sep]);
        assert [[s[0]] + rest[0]] + rest[1..] == Split(s, sep);
      }
    }
  }

  /** A separator-free string is one piece. */
  lemma {:induction false} SplitWithoutSep(s: string, sep: char)
    requires sep !in s
    ensures Split(s, sep) == [s]
    decreases |s|
  {
    if |s| > 0 {
      assert sep !in s[1..];
      SplitWithoutSep(s[1..], sep);
      assert [s[0]] + s[1..] == s;
    }
  }

  /** There is more than one piece exactly when the separator occurs. */
  lemma {:induction false} SplitFindsSep(s: string, sep: char)
    ensures sep in s <==> |Split(s, sep)| >= 2
    decreases |s|
  {
    if |s| > 0 {
      SplitFindsSep(s[1..], sep);
      assert s == [s[0]] + s[1..];
      assert sep in s <==> s[0] == sep || sep in s[1..];
    }
  }

  /** One step of `Split`: the first character either ends a piece or joins the first one. */
  lemma SplitStep(c: char, t: string, sep: char)
    ensures var rest := Split(t, sep);
      Split([c] + t, sep) == if c == sep then [""] + rest else [[c] + rest[0]] + rest[1..]
  {
    assert ([c] + t)[0] == c && ([c] + t)[1..] == t;
  }

  /** Splitting distributes over a separator. */
  lemma {:induction false} SplitAround(a: string, b: string, sep: char)
    ensures Split(a + [sep] + b, sep) == Split(a, sep) + Split(b, sep)
    decreases |a|
  {
    if |a| == 0 {
      assert a + [sep] + b == [sep] + b;
      SplitStep(sep, b, sep);
    } else {
      SplitAround(a[1..], b, sep);
      SplitAroundStep(a[0], a[1..], b, sep);
      assert [a[0]] + a[1..] == a;
      assert a + [sep] + b == [a[0]] + (a[1..] + [sep] + b);
    }
  }

  /** The inductive step of `SplitAround`: what holds for `t` also holds with a character
      in front of it. */
  lemma SplitAroundStep(c: char, t: string, b: string, sep: char)
    requires Split(t + [sep] + b, sep) == Split(t, sep) + Split(b, sep)
    ensures Split([c] + (t + [sep] + b), sep) == Split([c] + t, sep) + Split(b, sep)
  {
    SplitStep(c, t + [sep] + b, sep);
    SplitStep(c, t, sep);
    ConsPiece(c == sep, [c], Split(t, sep), Split(b, sep));
  }

  /** Putting a character in front of split pieces commutes with appending more pieces:
      a separator starts a new empty piece, any other character extends the first one. */
  lemma ConsPiece(isSep: bool, pre: string, x: seq<string>, y: seq<string>)
    requires |x| >= 1
    ensures (if isSep then [""] + (x + y) else [pre + (x + y)[0]] + (x + y)[1..])
            == (if isSep then [""] + x else [pre + x[0]] + x[1..]) + y
  {
    if isSep {
      assert [""] + (x + y) == ([""] + x) + y;
    } else {
      assert (x + y)[0] == x[0];
      assert (x + y)[1..] == x[1..] + y;
    }
  }

  /** Splitting a join of separator-free pieces gives back the pieces. */
  lemma {:induction false} SplitJoin(parts: seq<string>, sep: char)
    requires |parts| >= 1
    requires forall i :: 0 <= i < |parts| ==> sep !in parts[i]
    ensures Split(Join(parts, [sep]), sep) == parts
    decreases |parts|
  {
    SplitWithoutSep(parts[0], sep);
    if |parts| > 1 {
      SplitJoin(parts[1..], sep);
      SplitAround(parts[0], Join(parts[1..], [sep]), sep);
      assert [parts[0]] + parts[1..] == parts;
    }
  }

  /** A category tag as the split-trim-filter idiom produces it. */
  predicate IsTag(s: string) {
    s != "" && Trimmed(s) && ',' !in s
  }

  /** Trims each piece and keeps the non-empty ones, in order. */
  function KeepTrimmed(ps: seq<string>): (r: seq<string>)
    ensures |r| <= |ps|
    decreases |ps|
  {
    if |ps| == 0 then []
    else if Trim(ps[0]) == "" then KeepTrimmed(ps[1..])
    else [Trim(ps[0])] + KeepTrimmed(ps[1..])
  }

  lemma {:induction false} KeepTrimmedTags(ps: seq<string>)
    requires forall i :: 0 <= i < |ps| ==> ',' !in ps[i]
    ensures forall i :: 0 <= i < |KeepTrimmed(ps)| ==> IsTag(KeepTrimmed(ps)[i])
    decreases |ps|
  {
    if |ps| > 0 {
      KeepTrimmedTags(ps[1..]);
      TrimKeepsAbsent(ps[0], ',');
    }
  }

  lemma {:induction false} KeepTrimmedAppend(a: seq<string>, b: seq<string>)
    ensures KeepTrimmed(a + b) == KeepTrimmed(a) + KeepTrimmed(b)
    decreases |a|
  {
    if |a| == 0 {
      assert a + b == b;
    } else {
      assert (a + b)[0] == a[0];
      assert (a + b)[1..] == a[1..] + b;
      KeepTrimmedAppend(a[1..], b);
    }
  }

  /** Free text to a category list: `[p.strip() for p in s.split(",") if p.strip()]`,
      or `s.split(',').map(p => p.trim()).filter(Boolean)`. */
  function Pieces(s: string): (r: seq<string>)
    ensures forall i :: 0 <= i < |r| ==> IsTag(r[i])
  {
    KeepTrimmedTags(Split(s, ','));
    KeepTrimmed(Split(s, ','))
  }

  /** The pieces of text on either side of a comma stay in order. */
  lemma PiecesAround(a: string, b: string)
    ensures Pieces(a + "," + b) == Pieces(a) + Pieces(b)
  {
    SplitAround(a, b, ',');
    KeepTrimmedAppend(Split(a, ','), Split(b, ','));
  }

  /** A tag is its own only piece. */
  lemma PiecesOfTag(t: string)
    requires IsTag(t)
    ensures Pieces(t) == [t]
  {
    SplitWithoutSep(t, ',');
    TrimOfTrimmed(t);
  }

  /** Joining tags with commas and splitting the text again gives back the tags. */
  lemma {:induction false} PiecesOfJoin(tags: seq<string>)
    requires forall i :: 0 <= i < |tags| ==> IsTag(tags[i])
    ensures Pieces(Join(tags, ",")) == tags
    decreases |tags|
  {
    if |tags| == 0 {
    } else if |tags| == 1 {
      PiecesOfTag(tags[0]);
    } else {
      PiecesOfJoin(tags[1..]);
      PiecesOfJoinStep(tags[0], tags[1..]);
      assert [tags[0]] + tags[1..] == tags;
    }
  }

  /** The inductive step of `PiecesOfJoin`: one more tag in front. */
  lemma PiecesOfJoinStep(t: string, rest: seq<string>)
    requires IsTag(t) && |rest| >= 1 && Pieces(Join(rest, ",")) == rest
    ensures Pieces(Join([t] + rest, ",")) == [t] + rest
  {
    PiecesOfTag(t);
    JoinCons(t, rest, ",");
    PiecesAround(t, Join(rest, ","));
  }

  /** The list a popup shows (`join(', ')`) splits back into the same tags. */
  lemma {:induction false} PiecesOfDisplayJoin(tags: seq<string>)
    requires forall i :: 0 <= i < |tags| ==> IsTag(tags[i])
    ensures Pieces(Join(tags, ", ")) == tags
    decreases |tags|
  {
    if |tags| == 0 {
    } else if |tags| == 1 {
      PiecesOfTag(tags[0]);
    } else {
      var rest := Join(tags[1..], ", ");
      assert tags == [tags[0]] + tags[1..];
      JoinCons(tags[0], tags[1..], ", ");
      assert Join(tags, ", ") == tags[0] + "," + (" " + rest);
      PiecesOfDisplayJoin(tags[1..]);
      PiecesOfTag(tags[0]);
      PiecesAround(tags[0], " " + rest);
      SpaceBeforePieces(rest);
    }
  }

  /** A space in front of the text only changes its first piece, which is trimmed anyway. */
  lemma SpaceBeforePieces(s: string)
    ensures Pieces(" " + s) == Pieces(s)
  {
    var ps := Split(s, ',');
    var qs := Split(" " + s, ',');
    assert (" " + s)[1..] == s;
    assert qs == [" " + ps[0]] + ps[1..];
    TrimSkipsLeadingSpace(' ', ps[0]);
    assert [ps[0]] + ps[1..] == ps;
    KeepTrimmedAppend([" " + ps[0]], ps[1..]);
    KeepTrimmedAppend([ps[0]], ps[1..]);
  }

  function LowerChar(c: char): char {
    if 'A' <= c <= 'Z' then (c as int + 32) as char else c
  }

  /** `toLowerCase()` / `lower()` on the ASCII letters. */
  function Lower(s: string): (r: string)
    ensures |r| == |s|
    ensures forall i :: 0 <= i < |s| ==> r[i] == LowerChar(s[i])
  {
    seq(|s|, i requires 0 <= i < |s| => LowerChar(s[i]))
  }

  predicate IsLower(s: string) {
    Lower(s) == s
  }

  /** The number of occurrences of `c` in `s`. */
  function Count(s: string, c: char): nat
    decreases |s|
  {
    if |s| == 0 then 0 else (if s[0] == c then 1 else 0) + Count(s[1..], c)
  }

  lemma {:induction false} CountAppend(a: string, b: string, c: char)
    ensures Count(a + b, c) == Count(a, c) + Count(b, c)
    decreases |a|
  {
    if |a| == 0 {
      assert a + b == b;
    } else {
      assert (a + b)[0] == a[0];
      assert (a + b)[1..] == a[1..] + b;
      CountAppend(a[1..], b, c);
      assert Count(a + b, c) == (if a[0] == c then 1 else 0) + Count(a[1..] + b, c);
    }
  }

  lemma {:induction false} CountAbsent(s: string, c: char)
    requires c !in s
    ensures Count(s, c) == 0
    decreases |s|
  {
    if |s| > 0 {
      assert c !in s[1..];
      CountAbsent(s[1..], c);
    }
  }

  /** `s.replace(target, repl)` in Python: every occurrence of the character is replaced. */
  function ReplaceAll(s: string, target: char, repl: string): (r: string)
    ensures target !in repl ==> target !in r
    decreases |s|
  {
    if |s| == 0 then ""
    else (if s[0] == target then repl else [s[0]]) + ReplaceAll(s[1..], target, repl)
  }

  lemma {:induction false} ReplaceAllAbsent(s: string, target: char, repl: string)
    requires target !in s
    ensures ReplaceAll(s, target, repl) == s
    decreases |s|
  {
    if |s| > 0 {
      assert target !in s[1..];
      ReplaceAllAbsent(s[1..], target, repl);
    }
  }

  lemma {:induction false} ReplaceAllAppend(a: string, b: string, target: char, repl: string)
    ensures ReplaceAll(a + b, target, repl) == ReplaceAll(a, target, repl) + ReplaceAll(b, target, repl)
    decreases |a|
  {
    if |a| == 0 {
      assert a + b == b;
    } else {
      assert (a + b)[0] == a[0];
      assert (a + b)[1..] == a[1..] + b;
      ReplaceAllAppend(a[1..], b, target, repl);
      assert ReplaceAll(a + b, target, repl) == (if a[0] == target then repl else [a[0]]) + ReplaceAll(a[1..] + b, target, repl);
    }
  }
}

=== FILE: values.dfy ===
/**
 The small vocabulary shared by the front end and the back end of the event
 browser: optional values, IEEE-style numbers as they reach a coordinate check,
 map positions, and the event record the list endpoints return.
 */
module Values {

  /** JavaScript `undefined`/`null` and Python `None`, or a value. */
  datatype Option<+T> = None | Some(value: T) {
    function GetOr(default: T): T {
      match this
      case Some(v) => v
      case None => default
    }
  }

  /** A JavaScript number or a Python float: a finite value, NaN, or an infinity.
      `Number.isFinite` is `Finite?`; every comparison involving NaN is false. */
  datatype Float = Finite(r: real) | NaN | Infinity(negative: bool) {
    /** `lo <= this <= hi` as both languages evaluate it. */
    predicate Within(lo: real, hi: real) {
      Finite? && lo <= r <= hi
    }
  }

  /** A map position, longitude first as mapbox and GeoJSON order it. */
  datatype LngLat = LngLat(lng: Float, lat: Float) {
    predicate IsFinite() {
      lng.Finite? && lat.Finite?
    }
  }

  /** One event as the list and search endpoints return it. The coordinates are
      the results of `Number(r.longitude)` and `Number(r.latitude)`; a text field
      is `None` when the record does not carry it, and `categories` is `None`
      when the record's value is not an array. */
  datatype EventRecord = EventRecord(
    longitude: Float,
    latitude: Float,
    title: Option<string>,
    description: Option<string>,
    day: Option<string>,
    startTime: Option<string>,
    endTime: Option<string>,
    categories: Option<seq<string>>)
  {
    function Position(): LngLat {
      LngLat(longitude, latitude)
    }
  }
}

=== FILE: views.dfy ===
/**
 The Django views of the events service (backend/app/views.py): category-list
 normalisation, the ordered validation of a posted event, the document that is
 stored, and how the list, create and search endpoints map a request to a
 status code.

 The Supabase client, the ISO-8601 parser and Python's `float`/`str` are not
 part of this model: they enter as the function-valued fields of `Env` and as
 the abstract query runners passed to the handlers.
 */
module Views {
  import opened Values
  import Text

  /** A decoded JSON value (a Python `None`, bool, number, str, list or dict). */
  datatype Json =
    | JNull
    | JBool(b: bool)
    | JNum(n: Float)
    | JStr(s: string)
    | JArray(items: seq<Json>)
    | JObject(fields: map<string, Json>)

  /** Python truthiness. */
  predicate Truthy(v: Json) {
    match v
    case JNull => false
    case JBool(b) => b
    case JNum(n) => !(n.Finite? && n.r == 0.0)
    case JStr(s) => s != ""
    case JArray(items) => |items| > 0
    case JObject(fields) => |fields| > 0
  }

  /** An instant as `datetime.fromisoformat(...).astimezone(timezone.utc)` yields it:
      `ticks` orders instants, `date` is `.date().isoformat()` and `timetz` is what
      `_format_timetz` renders (the time of day with its offset, seconds precision). */
  datatype Instant = Instant(ticks: int, date: string, timetz: string)

  /** The library behaviour the views rely on. */
  datatype Env = Env(
    show: Json -> string,                // `str(v)` for a value that is not a string
    fromIso: string -> Option<Instant>,  // `fromisoformat` then `astimezone(utc)`; None when it raises
    toFloat: Json -> Option<Float>)      // `float(v)`; None when it raises

  /** `str(v)`. */
  function Str(env: Env, v: Json): string {
    if v.JStr? then v.s else env.show(v)
  }

  /** `payload.get(k)`. */
  function Get(p: map<string, Json>, k: string): Json {
    if k in p then p[k] else JNull
  }

  /** `_parse_iso8601`: a trailing `Z` turns every `Z` into `+00:00` before parsing, so the
      parser sees a text with no `Z` left that ends in the UTC offset; any other text is
      parsed as given. */
  function ParseIso8601(env: Env, s: string): (r: Option<Instant>)
    ensures !(|s| > 0 && s[|s| - 1] == 'Z') ==> r == env.fromIso(s)
    ensures |s| > 0 && s[|s| - 1] == 'Z' ==>
      var t := Text.ReplaceAll(s, 'Z', "+00:00");
      r == env.fromIso(t) && 'Z' !in t && |t| >= 6 && t[|t| - 6..] == "+00:00"
  {
    ZuluTail(s);
    var zulu := |s| > 0 && s[|s| - 1] == 'Z';
    env.fromIso(if zulu then Text.ReplaceAll(s, 'Z', "+00:00") else s)
  }

  /** Replacing every `Z` of a text that ends in one leaves the offset at its end. */
  lemma ZuluTail(s: string)
    ensures |s| > 0 && s[|s| - 1] == 'Z' ==>
      var t := Text.ReplaceAll(s, 'Z', "+00:00");
      |t| >= 6 && t[|t| - 6..] == "+00:00"
  {
    if |s| > 0 && s[|s| - 1] == 'Z' {
      var body := s[..|s| - 1];
      assert s == body + "Z";
      Text.ReplaceAllAppend(body, "Z", 'Z', "+00:00");
      assert Text.ReplaceAll("Z", 'Z', "+00:00") == "+00:00";
    }
  }

  /** A `Z` suffix is read as the UTC offset `+00:00`; any other text is parsed as given. */
  lemma ZuluSuffix(env: Env, body: string)
    requires 'Z' !in body
    ensures ParseIso8601(env, body + "Z") == env.fromIso(body + "+00:00")
    ensures ParseIso8601(env, body) == env.fromIso(body)
  {
    Text.ReplaceAllAppend(body, "Z", 'Z', "+00:00");
    Text.ReplaceAllAbsent(body, 'Z', "+00:00");
    assert Text.ReplaceAll("Z", 'Z', "+00:00") == "+00:00";
  }

  // ---------------------------------------------------------------------------
  // _to_list

  /** One list element: split on commas when it has one, otherwise the stripped element. */
  function ItemPieces(s: string): seq<string> {
    if ',' in s then Text.Pieces(s)
    else if Text.Trim(s) != "" then [Text.Trim(s)]
    else []
  }

  /** The two branches of the element loop agree with splitting every element on commas. */
  lemma ItemPiecesArePieces(s: string)
    ensures ItemPieces(s) == Text.Pieces(s)
  {
    if ',' !in s {
      Text.SplitWithoutSep(s, ',');
    }
  }

  function ItemsToList(env: Env, items: seq<Json>): (r: seq<string>)
    decreases |items|
  {
    if |items| == 0 then [] else ItemPieces(Str(env, items[0])) + ItemsToList(env, items[1..])
  }

  /** A list holding one value other than `None` or a list reads like that value on its own:
      the element loop and the string branch agree. */
  lemma ToListSingle(env: Env, x: Json)
    requires !x.JNull? && !x.JArray?
    ensures ToList(env, JArray([x])) == ToList(env, x)
  {
    ArrayToList(env, [x]);
    assert ToList(env, x) == Text.Pieces(Str(env, x));
    ItemsToListOne(env, x);
  }

  lemma ItemsToListOne(env: Env, x: Json)
    ensures ItemsToList(env, [x]) == Text.Pieces(Str(env, x))
  {
    var p := ItemPieces(Str(env, x));
    assert [x][0] == x && [x][1..] == [];
    assert ItemsToList(env, [x]) == p + ItemsToList(env, []);
    assert p + [] == p;
    ItemPiecesArePieces(Str(env, x));
  }

  /** `_to_list(val)` with `JNull` for `None`: `None` gives the empty list, and every category
      produced is non-empty, stripped and comma-free. */
  function ToList(env: Env, v: Json): (r: seq<string>)
    ensures v.JNull? ==> r == []
    ensures forall t :: t in r ==> Text.IsTag(t)
  {
    match v
    case JNull => []
    case JArray(items) =>
      ItemsToListTags(env, items);
      ItemsToList(env, items)
    case _ => Text.Pieces(Str(env, v))
  }

  lemma {:induction false} ItemsToListTags(env: Env, items: seq<Json>)
    ensures forall i :: 0 <= i < |ItemsToList(env, items)| ==> Text.IsTag(ItemsToList(env, items)[i])
    decreases |items|
  {
    if |items| > 0 {
      ItemPiecesArePieces(Str(env, items[0]));
      ItemsToListTags(env, items[1..]);
    }
  }

  /** The pieces of the elements, element by element, left to right. */
  lemma {:induction false} ItemsToListAppend(env: Env, a: seq<Json>, b: seq<Json>)
    ensures ItemsToList(env, a + b) == ItemsToList(env, a) + ItemsToList(env, b)
    decreases |a|
  {
    if |a| == 0 {
      assert a + b == b;
    } else {
      assert (a + b)[0] == a[0];
      assert (a + b)[1..] == a[1..] + b;
      ItemsToListAppend(env, a[1..], b);
    }
  }

  /** The list as Python strings. */
  function Strings(xs: seq<string>): (r: seq<Json>)
    ensures |r| == |xs|
    ensures forall i :: 0 <= i < |xs| ==> r[i] == JStr(xs[i])
  {
    seq(|xs|, i requires 0 <= i < |xs| => JStr(xs[i]))
  }

  /** Feeding the result back in changes nothing. */
  lemma ToListIdempotent(env: Env, v: Json)
    ensures ToList(env, JArray(Strings(ToList(env, v)))) == ToList(env, v)
  {
    TagsRoundTrip(env, ToList(env, v));
  }

  /** A list of categories, sent back as a list of strings, reads back as itself. */
  lemma TagsRoundTrip(env: Env, tags: seq<string>)
    requires forall i :: 0 <= i < |tags| ==> Text.IsTag(tags[i])
    ensures ToList(env, JArray(Strings(tags))) == tags
  {
    ArrayToList(env, Strings(tags));
    TagsToList(env, tags);
  }

  /** A list is read element by element. */
  lemma ArrayToList(env: Env, items: seq<Json>)
    ensures ToList(env, JArray(items)) == ItemsToList(env, items)
  {
  }

  lemma {:induction false} TagsToList(env: Env, tags: seq<string>)
    requires forall i :: 0 <= i < |tags| ==> Text.IsTag(tags[i])
    ensures ItemsToList(env, Strings(tags)) == tags
    decreases |tags|
  {
    if |tags| > 0 {
      var js := Strings(tags);
      StringsTail(tags);
      TagsToList(env, tags[1..]);
      TagItem(env, tags[0]);
      assert js[0] == JStr(tags[0]);
      assert ItemsToList(env, js) == ItemPieces(Str(env, js[0])) + ItemsToList(env, js[1..]);
      assert [tags[0]] + tags[1..] == tags;
    }
  }

  lemma StringsTail(tags: seq<string>)
    requires |tags| > 0
    ensures Strings(tags)[1..] == Strings(tags[1..])
  {
  }

  lemma TagItem(env: Env, t: string)
    requires Text.IsTag(t)
    ensures ItemPieces(Str(env, JStr(t))) == [t]
  {
    ItemPiecesArePieces(t);
    Text.PiecesOfTag(t);
  }

  // ---------------------------------------------------------------------------
  // _validate_event

  const Required: seq<string> :=
    ["title", "description", "start_time", "end_time", "latitude", "longitude", "categories"]

  /** `r` is `keys` with some elements left out, the rest in their order. */
  predicate Subsequence(r: seq<string>, keys: seq<string>)
    decreases |keys|
  {
    if |r| == 0 then true
    else if |keys| == 0 then false
    else (r[0] == keys[0] && Subsequence(r[1..], keys[1..])) || Subsequence(r, keys[1..])
  }

  /** `[k for k in keys if k not in payload]`. */
  function MissingOf(keys: seq<string>, p: map<string, Json>): (r: seq<string>)
    ensures forall k :: k in r <==> k in keys && k !in p
    ensures Subsequence(r, keys)
    decreases |keys|
  {
    if |keys| == 0 then []
    else
      var rest := MissingOf(keys[1..], p);
      if keys[0] !in p then [keys[0]] + rest
      else
        assert Subsequence(rest, keys[1..]);
        rest
  }

  datatype Invalid =
    | MissingFields(keys: seq<string>)
    | BadDatetime
    | EndNotAfterStart
    | NotNumbers
    | LatitudeOutOfRange
    | LongitudeOutOfRange
    | NoCategories

  /** The error text the create endpoint returns. */
  function Message(e: Invalid): string {
    match e
    case MissingFields(keys) => "Missing required fields: " + Text.Join(keys, ", ")
    case BadDatetime => "Invalid datetime format for start_time or end_time. Use ISO-8601."
    case EndNotAfterStart => "end_time must be after start_time."
    case NotNumbers => "latitude and longitude must be numbers."
    case LatitudeOutOfRange => "latitude must be between -90 and 90."
    case LongitudeOutOfRange => "longitude must be between -180 and 180."
    case NoCategories => "categories must be a non-empty list or comma-separated string."
  }

  /** Every key of `Required` is present. */
  predicate HasRequired(p: map<string, Json>) {
    && "title" in p && "description" in p && "start_time" in p && "end_time" in p
    && "latitude" in p && "longitude" in p && "categories" in p
  }

  function StartOf(env: Env, p: map<string, Json>): Option<Instant>
    requires "start_time" in p
  {
    ParseIso8601(env, Str(env, p["start_time"]))
  }

  function EndOf(env: Env, p: map<string, Json>): Option<Instant>
    requires "end_time" in p
  {
    ParseIso8601(env, Str(env, p["end_time"]))
  }

  /** Both times parse and the end comes after the start. */
  predicate TimesInOrder(env: Env, p: map<string, Json>)
    requires "start_time" in p && "end_time" in p
  {
    StartOf(env, p).Some? && EndOf(env, p).Some? && StartOf(env, p).value.ticks < EndOf(env, p).value.ticks
  }

  /** `float` accepts both coordinates. */
  predicate Numbers(env: Env, p: map<string, Json>)
    requires "latitude" in p && "longitude" in p
  {
    env.toFloat(p["latitude"]).Some? && env.toFloat(p["longitude"]).Some?
  }

  predicate LatitudeOk(env: Env, p: map<string, Json>)
    requires "latitude" in p && "longitude" in p && Numbers(env, p)
  {
    env.toFloat(p["latitude"]).value.Within(-90.0, 90.0)
  }

  predicate LongitudeOk(env: Env, p: map<string, Json>)
    requires "latitude" in p && "longitude" in p && Numbers(env, p)
  {
    env.toFloat(p["longitude"]).value.Within(-180.0, 180.0)
  }

  /** Everything `_validate_event` checks, as one order-free condition. */
  predicate Valid(env: Env, p: map<string, Json>) {
    && HasRequired(p) && TimesInOrder(env, p)
    && Numbers(env, p) && LatitudeOk(env, p) && LongitudeOk(env, p)
    && |ToList(env, p["categories"])| > 0
  }

  /** `_validate_event`: `None` or the first failing check. */
  function ValidateEvent(env: Env, p: map<string, Json>): (r: Option<Invalid>)
    ensures r.None? <==> Valid(env, p)
    // missing keys come first, all of them, in the order of `Required`
    ensures r.Some? && r.value.MissingFields? <==> !HasRequired(p)
    ensures r.Some? && r.value.MissingFields? ==>
      (forall k :: k in r.value.keys <==> k in Required && k !in p) && Subsequence(r.value.keys, Required)
    // each later failure happens exactly when every earlier check passed and its own failed
    ensures r == Some(BadDatetime) <==> HasRequired(p) && (StartOf(env, p).None? || EndOf(env, p).None?)
    ensures r == Some(EndNotAfterStart) <==>
      HasRequired(p) && StartOf(env, p).Some? && EndOf(env, p).Some?
      && EndOf(env, p).value.ticks <= StartOf(env, p).value.ticks
    ensures r == Some(NotNumbers) <==> HasRequired(p) && TimesInOrder(env, p) && !Numbers(env, p)
    ensures r == Some(LatitudeOutOfRange) <==>
      HasRequired(p) && TimesInOrder(env, p) && Numbers(env, p) && !LatitudeOk(env, p)
    ensures r == Some(LongitudeOutOfRange) <==>
      HasRequired(p) && TimesInOrder(env, p) && Numbers(env, p) && LatitudeOk(env, p) && !LongitudeOk(env, p)
    ensures r == Some(NoCategories) <==>
      HasRequired(p) && TimesInOrder(env, p) && Numbers(env, p) && LatitudeOk(env, p) && LongitudeOk(env, p)
      && |ToList(env, p["categories"])| == 0
  {
    MissingIffIncomplete(p);
    var missing := MissingOf(Required, p);
    if |missing| > 0 then Some(MissingFields(missing)) else CheckTimes(env, p)
  }

  /** Some key is reported missing exactly when a required key is absent. */
  lemma MissingIffIncomplete(p: map<string, Json>)
    ensures |MissingOf(Required, p)| > 0 <==> !HasRequired(p)
  {
    var missing := MissingOf(Required, p);
    if |missing| > 0 {
      assert missing[0] in missing;
    } else {
      forall i | 0 <= i < |Required| ensures Required[i] in p {
        assert Required[i] !in missing;
      }
    }
  }

  /** The checks after the key check: the times first, then the coordinates and categories. */
  function CheckTimes(env: Env, p: map<string, Json>): (r: Option<Invalid>)
    requires HasRequired(p)
    ensures r.None? <==> Valid(env, p)
    ensures r.Some? ==> !r.value.MissingFields?
    ensures r == Some(BadDatetime) <==> StartOf(env, p).None? || EndOf(env, p).None?
    ensures r == Some(EndNotAfterStart) <==>
      StartOf(env, p).Some? && EndOf(env, p).Some? && EndOf(env, p).value.ticks <= StartOf(env, p).value.ticks
    ensures r.Some? && r.value !in {BadDatetime, EndNotAfterStart} <==> TimesInOrder(env, p) && CheckPlace(env, p).Some?
    ensures TimesInOrder(env, p) ==> r == CheckPlace(env, p)
  {
    var start := StartOf(env, p);
    var end := EndOf(env, p);
    if start.None? || end.None? then Some(BadDatetime)
    else if end.value.ticks <= start.value.ticks then Some(EndNotAfterStart)
    else CheckPlace(env, p)
  }

  /** The coordinate and category checks, in order. */
  function CheckPlace(env: Env, p: map<string, Json>): (r: Option<Invalid>)
    requires HasRequired(p)
    ensures r.Some? ==> r.value in {NotNumbers, LatitudeOutOfRange, LongitudeOutOfRange, NoCategories}
    ensures r.None? <==>
      Numbers(env, p) && LatitudeOk(env, p) && LongitudeOk(env, p) && |ToList(env, p["categories"])| > 0
    ensures r == Some(NotNumbers) <==> !Numbers(env, p)
    ensures r == Some(LatitudeOutOfRange) <==> Numbers(env, p) && !LatitudeOk(env, p)
    ensures r == Some(LongitudeOutOfRange) <==> Numbers(env, p) && LatitudeOk(env, p) && !LongitudeOk(env, p)
    ensures r == Some(NoCategories) <==>
      Numbers(env, p) && LatitudeOk(env, p) && LongitudeOk(env, p) && |ToList(env, p["categories"])| == 0
  {
    if !Numbers(env, p) then Some(NotNumbers)
    else if !LatitudeOk(env, p) then Some(LatitudeOutOfRange)
    else if !LongitudeOk(env, p) then Some(LongitudeOutOfRange)
    else if |ToList(env, p["categories"])| == 0 then Some(NoCategories)
    else None
  }

  // ---------------------------------------------------------------------------
  // _normalize_event

  /** What `_normalize_event` needs of its payload so that nothing raises. */
  predicate Normalizable(env: Env, p: map<string, Json>) {
    && "title" in p && "start_time" in p && "end_time" in p && "latitude" in p && "longitude" in p
    && StartOf(env, p).Some? && EndOf(env, p).Some?
    && env.toFloat(p["latitude"]).Some? && env.toFloat(p["longitude"]).Some?
  }

  lemma ValidIsNormalizable(env: Env, p: map<string, Json>)
    requires ValidateEvent(env, p).None?
    ensures Normalizable(env, p)
  {
  }

  const DocKeys: set<string> :=
    {"title", "description", "day", "start_time", "end_time", "latitude", "longitude", "categories"}

  /** The eight columns as one document. */
  function Columns(title: Json, description: Json, day: Json, startTime: Json, endTime: Json,
                   latitude: Json, longitude: Json, categories: Json): (m: map<string, Json>)
    ensures m.Keys == DocKeys
    ensures m["title"] == title && m["description"] == description && m["day"] == day
    ensures m["start_time"] == startTime && m["end_time"] == endTime
    ensures m["latitude"] == latitude && m["longitude"] == longitude && m["categories"] == categories
  {
    map["title" := title, "description" := description, "day" := day, "start_time" := startTime,
        "end_time" := endTime, "latitude" := latitude, "longitude" := longitude, "categories" := categories]
  }

  /** The columns `_normalize_event` always writes: the title and description as sent, the
      UTC day and times of the parsed instants, the coordinates as floats and the categories
      as a clean list. */
  function DocFields(env: Env, p: map<string, Json>): (base: map<string, Json>)
    requires Normalizable(env, p)
    ensures base.Keys == DocKeys
    ensures base["title"] == p["title"] && base["description"] == Get(p, "description")
    ensures base["day"] == JStr(StartOf(env, p).value.date)
    ensures base["start_time"] == JStr(StartOf(env, p).value.timetz)
    ensures base["end_time"] == JStr(EndOf(env, p).value.timetz)
    ensures base["latitude"] == JNum(env.toFloat(p["latitude"]).value)
    ensures base["longitude"] == JNum(env.toFloat(p["longitude"]).value)
    ensures base["categories"] == JArray(Strings(ToList(env, Get(p, "categories"))))
  {
    var start := StartOf(env, p).value;
    var end := EndOf(env, p).value;
    Columns(p["title"], Get(p, "description"), JStr(start.date), JStr(start.timetz), JStr(end.timetz),
            JNum(env.toFloat(p["latitude"]).value), JNum(env.toFloat(p["longitude"]).value),
            JArray(Strings(ToList(env, Get(p, "categories")))))
  }

  /** `_normalize_event`: the document to store, with the payload's `id` only when it is
      truthy. */
  function NormalizeEvent(env: Env, p: map<string, Json>): (doc: map<string, Json>)
    requires Normalizable(env, p)
    ensures doc.Keys == DocKeys + (if Truthy(Get(p, "id")) then {"id"} else {})
    ensures "id" in doc ==> doc["id"] == p["id"]
    ensures forall k :: k in DocKeys ==> k in doc && doc[k] == DocFields(env, p)[k]
  {
    var base := DocFields(env, p);
    var doc := if Truthy(Get(p, "id")) then base["id" := p["id"]] else base;
    IdIsNoColumn();
    WithId(base, DocKeys, Get(p, "id"), Truthy(Get(p, "id")));
    doc
  }

  /** The identifier is not one of the eight columns. */
  lemma IdIsNoColumn()
    ensures "id" !in DocKeys
  {
  }

  /** A document with an `id` column added, or left without one. */
  lemma WithId(base: map<string, Json>, keys: set<string>, id: Json, add: bool)
    requires base.Keys == keys && "id" !in keys
    ensures var doc := if add then base["id" := id] else base;
      && doc.Keys == keys + (if add then {"id"} else {})
      && ("id" in doc ==> add && doc["id"] == id)
      && forall k :: k in keys ==> k in doc && doc[k] == base[k]
  {
  }

  // ---------------------------------------------------------------------------
  // The handlers

  /** A JSON response, or an exception that escapes the view (Django answers 500). */
  datatype Reply = Reply(status: int, body: Json) | Unhandled

  function ErrorBody(message: string): Json {
    JObject(map["error" := JStr(message)])
  }

  /** The request body: undecodable, or a JSON object. */
  datatype Body = Undecodable | Decoded(payload: map<string, Json>)

  /** The answer of the insert: an exception, or the rows it returned (`ins.data`). */
  datatype Inserted = InsertRaised(message: string) | InsertReturned(rows: seq<map<string, Json>>)

  /** The document `post` inserts: the normalised event with an identifier. */
  function StoredDoc(env: Env, p: map<string, Json>, uuid: string): (doc: map<string, Json>)
    requires Normalizable(env, p)
    ensures "id" in doc && doc.Keys == DocKeys + {"id"}
    ensures doc["id"] == (if Truthy(Get(p, "id")) then p["id"] else JStr(uuid))
    ensures forall k :: k in DocKeys ==> doc[k] == DocFields(env, p)[k]
  {
    var n := NormalizeEvent(env, p);
    NormalizedId(env, p);
    if Truthy(Get(n, "id")) then n else n["id" := JStr(uuid)]
  }

  lemma NormalizedId(env: Env, p: map<string, Json>)
    requires Normalizable(env, p)
    ensures "id" !in DocKeys
    ensures Truthy(Get(NormalizeEvent(env, p), "id")) <==> Truthy(Get(p, "id"))
    ensures "id" in NormalizeEvent(env, p) <==> Truthy(Get(p, "id"))
  {
  }

  /** The created feature: a point at `[longitude, latitude]` carrying every other column. */
  function FeatureBody(row: map<string, Json>): Json
    requires "longitude" in row && "latitude" in row
  {
    JObject(map["feature" := JObject(map[
      "type" := JStr("Feature"),
      "geometry" := JObject(map["type" := JStr("Point"), "coordinates" := JArray([row["longitude"], row["latitude"]])]),
      "properties" := JObject(row - {"latitude", "longitude"})])])
  }

  /** `EventListView.post`. `insert` is the Supabase insert, `uuid` the fresh `str(uuid4())`. */
  function Post(env: Env, body: Body, uuid: string, insert: map<string, Json> -> Inserted): (r: Reply)
    ensures body.Undecodable? ==> r == Reply(400, ErrorBody("Invalid JSON body"))
    ensures body.Decoded? && ValidateEvent(env, body.payload).Some? ==>
      r == Reply(422, ErrorBody(Message(ValidateEvent(env, body.payload).value)))
    ensures r.Reply? && r.status == 201 ==>
      body.Decoded? && Valid(env, body.payload)
      && var doc := StoredDoc(env, body.payload, uuid);
         insert(doc).InsertReturned?
         && var row := if |insert(doc).rows| > 0 then insert(doc).rows[0] else doc;
            "longitude" in row && "latitude" in row && r.body == FeatureBody(row)
    ensures r.Reply? && r.status == 500 ==>
      body.Decoded? && Valid(env, body.payload) && insert(StoredDoc(env, body.payload, uuid)).InsertRaised?
    ensures r.Unhandled? || r.status in {201, 400, 422, 500}
    // a valid payload is stored, and the reply is the insert's
    ensures body.Decoded? && Valid(env, body.payload) ==> r == Store(StoredDoc(env, body.payload, uuid), insert)
  {
    match body
    case Undecodable => Reply(400, ErrorBody("Invalid JSON body"))
    case Decoded(p) =>
      var err := ValidateEvent(env, p);
      if err.Some? then Reply(422, ErrorBody(Message(err.value)))
      else Store(StoredDoc(env, p, uuid), insert)
  }

  /** The insert of a stored document and the reply built from the row it returns. */
  function Store(doc: map<string, Json>, insert: map<string, Json> -> Inserted): (r: Reply)
    requires "longitude" in doc && "latitude" in doc
    ensures insert(doc).InsertRaised? ==> r == Reply(500, ErrorBody(insert(doc).message))
    ensures r.Reply? && r.status == 500 ==> insert(doc).InsertRaised?
    ensures insert(doc) == InsertReturned([]) ==> r == Reply(201, FeatureBody(doc))
    ensures r.Unhandled? || r.status in {201, 500}
    ensures r.Reply? && r.status == 201 ==>
      insert(doc).InsertReturned?
      && var row := if |insert(doc).rows| > 0 then insert(doc).rows[0] else doc;
         "longitude" in row && "latitude" in row && r.body == FeatureBody(row)
  {
    match insert(doc)
    case InsertRaised(message) => Reply(500, ErrorBody(message))
    case InsertReturned(rows) =>
      var row := if |rows| > 0 then rows[0] else doc;
      if "longitude" in row && "latitude" in row then Reply(201, FeatureBody(row))
      else Unhandled
  }

  /** When the database echoes nothing, the created feature is the stored document. */
  lemma PostEchoesDocument(env: Env, p: map<string, Json>, uuid: string, insert: map<string, Json> -> Inserted)
    requires ValidateEvent(env, p).None?
    requires insert(StoredDoc(env, p, uuid)) == InsertReturned([])
    ensures Post(env, Decoded(p), uuid, insert) == Reply(201, FeatureBody(StoredDoc(env, p, uuid)))
  {
    var doc := StoredDoc(env, p, uuid);
    assert Post(env, Decoded(p), uuid, insert) == Store(doc, insert);
  }

  /** The feature built from a stored document is a point at the normalised
      `[longitude, latitude]` whose properties are every other column, the
      identifier included. */
  lemma FeatureOfStoredDoc(env: Env, p: map<string, Json>, uuid: string)
    requires Normalizable(env, p)
    ensures var doc := StoredDoc(env, p, uuid);
      var feature := FeatureBody(doc).fields["feature"].fields;
      && feature["geometry"].fields["coordinates"]
         == JArray([JNum(env.toFloat(p["longitude"]).value), JNum(env.toFloat(p["latitude"]).value)])
      && feature["properties"].fields.Keys
         == {"id", "title", "description", "day", "start_time", "end_time", "categories"}
      && feature["properties"].fields["id"] == doc["id"]
  {
    var doc := StoredDoc(env, p, uuid);
    FeatureParts(doc);
    PropertyKeys(doc);
    assert doc["longitude"] == DocFields(env, p)["longitude"];
    assert doc["latitude"] == DocFields(env, p)["latitude"];
  }

  /** A stored document without its coordinates has the property columns left. */
  lemma PropertyKeys(doc: map<string, Json>)
    requires doc.Keys == DocKeys + {"id"}
    ensures (doc - {"latitude", "longitude"}).Keys
         == {"id", "title", "description", "day", "start_time", "end_time", "categories"}
  {
    assert (doc - {"latitude", "longitude"}).Keys == doc.Keys - {"latitude", "longitude"};
  }

  /** The point and the properties of the feature built from a row. */
  lemma FeatureParts(row: map<string, Json>)
    requires "longitude" in row && "latitude" in row
    ensures var feature := FeatureBody(row).fields["feature"].fields;
      && feature["geometry"].fields["coordinates"] == JArray([row["longitude"], row["latitude"]])
      && feature["properties"].fields == row - {"latitude", "longitude"}
  {
  }

  /** The query string, every value of every parameter in order (a Django `QueryDict`). */
  type Query = map<string, seq<string>>

  /** `request.GET.get(k)`: the last value. */
  function GetOne(q: Query, k: string): Option<string> {
    if k in q && |q[k]| > 0 then Some(q[k][|q[k]| - 1]) else None
  }

  /** `request.GET.getlist(k)`. */
  function GetAll(q: Query, k: string): seq<string> {
    if k in q then q[k] else []
  }

  /** What the handler asks Supabase for. */
  datatype Selection =
    | ByDay(day: string)
    | ByDayOverlapping(day: string, categories: seq<string>)
    | ByDayMatching(onDay: Option<string>, orFilter: string)

  /** The outcome of running a selection: the rows, or an exception. */
  datatype Rows = Rows(rows: seq<Json>) | QueryRaised(message: string)

  function EventsBody(rows: seq<Json>): Json {
    JObject(map["events" := JArray(rows)])
  }

  /** `EventListView.get`. `run` is the Supabase query. */
  function ListGet(q: Query, run: Selection -> Rows): (r: Reply)
    ensures r.Reply? && r.status == 400 <==>
      GetOne(q, "day").None? || GetOne(q, "day") == Some("")
      || |GetAll(q, "categories")| == 0 || GetAll(q, "categories")[0] == ""
    // the day is checked before the categories
    ensures GetOne(q, "day").None? || GetOne(q, "day") == Some("") ==>
      r == Reply(400, ErrorBody("Missing required 'day' query parameter"))
    ensures r.Unhandled? || r.status in {200, 400}
    ensures r.Reply? && r.status == 200 ==>
      var day := GetOne(q, "day").value;
      var cats := GetAll(q, "categories");
      var sel := if cats[0] == "all" then ByDay(day) else ByDayOverlapping(day, cats);
      run(sel).Rows? && r.body == EventsBody(run(sel).rows)
    // a query that is not refused is answered with the selection's rows, unless it raises
    ensures !(GetOne(q, "day").None? || GetOne(q, "day") == Some("")
              || |GetAll(q, "categories")| == 0 || GetAll(q, "categories")[0] == "") ==>
      var day := GetOne(q, "day").value;
      var cats := GetAll(q, "categories");
      var sel := if cats[0] == "all" then ByDay(day) else ByDayOverlapping(day, cats);
      && (run(sel).Rows? ==> r == Reply(200, EventsBody(run(sel).rows)))
      && (r.Unhandled? <==> run(sel).QueryRaised?)
  {
    var day := GetOne(q, "day");
    var cats := GetAll(q, "categories");
    if day.None? || day.value == "" then Reply(400, ErrorBody("Missing required 'day' query parameter"))
    else if |cats| == 0 || cats[0] == "" then Reply(400, ErrorBody("Missing required 'categories' query parameter"))
    else
      var sel := if cats[0] != "all" then ByDayOverlapping(day.value, cats) else ByDay(day.value);
      match run(sel)
      case Rows(rows) => Reply(200, EventsBody(rows))
      case QueryRaised(_) => Unhandled
  }

  /** The PostgREST `or` filter the search endpoint sends for a query text. */
  function SearchFilter(text: string): string {
    "title.ilike.%" + text + "%,description.ilike.%" + text + "%"
  }

  /** `EventSearchView.get`. */
  function SearchGet(q: Query, run: Selection -> Rows): (r: Reply)
    ensures r.Reply?
    ensures r.status == 400 <==> Text.Trim(GetOne(q, "search").GetOr("")) == ""
    ensures r.status in {200, 400, 500}
    ensures r.status != 400 ==>
      var sel := ByDayMatching(GetOne(q, "day"), SearchFilter(Text.Trim(GetOne(q, "search").GetOr(""))));
      (r.status == 200 <==> run(sel).Rows?)
      && (run(sel).Rows? ==> r.body == EventsBody(run(sel).rows))
      && (run(sel).QueryRaised? ==> r == Reply(500, ErrorBody(run(sel).message)))
    ensures r.status == 400 ==> r == Reply(400, ErrorBody("Missing required 'search' parameter"))
  {
    var text := Text.Trim(GetOne(q, "search").GetOr(""));
    if text == "" then Reply(400, ErrorBody("Missing required 'search' parameter"))
    else
      match run(ByDayMatching(GetOne(q, "day"), SearchFilter(text)))
      case Rows(rows) => Reply(200, EventsBody(rows))
      case QueryRaised(message) => Reply(500, ErrorBody(message))
  }
}

=== FILE: wire.dfy ===
/**
 The front end's requests as the back end reads them: the list query sent by
 `loadEvents` and the search bar, the text search, and the body of the create
 POST. URL encoding and JSON encoding are taken to round-trip the strings and
 numbers involved.
 */
module Wire {
  import opened Values
  import Text
  import Views
  import App
  import SearchBar
  import CreateDetails
  import DayTime

  /** The query string of a list request, one value per parameter. */
  function ListQuery(day: string, categories: string): Views.Query {
    map["day" := [day], "categories" := [categories]]
  }

  /** The back end's answer to a list request for a non-empty day and a non-empty
      categories value: `all` selects by day alone, anything else by the overlap with
      that one value. */
  lemma ListQueryAnswer(day: string, categories: string, run: Views.Selection -> Views.Rows)
    requires day != "" && categories != ""
    ensures var sel := if categories == "all" then Views.ByDay(day) else Views.ByDayOverlapping(day, [categories]);
      Views.ListGet(ListQuery(day, categories), run)
        == if run(sel).Rows? then Views.Reply(200, Views.EventsBody(run(sel).rows)) else Views.Unhandled
  {
    var q := ListQuery(day, categories);
    assert Views.GetOne(q, "day") == Some(day);
    assert Views.GetAll(q, "categories") == [categories];
  }

  /** A list request the page sends for a non-empty day is never turned away: `all`
      selects by day alone, and a tag filter selects by the overlap with the one value the
      tags were joined into, which splits back into the tags. */
  lemma ListRequestSelects(day: string, f: App.CatFilter, run: Views.Selection -> Views.Rows)
    requires day != ""
    requires f.Tags? ==> f.tags != [] && App.CategoriesParam(f) != "all"
    requires f.Tags? ==> forall i :: 0 <= i < |f.tags| ==> Text.IsTag(f.tags[i])
    ensures var c := App.CategoriesParam(f);
      var sel := if f.All? then Views.ByDay(day) else Views.ByDayOverlapping(day, [c]);
      && (f.Tags? ==> Text.Pieces(c) == f.tags)
      && Views.ListGet(ListQuery(day, c), run)
           == if run(sel).Rows? then Views.Reply(200, Views.EventsBody(run(sel).rows)) else Views.Unhandled
  {
    var c := App.CategoriesParam(f);
    if f.Tags? {
      Text.PiecesOfJoin(f.tags);
      Text.SplitWithoutSep("", ',');
      assert Text.Pieces("") == [];
      assert c != "";
    }
    ListQueryAnswer(day, c, run);
  }

  /** A list request for an empty day is answered 400 whatever the categories. */
  lemma EmptyDayRejected(categories: string, run: Views.Selection -> Views.Rows)
    ensures Views.ListGet(ListQuery("", categories), run)
         == Views.Reply(400, Views.ErrorBody("Missing required 'day' query parameter"))
  {
    assert Views.GetOne(ListQuery("", categories), "day") == Some("");
  }

  /** The query string of a text search. */
  function SearchQuery(day: string, search: string): Views.Query {
    map["day" := [day], "search" := [search]]
  }

  /** A plain text search the search bar sends goes to the search endpoint with exactly the
      trimmed query, is never turned away for a missing search text, and filters on that text.
      An AI search goes to the AI endpoint instead, whose view is not part of this model. */
  lemma TextSearchAccepted(query: string, day: string, useAi: bool, run: Views.Selection -> Views.Rows)
    requires Text.Trim(query) != "" && Text.Trim(query)[0] != '#'
    ensures var req := SearchBar.Route(query, day, useAi).0;
      && req.TextSearch? && req.search == Text.Trim(query) && req.day == day
      && req.endpoint == (if useAi then SearchBar.AiSearch else SearchBar.PlainSearch)
      && (req.endpoint == SearchBar.PlainSearch ==>
            var r := Views.SearchGet(SearchQuery(req.day, req.search), run);
            && r.status != 400
            && (r.status == 200 <==> run(Views.ByDayMatching(Some(day), Views.SearchFilter(Text.Trim(query)))).Rows?))
  {
    Text.TrimIdempotent(query);
    PlainSearchAnswered(day, Text.Trim(query), run);
  }

  /** The search view on the query a text search sends: a trimmed, non-blank text is never
      refused, and the reply is 200 exactly when the day's matching rows come back. */
  lemma PlainSearchAnswered(day: string, text: string, run: Views.Selection -> Views.Rows)
    requires text != "" && Text.Trim(text) == text
    ensures var r := Views.SearchGet(SearchQuery(day, text), run);
      && r.status != 400
      && (r.status == 200 <==> run(Views.ByDayMatching(Some(day), Views.SearchFilter(text))).Rows?)
  {
    var q := SearchQuery(day, text);
    assert Views.GetOne(q, "search") == Some(text);
    assert Views.GetOne(q, "day") == Some(day);
  }

  /** The create POST's body as the back end decodes it. */
  function PayloadJson(p: App.Payload): map<string, Views.Json> {
    map[
      "id" := Views.JStr(p.id),
      "title" := Views.JStr(p.title),
      "description" := Views.JStr(p.description),
      "day" := Views.JStr(p.day),
      "start_time" := Views.JStr(p.startTime),
      "end_time" := Views.JStr(p.endTime),
      "latitude" := Views.JNum(p.latitude),
      "longitude" := Views.JNum(p.longitude),
      "categories" := Views.JArray(Views.Strings(p.categories))]
  }

  /** The payload's keys cover everything the back end requires. */
  lemma PayloadJsonHasRequired(p: App.Payload)
    ensures Views.HasRequired(PayloadJson(p))
  {
    var body := PayloadJson(p);
    assert forall k :: k in Views.Required ==> k in body;
  }

  /** A body with every required field and some category is refused, if at all, only for
      its times or its coordinates. */
  lemma CompleteBodyChecks(env: Views.Env, body: map<string, Views.Json>)
    requires Views.HasRequired(body) && |Views.ToList(env, body["categories"])| > 0
    ensures var r := Views.ValidateEvent(env, body);
      r.Some? ==> r.value in {Views.BadDatetime, Views.EndNotAfterStart, Views.NotNumbers,
                              Views.LatitudeOutOfRange, Views.LongitudeOutOfRange}
  {
  }

  /** The back end finds every required field in a payload and reads its category list
      back unchanged; the empty identifier is falsy, so the stored event gets a fresh one. */
  lemma PayloadJsonComplete(env: Views.Env, p: App.Payload)
    requires p.id == "" && p.categories != []
    requires forall i :: 0 <= i < |p.categories| ==> Text.IsTag(p.categories[i])
    ensures var body := PayloadJson(p);
      && Views.HasRequired(body)
      && Views.ToList(env, body["categories"]) == p.categories
      && (Views.ValidateEvent(env, body).Some? ==>
            Views.ValidateEvent(env, body).value in {Views.BadDatetime, Views.EndNotAfterStart,
              Views.NotNumbers, Views.LatitudeOutOfRange, Views.LongitudeOutOfRange})
      && !Views.Truthy(Views.Get(body, "id"))
  {
    PayloadJsonHasRequired(p);
    PayloadJsonFields(env, p);
    PayloadJsonChecks(env, p);
  }

  /** The checks a payload with clean categories can fail. */
  lemma PayloadJsonChecks(env: Views.Env, p: App.Payload)
    requires p.categories != []
    requires forall i :: 0 <= i < |p.categories| ==> Text.IsTag(p.categories[i])
    ensures var r := Views.ValidateEvent(env, PayloadJson(p));
      r.Some? ==> r.value in {Views.BadDatetime, Views.EndNotAfterStart, Views.NotNumbers,
                              Views.LatitudeOutOfRange, Views.LongitudeOutOfRange}
  {
    var body := PayloadJson(p);
    PayloadJsonHasRequired(p);
    PayloadJsonFields(env, p);
    assert |Views.ToList(env, body["categories"])| > 0;
    CompleteBodyChecks(env, body);
  }

  /** The categories and the identifier as the back end reads them from the body. */
  lemma PayloadJsonFields(env: Views.Env, p: App.Payload)
    requires forall i :: 0 <= i < |p.categories| ==> Text.IsTag(p.categories[i])
    ensures Views.ToList(env, PayloadJson(p)["categories"]) == p.categories
    ensures Views.Get(PayloadJson(p), "id") == Views.JStr(p.id)
  {
    PayloadJsonEntries(p);
    Views.TagsRoundTrip(env, p.categories);
  }

  lemma PayloadJsonEntries(p: App.Payload)
    ensures PayloadJson(p)["categories"] == Views.JArray(Views.Strings(p.categories))
    ensures Views.Get(PayloadJson(p), "id") == Views.JStr(p.id)
  {
  }

  /** A payload the create form lets through is never refused for a missing field or for
      having no categories, and is stored under a fresh identifier. */
  lemma SubmittedPayloadIsComplete(env: Views.Env, s: App.State, js: DayTime.JsDate,
                                   data: CreateDetails.FormData)
    requires App.Prepare(s, js, data).Send?
    requires forall i :: 0 <= i < |data.categories| ==> Text.IsTag(data.categories[i])
    ensures var body := PayloadJson(App.Prepare(s, js, data).payload);
      && Views.HasRequired(body)
      && Views.ToList(env, body["categories"]) == App.Prepare(s, js, data).payload.categories
      && (Views.ValidateEvent(env, body).Some? ==>
            Views.ValidateEvent(env, body).value in {Views.BadDatetime, Views.EndNotAfterStart,
              Views.NotNumbers, Views.LatitudeOutOfRange, Views.LongitudeOutOfRange})
      && !Views.Truthy(Views.Get(body, "id"))
  {
    var p := App.Prepare(s, js, data).payload;
    assert Text.IsTag("general") by {
      assert "general"[0] == 'g' && "general"[6] == 'l';
      assert forall k :: 0 <= k < 7 ==> "general"[k] != ',';
    }
    PayloadJsonComplete(env, p);
  }
}
